=== FILE: README.md ===
# Storefront model

A Dafny model of the core of a small online shop. The shop has two halves.

The Express/Mongoose server covers:
- the auth controller: token check, one-time codes e-mailed and kept in the session, register and login;
- the two route middlewares that read and verify a JSON web token;
- the `FileSystem` helper class over `fs`;
- the multer upload configuration;
- the product controller: create, read and delete;
- the save and delete hooks of the Category and Product schemas;
- the start-up seeder that makes sure an "others" category exists.

The React/Redux client covers:
- the store slices (auth, modal, categories, blogs, users);
- the navigation links of the navbar and footer;
- the product page carousel;
- the admin dashboard's gate and search;
- the home page's latest-products strip;
- the admin forms that create and edit products and categories;
- the sign-in page with its login, register and forgotten-password forms.

The model works on immutable values:
- The upload tree is a map from paths (sequences of segments) to nodes: a file holding data, or a directory.
- A database collection is a sequence of records.
- A form's state is a datatype, and every event handler is a function from the old state to the new one.
- The admin forms keep an `errors` object keyed by field name. A cleared entry holds `""`, which stands for both `""` and `null`, because the forms only ever test an entry for truthiness.
- Things the code cannot see become parameters:
  - bcrypt's hash and compare;
  - jsonwebtoken's sign and verify;
  - `Math.random` draws;
  - the clock;
  - the ObjectIds MongoDB assigns;
  - the token `URL.createObjectURL` appends after `blob:`;
  - for the sign-in page, the server (a function from request to response).

Files:
- `wrappers.dfy`, `seqs.dfy`, `strings.dfy`, `paths.dfy`: shared helpers.
- `posix.dfy`: the `fs` primitives.
- `file_system.dfy`, `upload.dfy`, `otp.dfy`, `middleware.dfy`, `auth_controller.dfy`, `documents.dfy`, `product_model.dfy`, `category_model.dfy`, `seeder.dfy`, `product_controller.dfy`: the server.
- `auth_slice.dfy`, `modal_slice.dfy`, `list_slices.dfy`, `nav_links.dfy`, `product_page.dfy`, `dashboard.dfy`, `home.dfy`, `forms.dfy`, `product_creator.dfy`, `product_editor.dfy`, `category_forms.dfy`, `auth_page.dfy`: the client.

## Model

| member | source | states |
|---|---|---|
| Posix.MkdirP | server/src/utils/fileSystem.js:14-20 | `mkdir -p` fails exactly when some prefix of the path is a file. On success every prefix is a directory, nothing that existed changes, and only prefixes of the path are added. |
| Posix.MkdirPreservesWellFormed | server/src/utils/fileSystem.js:14-20 | Creating directories keeps every node's parent a directory. |
| Posix.Rename | server/src/utils/fileSystem.js:58-66 | A rename succeeds exactly when it is allowed. On success the file is at the destination and gone from the source, and every other path is unchanged. |
| Posix.RenamePreservesWellFormed | server/src/utils/fileSystem.js:58-66 | A rename keeps every node's parent a directory. |
| Posix.Unlink | server/src/models/Category.js:68 | `unlink` succeeds exactly on a file. It removes that one path and leaves every other node as it was. |
| Posix.UnlinkPreservesWellFormed | server/src/models/Category.js:68 | Unlinking a file keeps the tree well formed. |
| Posix.RmRecursive | server/src/utils/fileSystem.js:28-34 | `rm -r` fails with `ENOTDIR` exactly when a proper prefix of the path is a file, whatever `force` is. It fails with `ENOENT` on a missing path without `force`. Otherwise exactly the paths under the target go, and the rest are unchanged. |
| Posix.RmPreservesWellFormed | server/src/utils/fileSystem.js:28-34 | Removing a subtree keeps the tree well formed. |
| Posix.CopyFile | server/src/utils/fileSystem.js:164-172 | A copy succeeds exactly when allowed. The destination gets the source's node, and nothing else changes. |
| Posix.CopyPreservesWellFormed | server/src/utils/fileSystem.js:164-172 | Copying keeps the tree well formed. |
| Posix.ParentError | server/src/utils/fileSystem.js:105-111 | Writing a path fails for want of a parent exactly when the parent is not a directory. |
| Posix.Stat | server/src/utils/fileSystem.js:180-186 | `stat` succeeds exactly on an existing path and returns its node. |
| FileSystem.MakeDirectory | server/src/utils/fileSystem.js:14-20 | Succeeds exactly when no prefix is a file. Then the directory exists, every existing node is kept, and the only new nodes are directories on the way to it. A failure is rethrown as a make-directory error naming the path. |
| FileSystem.RemoveDirectory | server/src/utils/fileSystem.js:28-34 | `force` makes a missing directory no error. It fails, with the `ENOTDIR` cause, exactly when a proper prefix of the directory is a file. Otherwise it removes exactly the subtree under the directory, and every other node keeps its value. |
| FileSystem.MoveFile | server/src/utils/fileSystem.js:58-66 | The destination is the path itself when it has an extension, and otherwise the directory that receives the source's base name. The move succeeds exactly when that rename is allowed. A failure names both paths. |
| FileSystem.CopyFile | server/src/utils/fileSystem.js:164-172 | Resolves the destination the same way as `moveFile`. It succeeds exactly when that copy is allowed. The resolved destination gets the source's content, and it is the only path added or changed. |
| FileSystem.MoveAndCopyAgree | server/src/utils/fileSystem.js:58-66 | When both succeed, a move and a copy put the same content at the same resolved destination. |
| FileSystem.ReadFile | server/src/utils/fileSystem.js:89-95 | Succeeds exactly on a file and returns its data. |
| FileSystem.WriteFile | server/src/utils/fileSystem.js:105-111 | Succeeds exactly when the target is not a directory and its parent is one. Reading the file back then gives the data written, and every other path is unchanged. |
| FileSystem.ListDirectory | server/src/utils/fileSystem.js:120-127 | Succeeds exactly on a directory and lists one entry per child. With `fullPath` each entry is the joined path, otherwise the bare name. |
| FileSystem.Exists | server/src/utils/fileSystem.js:73-80 | True exactly when the path is in the tree. |
| FileSystem.IsDirectory | server/src/utils/fileSystem.js:134-141 | True exactly on a directory; false, not an error, on a missing path. |
| FileSystem.IsFile | server/src/utils/fileSystem.js:148-155 | True exactly on a file; false, not an error, on a missing path. |
| FileSystem.PredicatesAgree | server/src/utils/fileSystem.js:73-155 | A path exists exactly when it is a file or a directory, and never both. |
| FileSystem.GetStats | server/src/utils/fileSystem.js:180-186 | Succeeds exactly when the path exists and returns its node. |
| Paths.ExtOf | server/src/utils/upload.js:37 | `path.extname`: non-empty exactly when the last dot is not the first character and the name is not "..", and then it is the name from its last dot on; otherwise empty. |
| Paths.ExtOfStemAndExt | server/src/utils/upload.js:37 | A dot-free stem followed by a name's extension has that same extension. |
| Paths.LastIndexOf | server/src/utils/upload.js:37 | The last index of a character, or -1, with no occurrence after it. |
| Upload.UploadFolder | server/src/utils/upload.js:8-27 | The route is dispatched by substring in the order category, blog, product. It yields the folder under `uploads/categories`, `uploads/blogs` or `uploads/product` named after the title. An empty title is an error naming the kind. Any other route is "Invalid route.". |
| Upload.CategoryWinsOverProduct | server/src/utils/upload.js:8-24 | A route mentioning both "category" and "product" goes to the categories folder. |
| Upload.DestinationCallbacks | server/src/utils/upload.js:5-32 | Every call of the destination callback carries an error, and there are one or two of them. Exactly an invalid route gives the single "Invalid route." call. A missing or empty title gives the title error and then the directory failure: the `path.join` type error when the title was not sent, the undefined `mkdir` when it was empty. A good title gives only the directory failure, because `mkdir` is never defined. |
| Upload.FileFilter | server/src/utils/upload.js:45-52 | Accepts exactly `image/jpeg`, `image/png` and `application/pdf`. Anything else is "Invalid file type". |
| Upload.AcceptFile | server/src/utils/upload.js:42-53 | A file is accepted exactly when its type passes `fileFilter` and it is at most 5 MB (5 * 1024 * 1024 bytes). A refused type gives "Invalid file type"; an allowed type that is too large gives "File too large". |
| Upload.FilterDisagreesWithFormCheck | server/src/utils/upload.js:46 | The server refuses a GIF that the forms' `image/` check lets through, and accepts a PDF that the forms refuse. |
| Upload.UniqueSuffix | server/src/utils/upload.js:34 | The time-and-random suffix has no dot and is at least three characters long. |
| Upload.StoredFilename | server/src/utils/upload.js:33-39 | The stored name starts with `<fieldname>-` and ends with the original name's extension. |
| Upload.StoredFilenameKeepsExtension | server/src/utils/upload.js:33-39 | The stored name's extension is the original name's extension. |
| Otp.DrawDigit | server/src/utils/generateOTP.js:6 | `Math.floor(Math.random() * 10)` is a digit d with d <= 10r < d+1. |
| Otp.OtpOf | server/src/utils/generateOTP.js:1-9 | A non-positive length gives "". Otherwise the code has exactly that length, and its i-th character is the digit of the i-th draw. |
| Otp.GenerateOtp | server/src/utils/generateOTP.js:1-9 | The loop appends one digit per draw and computes the same string as the recursive definition. |
| Otp.SixDigitCode | server/src/controllers/auth.controller.js:25-72 | The code the controller mails is six decimal digits. |
| Middleware.ExtractToken | server/src/middlewares/authenticateToken.js:6-14 | The cookie wins when present. Otherwise the token is the second space-separated field of a `Bearer ` header, and it is "" when no such header exists. |
| Middleware.BearerHeaderToken | server/src/middlewares/authorizeRole.js:8-15 | `Bearer <t>` yields t for a space-free t, and a bare `Bearer ` yields "". |
| Middleware.AuthorizeRole | server/src/middlewares/authorizeRole.js:8-39 | Each outcome happens exactly when its condition holds: 401 when there is no token, 403 "Invalid or expired token." when verification fails, 403 "Insufficient role" when the role is not allowed, and `next` exactly when a token verifies with an allowed role, passing that decoded user on. |
| Middleware.AuthenticateToken | server/src/middlewares/authenticateToken.js:6-29 | 401 exactly when there is no token and 403 exactly when verification fails. Otherwise `next` gets the decoded payload. |
| Middleware.AuthorizeImpliesAuthenticate | server/src/middlewares/authorizeRole.js:25-36 | Whatever `authorizeRole` admits, `authenticateToken` admits with the same user. An empty role list admits no one. |
| Middleware.CookieWins | server/src/middlewares/authenticateToken.js:6-14 | With a cookie present, the header plays no part. |
| Strings.SplitJoin | server/src/middlewares/authenticateToken.js:11 | `split(" ")` loses nothing: joining the fields gives the string back. |
| Strings.SplitAfterFirstSeparator | server/src/middlewares/authenticateToken.js:11 | In `pre + " " + rest`, field 0 is `pre` and field 1 is the first field of `rest`. |
| AuthController.ValidateToken | server/src/controllers/auth.controller.js:9-22 | No cookie gives 200 with null id and role. A valid token gives 200 with its claims. An invalid one gives 401 "Invalid or Expired token". The cookie is cleared exactly on 401. |
| AuthController.SendOtp | server/src/controllers/auth.controller.js:25-72 | An empty e-mail gives 400 and an unchanged session. Otherwise the session holds the e-mail, a six-digit code and an expiry five minutes ahead, and the reply names the e-mail. |
| AuthController.VerifyOtp | server/src/controllers/auth.controller.js:75-123 | 200 happens exactly for a session for this e-mail, unexpired, with this code. It then clears the session and reports the e-mail verified. Every failure is a 400 that keeps the session. |
| AuthController.VerifyOtpCheckOrder | server/src/controllers/auth.controller.js:96-106 | The checks run in the order e-mail match, then expiry, then code, each with its own message. |
| AuthController.OtpSingleUse | server/src/controllers/auth.controller.js:109 | Once a code has been accepted it cannot be used again. |
| AuthController.SentCodeAccepted | server/src/controllers/auth.controller.js:56-60 | The code just sent is accepted up to its expiry, for the same e-mail. |
| AuthController.FindUser | server/src/controllers/auth.controller.js:137 | `findOne({email})`: None exactly when no user has the e-mail; otherwise a user with it. |
| AuthController.Register | server/src/controllers/auth.controller.js:126-176 | Empty fields give 400. An existing e-mail gives 400. 201 happens exactly for a new e-mail with both fields set; it appends a user with the hashed password and the default role and issues a token. Every failure leaves the users unchanged. |
| AuthController.Login | server/src/controllers/auth.controller.js:179-218 | The users never change. Empty fields give 400. An unknown e-mail and a wrong password give the same 400 "Invalid credentials". 200 exactly when the password compares equal to the stored hash, with a token for that user's id and role. |
| AuthController.LoginHidesUnknownEmail | server/src/controllers/auth.controller.js:189-196 | An unknown e-mail and a wrong password cannot be told apart. |
| AuthController.LoginAfterRegister | server/src/controllers/auth.controller.js:158-210 | With a compare that accepts its own hashes, a registered user can log in with the same password. |
| Documents.NewCategory | server/src/models/Category.js:5-13 | A created category is not the default one and has the given fields. |
| Documents.FindCategoryByTitle | server/src/models/Product.js:34 | `findOne({title})`: None exactly when no category has the title; otherwise the first one that does. |
| Documents.FindProduct | server/src/controllers/product.controller.js:75 | `findById`: None exactly when no product has the id in any letter case; otherwise one that does. |
| Documents.FindProductSameId | server/src/controllers/product.controller.js:75 | Two spellings of one id that differ only in letter case find the same product. |
| Documents.SameIdKeepsObjectId | server/src/controllers/product.controller.js:75 | Two spellings of one id are both ObjectIds, or neither is. |
| Documents.CastId | server/src/models/Product.js:26-29 | The stored `categoryId` is the same id as the one sent, and it is an ObjectId exactly when the sent one is. |
| Documents.DeleteProduct | server/src/controllers/product.controller.js:106 | `findByIdAndDelete`: no record with the id in any letter case remains, every other record remains, and the order is kept. |
| ProductModel.PreSave | server/src/models/Product.js:32-47 | A product with a category is saved unchanged. One without a category gets the id of the "سایر" category, which is created first when missing. Nothing else about the product changes. |
| ProductModel.CreatedOtherIsValid | server/src/models/Product.js:37-41 | The category the hook creates passes the schema's required checks and is not the default one. |
| ProductModel.PreSaveKeepsOneOther | server/src/models/Product.js:33-44 | The hook never makes a second "سایر" category. |
| ProductModel.SaveAll | server/src/models/Product.js:32-47 | Saving n products adds at most n categories. |
| ProductModel.SaveAllKeepsOneOther | server/src/models/Product.js:33-44 | Any number of saves in a row still leaves at most one "سایر" category. |
| CategoryModel.AfterSave | server/src/models/Category.js:15-49 | The "others" category is left alone, and so is a category whose folder path is blocked by a file. Every path other than the image's upload location and its destination keeps its node, and every new path is a prefix of the category's folder or the moved image. |
| CategoryModel.AfterSaveMovesImage | server/src/models/Category.js:27-42 | With the image uploaded and nothing in the way, the image ends up in `categories/<title>/` and no longer in `categories/`. |
| CategoryModel.AfterSaveKeepsOtherPaths | server/src/models/Category.js:15-49 | Every path other than the uploaded image survives the hook. |
| CategoryModel.AfterDelete | server/src/models/Category.js:51-76 | No document, a default one, or a missing image leaves the tree alone. Otherwise the image and the folder go. The hook never adds or changes a node. |
| CategoryModel.SaveThenDeleteRemovesFolder | server/src/models/Category.js:15-76 | Saving a category and then deleting it leaves nothing under its folder. |
| Seeder.MakeFolder | server/src/seeders/createDefaultCategory.js:34-36 | The folder step is skipped when the folder exists. Otherwise it keeps every existing node and adds only nodes on the way to the folder. |
| Seeder.CopyImage | server/src/seeders/createDefaultCategory.js:39-41 | The copy step is skipped when the image exists. When it succeeds the image is there, and a fresh copy sits in a directory. It keeps every existing node and adds only the image. |
| Seeder.FolderMade | server/src/seeders/createDefaultCategory.js:34-36 | On a tree with no file on the folder's path, the folder step succeeds. The folder is then a directory, the image is still absent and the default image is unchanged. |
| Seeder.Seed | server/src/seeders/createDefaultCategory.js:6-58 | With an "others" category present nothing changes. Otherwise the category is appended, with its image copied into its folder. The run never changes or removes an existing node, and adds only that folder's prefixes and the image. |
| Seeder.SeedCreatesOthers | server/src/seeders/createDefaultCategory.js:15-49 | On a fresh tree with the default image, the run creates the category, its folder and the image copy. |
| Seeder.SeedPreservesWellFormed | server/src/seeders/createDefaultCategory.js:34-41 | Seeding keeps the tree well formed. |
| Seeder.SeedIdempotent | server/src/seeders/createDefaultCategory.js:11 | Running the seeder twice is running it once. |
| Seeder.SeedKeepsOneOthers | server/src/seeders/createDefaultCategory.js:11-31 | The seeder never makes a second "others" category. |
| ProductController.GalleryNames | server/src/controllers/product.controller.js:15 | A missing gallery is the empty list; a present one is its file names. |
| ProductController.MoveAllOkIff | server/src/controllers/product.controller.js:36-49 | The rename loop completes exactly when the names are distinct and each is a file in the source folder not blocked in the target. |
| ProductController.MoveAllFrame | server/src/controllers/product.controller.js:36-49 | The loop touches no path other than its own sources and targets. |
| ProductController.MoveAllPlacesEveryFile | server/src/controllers/product.controller.js:36-49 | After a completed loop every file sits in the product folder with its old content, and none is left behind. |
| ProductController.MoveUploads | server/src/controllers/product.controller.js:18-49 | After the folder is created and all renames succeed, every file is in the folder. Repeated names always fail. |
| ProductController.Create | server/src/controllers/product.controller.js:5-71 | 400 happens exactly when the title, image or price is missing, and changes nothing. Other failures are 500 with no record added; a `categoryId` that is not an ObjectId is one of them, once the uploads have moved. 200 appends a record with the given fields and bare file names, the category cast to lower-case hex or filled in by the save hook, after all uploads moved. The stored categories and product are what the save hook makes of that document: a sent category leaves the categories unchanged, and a missing one is the id of an "others" category in the stored list. |
| ProductController.CreateMovesEveryUpload | server/src/controllers/product.controller.js:18-49 | A created product's image and gallery files are all in its folder, and none is left in `uploads/products`. |
| ProductController.CreateRejectsRepeatedNames | server/src/controllers/product.controller.js:36-49 | An upload list that repeats a name ends in 500 with no product. |
| ProductController.ReadAsWritten | server/src/controllers/product.controller.js:73-86 | As written, an id that is not an ObjectId gives 500 from the cast error, and so does a missing id, because the record is read before the null check. A found product comes back with every product of its category, itself included. |
| ProductController.ReadNotFoundUnreachable | server/src/controllers/product.controller.js:79-81 | The 400 "Product not found." reply is unreachable as written. |
| ProductController.Read | server/src/controllers/product.controller.js:73-86 | Corrected: 500 exactly when the id is not an ObjectId; 400 exactly when it is one that no product has, in any letter case; otherwise 200 with that product. |
| ProductController.ReadIgnoresIdCase | server/src/controllers/product.controller.js:75 | Spellings of an id that differ only in letter case get the same reply. |
| ProductController.ReadAgreesWhenFound | server/src/controllers/product.controller.js:75-82 | For an existing id the corrected and the as-written handlers agree. |
| ProductController.Delete | server/src/controllers/product.controller.js:99-113 | An id that is not an ObjectId gives 500 and changes nothing. A missing ObjectId gives 404 and changes nothing. Otherwise the reply is 200 with the id, and exactly that record is removed. |
| ProductController.DeleteLeavesNoMatch | server/src/controllers/product.controller.js:99-113 | When every stored id is an ObjectId, no record with the id is left after a delete, whatever id was sent. |
| ProductController.ReadAfterDelete | server/src/controllers/product.controller.js:99-113 | After a delete, reading the id finds nothing: 400 for an ObjectId, 500 for any other id. |
| ProductController.ReadAfterCreate | server/src/controllers/product.controller.js:62-82 | With a fresh ObjectId, reading a created product returns it. |
| AuthSlice.Reduce | client/src/store/auth/authSlice.js:15-38 | `loginSuccess` authenticates with the payload's id and role. `loginFilure` clears them and records the error. `logout` returns to the initial state. `setLoading` only raises the flag. |
| AuthSlice.ReducePreservesConsistent | client/src/store/auth/authSlice.js:15-38 | Every reducer keeps "when logged out, no user id and no role are held"; the converse is not promised. |
| AuthSlice.RunPreservesConsistent | client/src/store/auth/authSlice.js:15-38 | Any sequence of actions keeps that invariant. |
| AuthSlice.InitialConsistent | client/src/store/auth/authSlice.js:3-9 | The initial state satisfies it: nobody is logged in and nothing is loading. |
| AuthSlice.RunEndingInLogout | client/src/store/auth/authSlice.js:29-35 | Whatever came before, a run ending in `logout` ends in the initial state. |
| ModalSlice.OpenModal | client/src/store/Modal/modalSlice.js:15-20 | Opening shows the given title and message, with the buttons given or none. |
| ModalSlice.CloseModal | client/src/store/Modal/modalSlice.js:21-26 | Closing hides the modal and clears title, message and buttons. |
| ModalSlice.ModalLaws | client/src/store/Modal/modalSlice.js:4-26 | Opening forgets the previous state, closing gives the initial state, and open then close is close. |
| ListSlice.SetItems | client/src/store/category/categorySlice.js:11-13 | The payload becomes the list. |
| ListSlice.RemoveById | client/src/store/category/categorySlice.js:17-21 | Removing throws exactly when the field holds a number, which is what an add leaves there. Otherwise no record with the id remains, every other record remains, and the order is kept. |
| ListSlice.RemoveKeepsExactlyOthers | client/src/store/category/categorySlice.js:17-21 | A record survives removal exactly when it was there and has another id. |
| ListSlice.RemoveAbsentAndIdempotent | client/src/store/category/categorySlice.js:17-21 | Removing an absent id changes nothing, and removing twice is removing once. |
| ListSlice.AddAsWritten | client/src/store/category/categorySlice.js:14-16 | As written, `add` stores the new length that `push` returns in place of the list. |
| ListSlice.AddThenRemoveThrows | client/src/store/category/categorySlice.js:14-21 | After an add, any remove throws. |
| CategorySlice.SetCategories | client/src/store/category/categorySlice.js:11-13 | The payload becomes the categories. |
| CategorySlice.AddCategory | client/src/store/category/categorySlice.js:14-16 | On a list, the categories become the length the push returned; on a field that already holds a number, `push` throws. |
| CategorySlice.RemoveCategory | client/src/store/category/categorySlice.js:17-21 | Fails exactly on a number. On a list it drops every record with the id, keeps every other one, and keeps their order without adding any. |
| BlogSlice.SetBlogs | client/src/store/blog/blogSlice.js:11-13 | The payload becomes the blogs. |
| BlogSlice.AddBlog | client/src/store/blog/blogSlice.js:14-16 | On a list, the blogs become the length the push returned; on a field that already holds a number, `push` throws. |
| BlogSlice.RemoveBlog | client/src/store/blog/blogSlice.js:17-19 | Fails exactly on a number. On a list it drops every record with the id, keeps every other one, and keeps their order without adding any. |
| UserSlice.SetUsers | client/src/store/user/userSlice.js:11-13 | The payload becomes the users. |
| UserSlice.AddUser | client/src/store/user/userSlice.js:14-16 | On a list, the users become the length the push returned; on a field that already holds a number, `push` throws. |
| UserSlice.RemoveUser | client/src/store/user/userSlice.js:17-19 | Fails exactly on a number. On a list it drops every record with the id, keeps every other one, and keeps their order without adding any. |
| NavLinks.Entries | client/src/components/Navbar/Navbar.jsx:13-22 | The fixed links, then each conditional link that is present, in order. |
| NavLinks.NavbarLinks | client/src/components/Navbar/Navbar.jsx:13-22 | Four fixed links come first. "Auth" shows exactly when logged out, "Profile" exactly when logged in, and "Dashboard" exactly for a logged-in admin. |
| NavLinks.FooterLinks | client/src/components/Footer/Footer.jsx:24-32 | Three fixed links come first. "Login / Register" shows exactly when logged out, "Profile" exactly when logged in, and "Dashboard" exactly for a logged-in admin. |
| NavLinks.AuthXorProfile | client/src/components/Footer/Footer.jsx:28-31 | Both menus show exactly one of the sign-in and profile links. |
| NavLinks.HandleLinkClick | client/src/components/Navbar/Navbar.jsx:28-31 | A click marks the link active and closes the menu. |
| NavLinks.HandleLinkClickIdempotent | client/src/components/Navbar/Navbar.jsx:28-31 | Clicking the same link twice is clicking it once. |
| ProductPage.Images | client/src/pages/Product/ProductPage.jsx:105 | The main image, then the gallery (empty when missing). |
| ProductPage.NextImage | client/src/pages/Product/ProductPage.jsx:62-69 | With no product the index stays. From the last image it wraps to 0, otherwise it steps forward. |
| ProductPage.PrevImage | client/src/pages/Product/ProductPage.jsx:71-78 | With no product the index stays. From 0 it wraps to the last image, otherwise it steps back. |
| ProductPage.CarouselLaws | client/src/pages/Product/ProductPage.jsx:62-78 | Both buttons keep a valid index, each undoes the other, and with one image neither moves. |
| ProductPage.ForwardFullCircle | client/src/pages/Product/ProductPage.jsx:62-69 | Pressing next once per image returns to the starting image. |
| ProductPage.ForwardLinear | client/src/pages/Product/ProductPage.jsx:62-69 | Before the wrap, k presses advance by k. |
| ProductPage.ForwardCompose | client/src/pages/Product/ProductPage.jsx:62-69 | a presses then b presses is a+b presses. |
| ProductPage.StaleIndexRunsPastEnd | client/src/pages/Product/ProductPage.jsx:22 | The index is not reset when the product changes, so a stale index past the end keeps growing. |
| ProductPage.Related | client/src/pages/Product/ProductPage.jsx:39-41 | The related list drops exactly the shown product's id and keeps the rest in order. |
| ProductPage.Sku | client/src/pages/Product/ProductPage.jsx:116 | The SKU is the upper-cased last six characters of the id, or the whole id when shorter. |
| ProductPage.SkuOfObjectId | client/src/pages/Product/ProductPage.jsx:257 | A 24-character id gives a 6-character SKU. Ids that share their last six characters share a SKU. |
| Dashboard.Gate | client/src/pages/Admin/Dashboard.jsx:52-71 | The panel shows exactly for the admin role. |
| Dashboard.Search | client/src/pages/Admin/Dashboard.jsx:105-118 | A missing list gives []. Otherwise it keeps, in order, exactly the items whose key contains the term, ignoring case. |
| Dashboard.EmptyTermKeepsAll | client/src/pages/Admin/Dashboard.jsx:105-118 | An empty search shows everything. |
| Dashboard.SearchIgnoresCase | client/src/pages/Admin/Dashboard.jsx:105-118 | Upper-casing the term does not change the result. |
| Dashboard.LowerOfUpper | client/src/pages/Admin/Dashboard.jsx:107 | Lower-casing an upper-cased string is lower-casing it. |
| Dashboard.FiltersUseTheirKeys | client/src/pages/Admin/Dashboard.jsx:105-118 | Products and categories are searched by title, users by e-mail. |
| Dashboard.ShowsDelete | client/src/pages/Admin/Dashboard.jsx:351 | The delete button is hidden exactly for a title equal to "others", ignoring case. |
| Dashboard.OthersHasNoDelete | client/src/pages/Admin/Dashboard.jsx:351 | "others", "Others" and "OTHERS" have no delete button; "other" has one. |
| Home.LatestProducts | client/src/pages/Home/Home.jsx:8-9 | At most the last six products of the list, the last one first (the newest first when the list is in creation order). |
| Home.LatestOfFew | client/src/pages/Home/Home.jsx:8-78 | Six or fewer products are all shown, in reverse order. The slider shows exactly when there is one. |
| Seqs.TakeLast | client/src/pages/Home/Home.jsx:9 | `slice(-n)`: the last min(n, length) elements, in order. |
| Seqs.Reverse | client/src/pages/Home/Home.jsx:9 | Element i of the result is element length-1-i of the input. |
| Strings.ToLower | client/src/pages/Admin/Dashboard.jsx:107 | Lower-cases each character in place. |
| Strings.ToLowerIdempotent | client/src/pages/Admin/Dashboard.jsx:107 | Lower-casing twice is lower-casing once. |
| Strings.BlankIffTrimsAway | client/src/pages/Product/ProductCreator.jsx:54 | `!s.trim()` holds exactly when every character is white space. |
| Forms.FirstNonImage | client/src/pages/Product/ProductCreator.jsx:126-132 | `find`: None exactly when every file is an image; otherwise the first file that is not. |
| Forms.FirstFile | client/src/pages/Product/ProductCreator.jsx:113 | `files[0]`, absent exactly when nothing was chosen. |
| Forms.Failures | client/src/pages/Product/ProductCreator.jsx:53-58 | The fresh errors object holds exactly the checked fields whose check fails, each with its check's message, and it is empty exactly when every check passes. |
| Forms.PickImage | client/src/pages/Product/ProductCreator.jsx:112-122 | No file changes nothing. A non-image keeps the current image and records "Please upload an image file". An image replaces the current one and clears the error. Other keys are untouched. |
| Forms.PickImageIdempotent | client/src/pages/Product/ProductCreator.jsx:112-122 | Picking the same files twice is picking them once. |
| Forms.GalleryErrors | client/src/pages/Product/ProductCreator.jsx:126-132 | A batch with a non-image records "All gallery files must be images"; an accepted batch clears the entry. |
| ProductCreator.HandleInputChange | client/src/pages/Product/ProductCreator.jsx:36-50 | Stores the value in the named field only. Clears that field's error when it had one, and otherwise leaves the errors as they were. |
| ProductCreator.InputChangeClearsOnlyItsError | client/src/pages/Product/ProductCreator.jsx:44-49 | After a change, its field shows no error and every other field's error is unchanged. |
| ProductCreator.NewErrors | client/src/pages/Product/ProductCreator.jsx:53-58 | One key per failing check: blank title, no image, no price, negative stock, blank description. Each key holds its check's message, and there are no other keys. |
| ProductCreator.ValidateForm | client/src/pages/Product/ProductCreator.jsx:52-62 | The shown errors are replaced by the fresh ones. The form is valid exactly when none was recorded: title and description not blank, an image picked, a price given, stock not negative. |
| ProductCreator.NonPositivePriceAccepted | client/src/pages/Product/ProductCreator.jsx:56 | Only presence of the price is checked: zero or a negative price passes. |
| ProductCreator.HandleImageChange | client/src/pages/Product/ProductCreator.jsx:112-122 | The shared image picker on the form's image. An accepted image clears the image error, a refused one records it, and every other error key is kept. The fields and gallery are untouched. |
| ProductCreator.HandleGalleryChange | client/src/pages/Product/ProductCreator.jsx:124-133 | A batch with any non-image is refused whole and records the error. An all-image batch replaces the gallery and clears the error. Only the gallery error key changes. |
| ProductCreator.GalleryBatchReplaces | client/src/pages/Product/ProductCreator.jsx:131 | An accepted batch does not depend on the earlier gallery. |
| ProductCreator.RemoveGalleryImage | client/src/pages/Product/ProductCreator.jsx:135-137 | An index in range splices out that element; any other index changes nothing. |
| ProductCreator.RemoveTakesExactlyOne | client/src/pages/Product/ProductCreator.jsx:135-137 | One fewer image, and the others keep their relative order. |
| ProductEditor.Load | client/src/pages/Product/ProductEditor.jsx:48-65 | Copies the product's fields. A missing category, image or gallery becomes "" or []. The picked files and errors are untouched. |
| ProductEditor.LoadAligned | client/src/pages/Product/ProductEditor.jsx:52-60 | After loading, the previews are the stored images and there are no new files, so previews and files line up. |
| ProductEditor.ObjectUrls | client/src/pages/Product/ProductEditor.jsx:94-98 | One `blob:` URL per file, in order. |
| ProductEditor.NewErrors | client/src/pages/Product/ProductEditor.jsx:28-33 | A price error exactly when the price is missing or not positive. An image error exactly when there is neither a new file nor a stored preview. Title, stock and description are checked as on the creation page. Each key holds its check's message, and there are no other keys. |
| ProductEditor.ValidateForm | client/src/pages/Product/ProductEditor.jsx:27-37 | The shown errors are replaced by the fresh ones. The form is valid exactly when no check fails. |
| ProductEditor.StoredImageSatisfiesImageCheck | client/src/pages/Product/ProductEditor.jsx:33 | A loaded product with an image passes the image check without a new file. |
| ProductEditor.HandleImageChange | client/src/pages/Product/ProductEditor.jsx:72-83 | An accepted image also becomes the preview through its object URL and clears the image error. A refused one keeps image and preview and records the error. Every other error key is kept. |
| ProductEditor.HandleGalleryChange | client/src/pages/Product/ProductEditor.jsx:85-99 | A batch with any non-image is refused whole and records the error. An all-image batch is appended to the files, with its object URLs appended to the previews, and clears the gallery error. Only the gallery error key changes. |
| ProductEditor.GalleryChangePreservesAligned | client/src/pages/Product/ProductEditor.jsx:94-98 | Adding a batch keeps the new files lined up with the tail of the previews. |
| ProductEditor.AppendKeepsAligned | client/src/pages/Product/ProductEditor.jsx:94-98 | Appending files together with their object URLs, in the same order, keeps the two lists lined up. |
| ProductEditor.RemoveAsWritten | client/src/pages/Product/ProductEditor.jsx:101-115 | As written, removal splices both lists at the same index. |
| ProductEditor.RemoveAsWrittenMisaligns | client/src/pages/Product/ProductEditor.jsx:106-114 | As written, removing the first preview of a product with stored images drops a new file whose preview remains. |
| ProductEditor.RemoveAsWrittenExample | client/src/pages/Product/ProductEditor.jsx:106-114 | Previews ["a.jpg", "blob:1"] with one new file: removing index 0 leaves the preview "blob:1" and no file. |
| ProductEditor.RemoveGalleryImage | client/src/pages/Product/ProductEditor.jsx:101-115 | Corrected: the preview at the index goes. Its file goes too when the preview is a new one, at the index less the stored count. Removing a stored preview keeps the files. |
| ProductEditor.RemovePreservesAligned | client/src/pages/Product/ProductEditor.jsx:101-115 | The corrected removal keeps files and previews lined up. |
| ProductEditor.RemoveStoredKeepsAligned | client/src/pages/Product/ProductEditor.jsx:101-115 | Corrected removal of a stored preview (an index below the stored count) keeps the previews lined up with the files. |
| ProductEditor.RemoveNewKeepsAligned | client/src/pages/Product/ProductEditor.jsx:101-115 | Corrected removal of a new preview (an index at or past the stored count) keeps the previews lined up with the files. |
| ProductEditor.RemoveAgreesWithoutStoredImages | client/src/pages/Product/ProductEditor.jsx:106-114 | Without stored images the corrected and as-written removals agree. |
| ProductEditor.PreviewSrc | client/src/pages/Product/ProductEditor.jsx:347 | A `blob:` preview is used as is; any other is served from the product's upload folder. |
| ProductEditor.PreviewSrcShowsItsImage | client/src/pages/Product/ProductEditor.jsx:420 | A new file shows its object URL, and a stored image shows the URL ending in its file name. |
| Forms.GalleryParts | client/src/pages/Product/ProductEditor.jsx:134-136 | One gallery part per file, in the files' order. |
| ProductEditor.FormParts | client/src/pages/Product/ProductEditor.jsx:123-137 | Four text parts. A category part exactly when one is set, an image part exactly when a new image was picked, and then one part per new gallery file, last and in order. |
| ProductEditor.HandleSubmit | client/src/pages/Product/ProductEditor.jsx:117-164 | A body is built exactly when the form is valid, and it is the form's parts. The errors shown are the validator's. |
| CategoryCreator.NewErrors | client/src/pages/Category/CategoryCreator.jsx:22-25 | One key per failing check: blank title, no image, blank description. Each key holds its check's message, and there are no other keys. |
| CategoryCreator.ValidateForm | client/src/pages/Category/CategoryCreator.jsx:21-29 | The shown errors are replaced by the fresh ones. The form is valid exactly when none fails. |
| CategoryCreator.HandleImageChange | client/src/pages/Category/CategoryCreator.jsx:32-50 | The shared image picker on the category's image: an accepted image clears the image error, a refused one records it, and every other error key is kept. |
| CategoryCreator.RefusedFileKeepsImageCheck | client/src/pages/Category/CategoryCreator.jsx:34-39 | A refused file leaves the validity of the form as it was. |
| CategoryCreator.FormParts | client/src/pages/Category/CategoryCreator.jsx:59-62 | Title and description, then the image when one is picked. |
| CategoryCreator.ValidFormSendsImage | client/src/pages/Category/CategoryCreator.jsx:53-62 | A valid form always sends its image. |
| CategoryEditor.StoredImageUrl | client/src/pages/Category/CategoryEditor.jsx:31 | The URL is under `<api>/uploads/categories/` and ends in the image name. |
| CategoryEditor.Load | client/src/pages/Category/CategoryEditor.jsx:28-32 | Copies title and description and sets the preview to the stored image's URL. |
| CategoryEditor.NewErrors | client/src/pages/Category/CategoryEditor.jsx:53-56 | The image check looks at the preview, not at a new file. Title and description are checked as on the creation page. Each key holds its check's message, and there are no other keys. |
| CategoryEditor.ValidateForm | client/src/pages/Category/CategoryEditor.jsx:52-60 | The shown errors are replaced by the fresh ones. The form is valid exactly when no check fails. |
| CategoryEditor.LoadedCategoryHasImage | client/src/pages/Category/CategoryEditor.jsx:55 | A loaded category always passes the image check. |
| CategoryEditor.HandleImageChange | client/src/pages/Category/CategoryEditor.jsx:63-81 | The shared image picker on the new file: an accepted image clears the image error, a refused one records it, and every other error key is kept. Title, description and preview stay. |
| CategoryEditor.DataUrl | client/src/pages/Category/CategoryEditor.jsx:75-77 | The reader's result is a non-empty `data:` URL. |
| CategoryEditor.ReaderLoaded | client/src/pages/Category/CategoryEditor.jsx:73-76 | When the reader finishes, the preview becomes the file's data URL; title, description, file and errors stay. |
| CategoryEditor.PickThenLoadPassesImageCheck | client/src/pages/Category/CategoryEditor.jsx:52-77 | On a category with no preview, a picked image still fails the image check until the reader has loaded it, and passes it afterwards; the form is then valid exactly when title and description are filled in. |
| CategoryEditor.FormParts | client/src/pages/Category/CategoryEditor.jsx:89-94 | Title and description, then the image only when a new file was chosen. |
| CategoryEditor.TextOnlyEditSendsNoImage | client/src/pages/Category/CategoryEditor.jsx:89-94 | Editing only text sends no image part. |
| AuthPage.SelectForm | client/src/pages/Auth/Auth.jsx:142-153 | A tab switches the form and restarts at step 1, keeping the typed fields. |
| AuthPage.SelectFormLastWins | client/src/pages/Auth/Auth.jsx:150-153 | Only the last tab chosen matters. |
| AuthPage.SetField | client/src/pages/Auth/Auth.jsx:22-25 | Sets the named field only. |
| AuthPage.FieldsShownTogether | client/src/pages/Auth/Auth.jsx:186-219 | Password and code never show together. The repeat field only shows with the password. Login shows the password and nothing else. |
| AuthPage.CheckTokenAsWritten | client/src/pages/Auth/Auth.jsx:5-50 | As written: after a token the page asks who the user is; calling the missing `login` export throws, so nobody is signed in and an answered check ends in the fallback alert. |
| AuthPage.CheckToken | client/src/pages/Auth/Auth.jsx:37-50 | Corrected: after a token the page asks who the user is, and signs in with no alert exactly when that answers; a failed check shows the server's message or the fallback. |
| AuthPage.CheckTokenAsWrittenNeverSignsIn | client/src/pages/Auth/Auth.jsx:5-50 | The code as written never signs in; where the corrected check signs in it alerts the fallback instead, and otherwise both agree. |
| AuthPage.HandleLogin | client/src/pages/Auth/Auth.jsx:28-54 | The first request is the login. Loading ends cleared. The user is signed in exactly when the login answers with a token and the token check answers, and then no alert is shown. |
| AuthPage.RequestCode | client/src/pages/Auth/Auth.jsx:65-69 | Sends one code request. An answer moves to step 2, and a failure stays put. |
| AuthPage.HandleRegister | client/src/pages/Auth/Auth.jsx:57-101 | Step 1 with mismatched passwords sends nothing and alerts "Passwords do not match"; otherwise it requests a code. Step 2 verifies first, and registers only after a verified answer. The user is signed in exactly when the code is verified, registration returns a token and the token check answers. |
| AuthPage.HandleForgotPass | client/src/pages/Auth/Auth.jsx:104-127 | Step 1 requests a code. Step 2 verifies, and only a verified answer shows the notice; no password is ever changed. |
| AuthPage.HandleSubmit | client/src/pages/Auth/Auth.jsx:130-134 | Runs exactly the handler of the active form. |
| AuthPage.SubmitSendsLoginOnlyFromLogin | client/src/pages/Auth/Auth.jsx:130-134 | A login request is sent first exactly when the login form is active. |
| AuthPage.LabelMatchesRequest | client/src/pages/Auth/Auth.jsx:240-245 | At step 1 of the two-step forms the button says "send" and the submit sends exactly one code request. |
| AuthPage.MismatchSendsNothing | client/src/pages/Auth/Auth.jsx:59-62 | Mismatched passwords send nothing and stay at step 1. |
| AuthPage.RegisterNeedsVerifiedCode | client/src/pages/Auth/Auth.jsx:72-84 | Registering needs a verified code. |

## Left out
- ProductController.Delete: an id that is not an ObjectId removes nothing, so "no record with the id is left" is promised only for ObjectIds, and for every id when all stored ids are ObjectIds (ProductController.DeleteLeavesNoMatch). ReadAfterCreate likewise assumes the new id is an ObjectId, as MongoDB assigns them.
- Documents.IsObjectId: only 24-digit hex strings cast to an ObjectId. Older driver versions also accept any 12-character string, and that is not modelled.

- Time, randomness, hashing, token signing and verifying, mail, MongoDB ids and object URLs are parameters of the functions that use them. `sendMail` is not modelled beyond that: the code reaches the user through it.
- Asynchrony, concurrent requests and the order in which the hooks and handlers interleave are not modelled. Each handler runs to completion on the state it is given.
- Upload titles are single path segments. A title containing `/`, `.` or `..` would make `path.join` normalise across folders, and that is not modelled.
- The number inputs of the product forms hold exact reals. The floating-point rounding of `Number(...)` and of the comparisons is not modelled.
- Only ASCII case folding and ASCII white space are modelled for `toLowerCase`, `toUpperCase` and `trim`.
- Upload.AcceptFile: the file size is a parameter. The partly written file and the error reply that multer's size limit produces are not modelled.
- Upload.DestinationCallbacks: `mkdir` is not imported in upload.js, so the destination callback never reports success. The model states what that code does, and the working upload tree that the controllers then see is the controllers' input.
- AuthPage.CheckTokenAsWritten: it takes the reading in which the missing `login` import is `undefined` at run time, so the call throws inside the `try`. Under strict ES module linking, which is how Vite serves and bundles the client, the import of a name the slice does not export is a link error, so the page would not load at all. That reading is not modelled; in it the login finding still holds, since no login can succeed. The dispatch and navigation themselves are recorded only as `signedIn`.
- The auth slice exports `loginFailure` while its reducer is `loginFilure`. The model keeps the reducer's name and does not model the missing export.
- CategoryCreator's submit handler refers to `res` outside the block that defines it (line 84). The reply handling and `resetForm` are not modelled; the body the submit builds is (CategoryCreator.FormParts).
- ProductCreator's submit and reset handlers (lines 77-110) are not modelled beyond validation: the body they build is the same kind as in the editor (ProductEditor.FormParts).
- CategoryCreator.HandleImageChange: the FileReader data-URL preview of the creation page is not modelled, because that page validates the chosen file and the preview is only displayed. The editor's preview is modelled (CategoryEditor.ReaderLoaded), since its image check reads it. `URL.revokeObjectURL` in the product editor is not modelled either, because it only frees browser memory.
- The User schema is not modelled; the default role a new user gets is a parameter of AuthController.Register.
- `changeDirectoryName` in the FileSystem helper is not modelled: nothing in the core calls it and it renames directories, which the tree model's rename (files only) does not cover.
- `logout`, `forgotPass` and `changePass` in the auth controller are not modelled: `logout` only clears a cookie and the other two are empty stubs.
- The product controller's `readAll` is a plain query and `update` has an empty body; neither is modelled.
- The "سایر" category that the Product pre-save hook creates names its image with a relative `../../../client/...` path. The Category save hook's treatment of that path is not modelled; the model checks only that the created record is valid.
- The dashboard's delete handlers, and the fetching and loading states of the pages, are not modelled.
- Dashboard.Search: `includes` is modelled as a substring test over ASCII-lower-cased text; Unicode case mapping is left out.
- Home.LatestProducts: the slider rendering itself is not modelled, only the list it is given.
- ProductPage.StaleIndexRunsPastEnd: the image shown for an out-of-range index (an `undefined` file name in the URL) is not modelled.

## Findings

| source | as written | input that shows it | evidently intended | confidence | as-written member | corrected member |
|---|---|---|---|---|---|---|
| server/src/controllers/product.controller.js:75-81 | `product.categoryId` is read before the `if (!product)` check, so a missing id throws and the reply is 500 "Internal server error." | `GET /product/<id>` for an id no product has | 400 "Product not found." for a missing id | not executed | ProductController.ReadAsWritten, ProductController.ReadNotFoundUnreachable | ProductController.Read |
| client/src/pages/Product/ProductEditor.jsx:101-114 | `removeGalleryImage(index)` splices the new-file list and the preview list at the same index. But the previews begin with the product's stored images, which have no file. | a product with stored image "a.jpg" and one new file previewed as "blob:1"; remove index 0 | removing a stored preview keeps the files, and removing a new preview removes its own file | not executed | ProductEditor.RemoveAsWritten, ProductEditor.RemoveAsWrittenMisaligns, ProductEditor.RemoveAsWrittenExample | ProductEditor.RemoveGalleryImage, ProductEditor.RemovePreservesAligned |
| client/src/pages/Auth/Auth.jsx:5, 41-46, 88-93 | `login` is imported from the auth slice, which exports `loginSuccess` and no `login`. Calling `loginAction(...)` throws, and the catch alerts "Login failed" or "Registration failed". | a login the server accepts with a token, followed by a token check that answers | the `loginSuccess` action is dispatched and the page goes home with no alert | not executed | AuthPage.CheckTokenAsWritten, AuthPage.CheckTokenAsWrittenNeverSignsIn | AuthPage.CheckToken, AuthPage.HandleLogin |

=== FILE: auth_controller.dfy ===
/** The auth controller: token validation, the e-mailed one-time code kept in
    the session, registration and login. Hashing, signing and verifying are
    parameters standing for bcrypt and jsonwebtoken; the clock is a
    parameter `now` in milliseconds. */
module AuthController {
  import opened Wrappers
  import opened Middleware
  import Otp

  datatype Reply = Reply(status: nat, message: string)

  // ------------------------------------------------------------ validateToken

  /** The JSON body of `validateToken`: `userId`/`userRole` (null when
      `None`), or an error message. */
  datatype TokenReply = Identity(userId: Option<string>, userRole: Option<string>) | TokenError(message: string)

  /** `clearCookie` tells whether the handler clears the `token` cookie. */
  datatype Validated = Validated(status: nat, body: TokenReply, clearCookie: bool)

  function ValidateToken(cookie: string, verify: string -> Option<Claims>): (r: Validated)
    ensures cookie == "" ==> r == Validated(200, Identity(None, None), false)
    ensures cookie != "" && verify(cookie).Some? ==>
      r == Validated(200, Identity(Some(verify(cookie).value.userId), Some(verify(cookie).value.userRole)), false)
    ensures cookie != "" && verify(cookie).None? ==> r == Validated(401, TokenError("Invalid or Expired token"), true)
    ensures r.clearCookie <==> r.status == 401
  {
    if cookie == "" then Validated(200, Identity(None, None), false)
    else match verify(cookie)
      case Some(decoded) => Validated(200, Identity(Some(decoded.userId), Some(decoded.userRole)), false)
      case None => Validated(401, TokenError("Invalid or Expired token"), true)
  }

  // ------------------------------------------------------------ one-time codes

  /** `req.session.otpData`; `otpExpiry` is in milliseconds since the epoch. */
  datatype OtpData = OtpData(otp: string, email: string, otpExpiry: int)
  type Session = Option<OtpData>

  const OtpLifetime: int := 5 * 60 * 1000

  datatype Sent = Sent(session: Session, reply: Reply)

  /** `generateOTP`: `sendMail` reports failure in its result instead of
      throwing, so the code is stored whether or not the mail went out. */
  function SendOtp(session: Session, email: string, now: int, draw: nat -> Otp.Unit): (r: Sent)
    ensures email == "" ==> r == Sent(session, Reply(400, "Email is required"))
    ensures email != "" ==>
      && r.session == Some(OtpData(Otp.OtpOf(6, draw), email, now + 300000))
      && r.reply == Reply(200, "Code sent to " + email + " successfully")
  {
    if email == "" then Sent(session, Reply(400, "Email is required"))
    else
      var otp := Otp.OtpOf(6, draw);
      Sent(Some(OtpData(otp, email, now + OtpLifetime)), Reply(200, "Code sent to " + email + " successfully"))
  }

  /** The reply of `verifyOTP` and the session it leaves. `verified` stands
      for the `verified: true` and echoed `email` of a successful reply. */
  datatype Verified = Verified(session: Session, reply: Reply, verified: Option<string>)

  function VerifyOtp(session: Session, email: string, otp: string, now: int): (r: Verified)
    ensures email == "" || otp == "" ==> r == Verified(session, Reply(400, "Email, OTP are required"), None)
    ensures email != "" && otp != "" && session.None? ==> r == Verified(session, Reply(400, "No OTP session found"), None)
    ensures r.reply.status == 200 <==>
      email != "" && otp != "" && session.Some? && session.value.email == email
      && now <= session.value.otpExpiry && session.value.otp == otp
    ensures r.reply.status == 200 ==> r == Verified(None, Reply(200, "OTP verified successfully"), Some(email))
    ensures r.reply.status != 200 ==> r.session == session && r.verified.None? && r.reply.status == 400
  {
    if email == "" || otp == "" then Verified(session, Reply(400, "Email, OTP are required"), None)
    else match session
      case None => Verified(session, Reply(400, "No OTP session found"), None)
      case Some(data) =>
        if data.email != email then Verified(session, Reply(400, "Email does not match"), None)
        else if now > data.otpExpiry then Verified(session, Reply(400, "OTP expired"), None)
        else if data.otp != otp then Verified(session, Reply(400, "Invalid OTP"), None)
        else Verified(None, Reply(200, "OTP verified successfully"), Some(email))
  }

  /** The checks run in the order e-mail, expiry, code: a request failing
      several of them gets the message of the first. */
  lemma VerifyOtpCheckOrder(data: OtpData, email: string, otp: string, now: int)
    requires email != "" && otp != ""
    ensures data.email != email ==> VerifyOtp(Some(data), email, otp, now).reply.message == "Email does not match"
    ensures data.email == email && now > data.otpExpiry ==>
      VerifyOtp(Some(data), email, otp, now).reply.message == "OTP expired"
    ensures data.email == email && now <= data.otpExpiry && data.otp != otp ==>
      VerifyOtp(Some(data), email, otp, now).reply.message == "Invalid OTP"
  {
  }

  /** A correct code is accepted once: the same request a second time finds
      no session. */
  lemma OtpSingleUse(session: Session, email: string, otp: string, now: int, later: int)
    requires VerifyOtp(session, email, otp, now).reply.status == 200
    ensures VerifyOtp(VerifyOtp(session, email, otp, now).session, email, otp, later).reply
      == Reply(400, "No OTP session found")
  {
  }

  /** The code just mailed is accepted for the same address up to and
      including the moment five minutes later, and refused after it. */
  lemma SentCodeAccepted(session: Session, email: string, now: int, draw: nat -> Otp.Unit, at: int)
    requires email != ""
    ensures var s := SendOtp(session, email, now, draw).session;
      VerifyOtp(s, email, Otp.OtpOf(6, draw), at).reply.status == 200 <==> at <= now + OtpLifetime
  {
    assert |Otp.OtpOf(6, draw)| == 6;
  }

  // ------------------------------------------------------------ register / login

  /** A document of the `users` collection; `role` is the schema default
      when the controller does not set it. */
  datatype UserDoc = UserDoc(id: string, email: string, password: string, role: string)

  function FindUser(users: seq<UserDoc>, email: string): (r: Option<UserDoc>)
    ensures r.None? <==> forall i :: 0 <= i < |users| ==> users[i].email != email
    ensures r.Some? ==> r.value in users && r.value.email == email
  {
    if |users| == 0 then None
    else if users[0].email == email then Some(users[0])
    else
      var r := FindUser(users[1..], email);
      assert forall i :: 1 <= i < |users| ==> users[i] == users[1..][i - 1];
      r
  }

  /** The outcome of `register` or `login`: the users afterwards, the reply,
      and the token set as the `token` cookie and returned in the body. */
  datatype Signed = Signed(users: seq<UserDoc>, reply: Reply, token: Option<string>)

  /** `hash` is `bcrypt.hash(_, 10)`, `sign` is `jwt.sign` with a one-day
      expiry, `newId` the new user's ObjectId and `defaultRole` the role the
      User schema assigns. */
  function Register(users: seq<UserDoc>, email: string, password: string,
                    hash: string -> string, sign: Claims -> string, newId: string, defaultRole: string): (r: Signed)
    ensures email == "" || password == "" ==> r == Signed(users, Reply(400, "All fields are required"), None)
    ensures email != "" && password != "" && FindUser(users, email).Some? ==>
      r == Signed(users, Reply(400, "Email already exists. Please login instead."), None)
    ensures r.reply.status == 201 <==> email != "" && password != "" && FindUser(users, email).None?
    ensures r.reply.status == 201 ==>
      && r.users == users + [UserDoc(newId, email, hash(password), defaultRole)]
      && r.token == Some(sign(Claims(newId, defaultRole)))
      && r.reply.message == "Registration successful"
    ensures r.reply.status != 201 ==> r.users == users && r.token.None?
  {
    if email == "" || password == "" then Signed(users, Reply(400, "All fields are required"), None)
    else if FindUser(users, email).Some? then
      Signed(users, Reply(400, "Email already exists. Please login instead."), None)
    else
      var user := UserDoc(newId, email, hash(password), defaultRole);
      Signed(users + [user], Reply(201, "Registration successful"), Some(sign(Claims(user.id, user.role))))
  }

  const InvalidCredentials: Reply := Reply(400, "Invalid credentials")

  /** `compare(password, stored)` is `bcrypt.compare`. */
  function Login(users: seq<UserDoc>, email: string, password: string,
                 compare: (string, string) -> bool, sign: Claims -> string): (r: Signed)
    ensures r.users == users
    ensures email == "" || password == "" ==> r == Signed(users, Reply(400, "All fields are required"), None)
    ensures email != "" && password != "" && FindUser(users, email).None? ==> r == Signed(users, InvalidCredentials, None)
    ensures email != "" && password != "" && FindUser(users, email).Some? && !compare(password, FindUser(users, email).value.password) ==>
      r == Signed(users, InvalidCredentials, None)
    ensures r.reply.status == 200 <==>
      email != "" && password != "" && FindUser(users, email).Some? && compare(password, FindUser(users, email).value.password)
    ensures r.reply.status == 200 ==>
      r.token == Some(sign(Claims(FindUser(users, email).value.id, FindUser(users, email).value.role)))
  {
    if email == "" || password == "" then Signed(users, Reply(400, "All fields are required"), None)
    else match FindUser(users, email)
      case None => Signed(users, InvalidCredentials, None)
      case Some(user) =>
        if !compare(password, user.password) then Signed(users, InvalidCredentials, None)
        else Signed(users, Reply(200, "Login successfull"), Some(sign(Claims(user.id, user.role))))
  }

  /** An unknown address and a wrong password get the same reply, so the
      reply does not reveal which addresses are registered. */
  lemma LoginHidesUnknownEmail(users: seq<UserDoc>, email: string, password: string,
                               compare: (string, string) -> bool, sign: Claims -> string)
    requires email != "" && password != ""
    requires FindUser(users, email).Some? ==> !compare(password, FindUser(users, email).value.password)
    ensures Login(users, email, password, compare, sign).reply == InvalidCredentials
  {
  }

  /** With a hash that `compare` accepts for its own password, a newly
      registered user can log in and gets a token for the same identity. */
  lemma LoginAfterRegister(users: seq<UserDoc>, email: string, password: string,
                           hash: string -> string, compare: (string, string) -> bool, sign: Claims -> string,
                           newId: string, defaultRole: string)
    requires forall p :: compare(p, hash(p))
    requires Register(users, email, password, hash, sign, newId, defaultRole).reply.status == 201
    ensures var reg := Register(users, email, password, hash, sign, newId, defaultRole);
      var log := Login(reg.users, email, password, compare, sign);
      log.reply.status == 200 && log.token == reg.token
  {
    var reg := Register(users, email, password, hash, sign, newId, defaultRole);
    var f := FindUser(reg.users, email);
    assert reg.users[|users|].email == email;
    assert f.Some?;
    assert f.value == reg.users[|users|];
  }
}

=== FILE: auth_page.dfy ===
/** The sign-in page: three forms (login, register, forgotten password)
    behind tabs, two of them in two steps (ask for a code, then check it).
    The server is a parameter that answers each request. After a successful
    token check the page dispatches a store action it imports as `login`,
    a name the store does not export: `CheckTokenAsWritten` is that code,
    and the handlers use `CheckToken`, the check with the exported
    `loginSuccess` action. */
module AuthPage {

  datatype Form = Login | Register | ForgotPass

  datatype Fields = Fields(email: string, password: string, repeatPassword: string, otp: string)

  datatype State = State(activeForm: Form, step: int, loading: bool, fields: Fields)

  const Initial: State := State(Login, 1, false, Fields("", "", "", ""))

  /** A tab, or the "Forgot your password?" link: switches form and starts
      over at step 1. */
  function SelectForm(s: State, f: Form): (r: State)
    ensures r.activeForm == f && r.step == 1
    ensures r.loading == s.loading && r.fields == s.fields
  {
    s.(activeForm := f, step := 1)
  }

  /** Only the last selection counts. */
  lemma SelectFormLastWins(s: State, f: Form, g: Form)
    ensures SelectForm(SelectForm(s, f), g) == SelectForm(s, g)
  {
  }

  datatype FieldName = Email | Password | RepeatPassword | Otp

  /** `handleInputChange`. */
  function SetField(s: State, name: FieldName, value: string): (r: State)
    ensures r.activeForm == s.activeForm && r.step == s.step && r.loading == s.loading
    ensures r.fields.email == (if name == Email then value else s.fields.email)
    ensures r.fields.password == (if name == Password then value else s.fields.password)
    ensures r.fields.repeatPassword == (if name == RepeatPassword then value else s.fields.repeatPassword)
    ensures r.fields.otp == (if name == Otp then value else s.fields.otp)
  {
    var f := s.fields;
    s.(fields := match name
      case Email => f.(email := value)
      case Password => f.(password := value)
      case RepeatPassword => f.(repeatPassword := value)
      case Otp => f.(otp := value))
  }

  // ------------------------------------------------------------ rendering

  predicate ShowsPassword(s: State) {
    s.activeForm == Login || (s.activeForm == Register && s.step == 1)
  }

  predicate ShowsRepeatPassword(s: State) {
    s.activeForm == Register && s.step == 1
  }

  predicate ShowsOtp(s: State) {
    s.step == 2 && (s.activeForm == Register || s.activeForm == ForgotPass)
  }

  /** The submit button's text. */
  function ButtonLabel(s: State): string {
    if s.loading then "Please wait..."
    else match s.activeForm
      case Login => "Login"
      case Register => if s.step == 1 then "Send OTP" else "Verify & Register"
      case ForgotPass => if s.step == 1 then "Send code to email" else "Verify OTP"
  }

  /** The password and code fields never appear together, the repeat field
      only appears under the password field, and login never asks for a code. */
  lemma FieldsShownTogether(s: State)
    ensures !(ShowsPassword(s) && ShowsOtp(s))
    ensures ShowsRepeatPassword(s) ==> ShowsPassword(s)
    ensures s.activeForm == Login ==> ShowsPassword(s) && !ShowsOtp(s) && !ShowsRepeatPassword(s)
  {
  }

  // ------------------------------------------------------------ requests

  datatype Request =
    | LoginRequest(email: string, password: string)
    | ValidateTokenRequest
    | GenerateOtpRequest(email: string)
    | VerifyOtpRequest(email: string, otp: string)
    | RegisterRequest(email: string, password: string)

  /** A failed request carries the server's message, `""` when there is
      none; an answered one the fields the page reads. */
  datatype Response =
    | Failed(message: string)
    | Answered(message: string, token: bool, verified: bool)

  /** What a submit did: the new state, the requests in the order sent, the
      alerts shown, and whether the page stored the signed-in user and
      went to the home page. */
  datatype Outcome = Outcome(state: State, requests: seq<Request>, alerts: seq<string>, signedIn: bool)

  /** `err.response?.data?.message || fallback`. */
  function MessageOr(message: string, fallback: string): string {
    if message != "" then message else fallback
  }

  /** After a token was issued, as written: ask who the user is, then call
      the imported `loginAction`. The import names no export, so the call
      throws a `TypeError`; it has no `response`, and the handler's catch
      shows the fallback text. */
  function CheckTokenAsWritten(s: State, sent: seq<Request>, server: Request -> Response, fallback: string): (r: Outcome)
    ensures r.state == s && r.requests == sent + [ValidateTokenRequest]
    ensures !r.signedIn && |r.alerts| == 1
    ensures server(ValidateTokenRequest).Answered? ==> r.alerts == [fallback]
  {
    match server(ValidateTokenRequest)
    case Failed(m) => Outcome(s, sent + [ValidateTokenRequest], [MessageOr(m, fallback)], false)
    case Answered(_, _, _) => Outcome(s, sent + [ValidateTokenRequest], [fallback], false)
  }

  /** After a token was issued, with the store's `loginSuccess`: ask who the
      user is, and sign in silently exactly when that answers. */
  function CheckToken(s: State, sent: seq<Request>, server: Request -> Response, fallback: string): (r: Outcome)
    ensures r.state == s && r.requests == sent + [ValidateTokenRequest]
    ensures r.signedIn <==> server(ValidateTokenRequest).Answered?
    ensures r.signedIn <==> r.alerts == []
    ensures server(ValidateTokenRequest).Failed? ==> r.alerts == [MessageOr(server(ValidateTokenRequest).message, fallback)]
  {
    match server(ValidateTokenRequest)
    case Failed(m) => Outcome(s, sent + [ValidateTokenRequest], [MessageOr(m, fallback)], false)
    case Answered(_, _, _) => Outcome(s, sent + [ValidateTokenRequest], [], true)
  }

  /** As written, no token check ever signs anybody in, and every check the
      corrected page passes ends in the fallback alert instead; the two agree
      when the check fails. */
  lemma CheckTokenAsWrittenNeverSignsIn(s: State, sent: seq<Request>, server: Request -> Response, fallback: string)
    ensures !CheckTokenAsWritten(s, sent, server, fallback).signedIn
    ensures CheckToken(s, sent, server, fallback).signedIn ==>
      CheckTokenAsWritten(s, sent, server, fallback).alerts == [fallback]
    ensures !CheckToken(s, sent, server, fallback).signedIn ==>
      CheckTokenAsWritten(s, sent, server, fallback) == CheckToken(s, sent, server, fallback)
  {
  }

  /** `handleLogin`: the loading flag is cleared again however it ends. */
  function HandleLogin(s: State, server: Request -> Response): (r: Outcome)
    ensures |r.requests| >= 1 && r.requests[0] == LoginRequest(s.fields.email, s.fields.password)
    ensures r.state == s.(loading := false)
    ensures r.signedIn <==>
      server(r.requests[0]).Answered? && server(r.requests[0]).token && server(ValidateTokenRequest).Answered?
    ensures r.signedIn ==> r.requests == [r.requests[0], ValidateTokenRequest] && r.alerts == []
  {
    var done := s.(loading := false);
    var req := LoginRequest(s.fields.email, s.fields.password);
    match server(req)
    case Failed(m) => Outcome(done, [req], [MessageOr(m, "Login failed")], false)
    case Answered(_, token, _) =>
      if token then CheckToken(done, [req], server, "Login failed") else Outcome(done, [req], [], false)
  }

  /** Step 1 of the two-step forms: ask for a code, and move to step 2 only
      when the request succeeds. */
  function RequestCode(s: State, server: Request -> Response, fallback: string): (r: Outcome)
    ensures r.requests == [GenerateOtpRequest(s.fields.email)]
    ensures server(GenerateOtpRequest(s.fields.email)).Answered? ==> r.state == s.(step := 2)
    ensures server(GenerateOtpRequest(s.fields.email)).Failed? ==> r.state == s
    ensures !r.signedIn
  {
    var req := GenerateOtpRequest(s.fields.email);
    match server(req)
    case Failed(m) => Outcome(s, [req], [MessageOr(m, fallback)], false)
    case Answered(m, _, _) => Outcome(s.(step := 2), [req], [m], false)
  }

  /** `handleRegister`. */
  function HandleRegister(s: State, server: Request -> Response): (r: Outcome)
    ensures s.step == 1 && s.fields.password != s.fields.repeatPassword ==>
      r == Outcome(s, [], ["Passwords do not match"], false)
    ensures s.step == 1 && s.fields.password == s.fields.repeatPassword ==>
      r == RequestCode(s, server, "Registration failed")
    ensures s.step == 2 ==> r.state == s && |r.requests| >= 1 && r.requests[0] == VerifyOtpRequest(s.fields.email, s.fields.otp)
    ensures s.step == 2 && RegisterRequest(s.fields.email, s.fields.password) in r.requests ==>
      server(VerifyOtpRequest(s.fields.email, s.fields.otp)).Answered? && server(VerifyOtpRequest(s.fields.email, s.fields.otp)).verified
    ensures s.step != 1 && s.step != 2 ==> r == Outcome(s, [], [], false)
    ensures r.signedIn <==> (
      && s.step == 2
      && server(VerifyOtpRequest(s.fields.email, s.fields.otp)).Answered? && server(VerifyOtpRequest(s.fields.email, s.fields.otp)).verified
      && server(RegisterRequest(s.fields.email, s.fields.password)).Answered? && server(RegisterRequest(s.fields.email, s.fields.password)).token
      && server(ValidateTokenRequest).Answered?)
  {
    if s.step == 1 then
      if s.fields.password != s.fields.repeatPassword then Outcome(s, [], ["Passwords do not match"], false)
      else RequestCode(s, server, "Registration failed")
    else if s.step == 2 then
      var verify := VerifyOtpRequest(s.fields.email, s.fields.otp);
      match server(verify)
      case Failed(m) => Outcome(s, [verify], [MessageOr(m, "Registration failed")], false)
      case Answered(_, _, verified) =>
        if !verified then Outcome(s, [verify], [], false)
        else
          var reg := RegisterRequest(s.fields.email, s.fields.password);
          match server(reg)
          case Failed(m) => Outcome(s, [verify, reg], [MessageOr(m, "Registration failed")], false)
          case Answered(_, token, _) =>
            if token then CheckToken(s, [verify, reg], server, "Registration failed")
            else Outcome(s, [verify, reg], [], false)
    else Outcome(s, [], [], false)
  }

  /** `handleForgotPass`: a verified code only produces a notice; no
      password is changed. */
  function HandleForgotPass(s: State, server: Request -> Response): (r: Outcome)
    ensures s.step == 1 ==> r == RequestCode(s, server, "Reset failed")
    ensures s.step == 2 ==> r.state == s && r.requests == [VerifyOtpRequest(s.fields.email, s.fields.otp)]
    ensures s.step == 2 && server(VerifyOtpRequest(s.fields.email, s.fields.otp)).Answered? ==>
      (r.alerts == ["OTP verified. Implement reset password form next."] <==> server(VerifyOtpRequest(s.fields.email, s.fields.otp)).verified)
    ensures s.step != 1 && s.step != 2 ==> r == Outcome(s, [], [], false)
    ensures !r.signedIn
  {
    if s.step == 1 then RequestCode(s, server, "Reset failed")
    else if s.step == 2 then
      var verify := VerifyOtpRequest(s.fields.email, s.fields.otp);
      match server(verify)
      case Failed(m) => Outcome(s, [verify], [MessageOr(m, "Reset failed")], false)
      case Answered(_, _, verified) =>
        Outcome(s, [verify], if verified then ["OTP verified. Implement reset password form next."] else [], false)
    else Outcome(s, [], [], false)
  }

  /** `handleSubmit`: exactly one handler runs, the one of the active form. */
  function HandleSubmit(s: State, server: Request -> Response): (r: Outcome)
    ensures s.activeForm == Login ==> r == HandleLogin(s, server)
    ensures s.activeForm == Register ==> r == HandleRegister(s, server)
    ensures s.activeForm == ForgotPass ==> r == HandleForgotPass(s, server)
  {
    match s.activeForm
    case Login => HandleLogin(s, server)
    case Register => HandleRegister(s, server)
    case ForgotPass => HandleForgotPass(s, server)
  }

  /** Only the login form sends a login request, and a login request is
      always the first thing it sends. */
  lemma SubmitSendsLoginOnlyFromLogin(s: State, server: Request -> Response)
    ensures (|HandleSubmit(s, server).requests| > 0 && HandleSubmit(s, server).requests[0].LoginRequest?)
      <==> s.activeForm == Login
  {
  }

  /** The button says what a submit does: on step 1 of the two-step forms a
      label about sending a code goes with a code request. */
  lemma LabelMatchesRequest(s: State, server: Request -> Response)
    requires !s.loading && s.step == 1 && s.activeForm != Login
    requires s.activeForm == Register ==> s.fields.password == s.fields.repeatPassword
    ensures ButtonLabel(s) in {"Send OTP", "Send code to email"}
    ensures HandleSubmit(s, server).requests == [GenerateOtpRequest(s.fields.email)]
  {
  }

  /** Mismatched passwords at step 1 send nothing and stay at step 1. */
  lemma MismatchSendsNothing(s: State, server: Request -> Response)
    requires s.activeForm == Register && s.step == 1 && s.fields.password != s.fields.repeatPassword
    ensures HandleSubmit(s, server).requests == [] && HandleSubmit(s, server).state.step == 1
  {
  }

  /** Registering takes a verified code: the register endpoint is only called
      after the code check answered `verified`. */
  lemma RegisterNeedsVerifiedCode(s: State, server: Request -> Response)
    requires s.activeForm == Register && s.step == 2
    requires RegisterRequest(s.fields.email, s.fields.password) in HandleSubmit(s, server).requests
    ensures server(VerifyOtpRequest(s.fields.email, s.fields.otp)).Answered?
    ensures server(VerifyOtpRequest(s.fields.email, s.fields.otp)).verified
  {
  }
}

=== FILE: auth_slice.dfy ===
/** The `auth` slice of the Redux store: who is logged in, with what role,
    the last login error and a loading flag. */
module AuthSlice {
  import opened Wrappers

  datatype State = State(
    userId: Option<string>, userRole: Option<string>, isAuthenticated: bool,
    error: Option<string>, isLoading: bool)

  const Initial: State := State(None, None, false, None, false)

  /** The four reducers, named as declared in the slice. The slice exports
      the action creator as `loginFailure`, a name the slice does not
      define; the reducer itself is `loginFilure`. */
  datatype Action =
    | LoginSuccess(payloadUserId: Option<string>, payloadUserRole: Option<string>)
    | LoginFilure(payload: Option<string>)
    | Logout
    | SetLoading

  function Reduce(s: State, a: Action): (r: State)
    ensures a.LoginSuccess? ==>
      r == State(a.payloadUserId, a.payloadUserRole, true, None, false)
    ensures a.LoginFilure? ==> r == State(None, None, false, a.payload, false)
    ensures a.Logout? ==> r == Initial
    ensures a.SetLoading? ==> r == s.(isLoading := true)
  {
    match a
    case LoginSuccess(id, role) => s.(userId := id, userRole := role, isAuthenticated := true, error := None, isLoading := false)
    case LoginFilure(e) => s.(userId := None, userRole := None, isAuthenticated := false, error := e, isLoading := false)
    case Logout => s.(userId := None, userRole := None, isAuthenticated := false, error := None, isLoading := false)
    case SetLoading => s.(isLoading := true)
  }

  /** Nobody is identified while logged out. */
  predicate Consistent(s: State) {
    !s.isAuthenticated ==> s.userId.None? && s.userRole.None?
  }

  /** Each reducer keeps the store consistent. */
  lemma ReducePreservesConsistent(s: State, a: Action)
    requires Consistent(s)
    ensures Consistent(Reduce(s, a))
  {
  }

  /** The store after dispatching `actions` in order. */
  function Run(s: State, actions: seq<Action>): (r: State)
    decreases |actions|
  {
    if |actions| == 0 then s else Run(Reduce(s, actions[0]), actions[1..])
  }

  /** Whatever is dispatched from the initial state, the store stays
      consistent. */
  lemma {:induction false} RunPreservesConsistent(s: State, actions: seq<Action>)
    requires Consistent(s)
    ensures Consistent(Run(s, actions))
    decreases |actions|
  {
    if |actions| > 0 {
      ReducePreservesConsistent(s, actions[0]);
      RunPreservesConsistent(Reduce(s, actions[0]), actions[1..]);
    }
  }

  lemma InitialConsistent()
    ensures Consistent(Initial)
    ensures !Initial.isAuthenticated && !Initial.isLoading && Initial.error.None?
  {
  }

  /** A dispatch sequence ending in `logout` always returns the store to its
      initial state. */
  lemma {:induction false} RunEndingInLogout(s: State, actions: seq<Action>)
    requires |actions| > 0 && actions[|actions| - 1] == Logout
    ensures Run(s, actions) == Initial
    decreases |actions|
  {
    if |actions| > 1 {
      RunEndingInLogout(Reduce(s, actions[0]), actions[1..]);
    }
  }
}

=== FILE: category_forms.dfy ===
/** The admin pages that create and edit a category: a title, a rich-text
    description and one image. */
module CategoryCreator {
  import opened Wrappers
  import opened Strings
  import opened Forms

  datatype State = State(title: string, description: string, image: Option<Picked>, errors: Errors)

  const Initial: State := State("", "", None, map[])

  datatype Validation = Validation(state: State, valid: bool)

  /** The message `validateForm` records for field `k` when its check
      fails. */
  function Problem(s: State, k: Key): Option<string> {
    match k
    case Title => if IsBlank(s.title) then Some("Title is required") else None
    case Image => if s.image.None? then Some("Image is required") else None
    case Description => if IsBlank(s.description) then Some("Description is required") else None
    case _ => None
  }

  /** The `newErrors` object of `validateForm`. */
  function NewErrors(s: State): (errors: Errors)
    ensures Title in errors <==> IsBlank(s.title)
    ensures Image in errors <==> s.image.None?
    ensures Description in errors <==> IsBlank(s.description)
    ensures errors.Keys <= {Title, Image, Description}
    ensures forall k :: k in errors ==> Some(errors[k]) == Problem(s, k)
  {
    Failures({Title, Image, Description}, s, Problem)
  }

  /** `validateForm`: the errors shown are replaced by the fresh ones, and the
      form is valid exactly when there is none. */
  function ValidateForm(s: State): (r: Validation)
    ensures r.state == s.(errors := NewErrors(s))
    ensures r.valid <==> |r.state.errors| == 0
    ensures r.valid <==> !IsBlank(s.title) && s.image.Some? && !IsBlank(s.description)
  {
    var errors := NewErrors(s);
    assert |errors| == 0 <==> errors.Keys == {};
    Validation(s.(errors := errors), |errors| == 0)
  }

  /** `handleImageChange`; the data-URL preview the file reader fills in later
      plays no part in validation. */
  function HandleImageChange(s: State, files: seq<Picked>): (r: State)
    ensures r.title == s.title && r.description == s.description
    ensures |files| > 0 && IsImage(files[0]) ==> r.image == Some(files[0]) && !HasError(r.errors, Image)
    ensures !(|files| > 0 && IsImage(files[0])) ==> r.image == s.image
    ensures |files| > 0 && !IsImage(files[0]) ==> HasError(r.errors, Image)
    ensures r.errors == PickImage(s.image, s.errors, files).errors
  {
    var pick := PickImage(s.image, s.errors, files);
    s.(image := pick.image, errors := pick.errors)
  }

  /** A refused file does not help: it leaves the image check where it was. */
  lemma RefusedFileKeepsImageCheck(s: State, files: seq<Picked>)
    requires |files| > 0 && !IsImage(files[0])
    ensures ValidateForm(HandleImageChange(s, files)).valid == ValidateForm(s).valid
  {
  }

  /** The multipart body of `handleSubmit`. */
  function FormParts(s: State): (parts: seq<Part>)
    ensures |parts| >= 2 && parts[..2] == [TextPart("title", s.title), TextPart("description", s.description)]
    ensures s.image.Some? ==> parts == parts[..2] + [FilePart("image", s.image.value)]
    ensures s.image.None? ==> |parts| == 2
  {
    [TextPart("title", s.title), TextPart("description", s.description)]
      + (if s.image.Some? then [FilePart("image", s.image.value)] else [])
  }

  /** A body is only built for a valid form, and a valid form always carries
      its image. */
  lemma ValidFormSendsImage(s: State)
    requires ValidateForm(s).valid
    ensures |FormParts(s)| == 3 && FormParts(s)[2] == FilePart("image", s.image.value)
  {
  }
}

module CategoryEditor {
  import opened Wrappers
  import opened Strings
  import opened Forms

  /** `imagePreview` is `null` until the category is loaded, written `""`. */
  datatype State = State(title: string, description: string, imageFile: Option<Picked>, imagePreview: string, errors: Errors)

  const Initial: State := State("", "", None, "", map[])

  /** The URL of a stored category image. */
  function StoredImageUrl(apiBase: string, title: string, image: string): (url: string)
    ensures StartsWith(url, apiBase + "/uploads/categories/")
    ensures |url| > |image| && url[|url| - |image|..] == image
  {
    var pre := apiBase + "/uploads/categories/" + title + "/";
    assert (pre + image)[..|apiBase + "/uploads/categories/"|] == apiBase + "/uploads/categories/";
    assert (pre + image)[|pre|..] == image;
    pre + image
  }

  /** The details request: title and description copied, the preview set to
      the stored image's URL. */
  function Load(s: State, apiBase: string, title: string, description: string, image: string): (r: State)
    ensures r.title == title && r.description == description
    ensures r.imagePreview == StoredImageUrl(apiBase, title, image)
    ensures r.imageFile == s.imageFile && r.errors == s.errors
  {
    s.(title := title, description := description, imagePreview := StoredImageUrl(apiBase, title, image))
  }

  datatype Validation = Validation(state: State, valid: bool)

  /** The message `validateForm` records for field `k` when its check
      fails. */
  function Problem(s: State, k: Key): Option<string> {
    match k
    case Title => if IsBlank(s.title) then Some("Title is required") else None
    case Image => if s.imagePreview == "" then Some("Image is required") else None
    case Description => if IsBlank(s.description) then Some("Description is required") else None
    case _ => None
  }

  /** The `newErrors` object of `validateForm`: the image check looks
      at the preview, not at a new file. */
  function NewErrors(s: State): (errors: Errors)
    ensures Title in errors <==> IsBlank(s.title)
    ensures Image in errors <==> s.imagePreview == ""
    ensures Description in errors <==> IsBlank(s.description)
    ensures errors.Keys <= {Title, Image, Description}
    ensures forall k :: k in errors ==> Some(errors[k]) == Problem(s, k)
  {
    Failures({Title, Image, Description}, s, Problem)
  }

  /** `validateForm`: the errors shown are replaced by the fresh ones, and the
      form is valid exactly when there is none. */
  function ValidateForm(s: State): (r: Validation)
    ensures r.state == s.(errors := NewErrors(s))
    ensures r.valid <==> |r.state.errors| == 0
    ensures r.valid <==> !IsBlank(s.title) && s.imagePreview != "" && !IsBlank(s.description)
  {
    var errors := NewErrors(s);
    assert |errors| == 0 <==> errors.Keys == {};
    Validation(s.(errors := errors), |errors| == 0)
  }

  /** A loaded category always passes the image check, new file or not. */
  lemma LoadedCategoryHasImage(s: State, apiBase: string, title: string, description: string, image: string)
    ensures Image !in ValidateForm(Load(s, apiBase, title, description, image)).state.errors
  {
  }

  /** `handleImageChange` itself; the preview changes only later, when the
      file reader finishes (`ReaderLoaded`). */
  function HandleImageChange(s: State, files: seq<Picked>): (r: State)
    ensures r.title == s.title && r.description == s.description && r.imagePreview == s.imagePreview
    ensures |files| > 0 && IsImage(files[0]) ==> r.imageFile == Some(files[0]) && !HasError(r.errors, Image)
    ensures !(|files| > 0 && IsImage(files[0])) ==> r.imageFile == s.imageFile
    ensures |files| > 0 && !IsImage(files[0]) ==> HasError(r.errors, Image)
    ensures r.errors == PickImage(s.imageFile, s.errors, files).errors
  {
    var pick := PickImage(s.imageFile, s.errors, files);
    s.(imageFile := pick.image, errors := pick.errors)
  }

  /** What `readAsDataURL(file)` delivers as `reader.result`: the file's type
      and its base64-encoded content, whose bytes are not modelled. */
  function DataUrl(file: Picked, base64: string): (url: string)
    ensures StartsWith(url, "data:") && url != ""
  {
    var pre := "data:";
    assert (pre + file.mimeType + ";base64," + base64)[..|pre|] == pre;
    pre + file.mimeType + ";base64," + base64
  }

  /** `reader.onloadend`: the preview becomes the picked file's data URL and
      nothing else changes. */
  function ReaderLoaded(s: State, file: Picked, base64: string): (r: State)
    ensures r.imagePreview == DataUrl(file, base64) && r.imagePreview != ""
    ensures r.title == s.title && r.description == s.description
    ensures r.imageFile == s.imageFile && r.errors == s.errors
  {
    s.(imagePreview := DataUrl(file, base64))
  }

  /** An image file picked on a category with no preview yet passes the
      image check once the reader has loaded it, and not before; the form is
      then valid exactly when title and description are filled in. */
  lemma PickThenLoadPassesImageCheck(s: State, files: seq<Picked>, base64: string)
    requires |files| > 0 && IsImage(files[0])
    requires s.imagePreview == ""
    ensures Image in ValidateForm(HandleImageChange(s, files)).state.errors
    ensures var r := ValidateForm(ReaderLoaded(HandleImageChange(s, files), files[0], base64));
      Image !in r.state.errors && (r.valid <==> !IsBlank(s.title) && !IsBlank(s.description))
  {
  }

  /** The multipart body of `handleSubmit`: the image only when a new file
      was chosen. */
  function FormParts(s: State): (parts: seq<Part>)
    ensures |parts| >= 2 && parts[..2] == [TextPart("title", s.title), TextPart("description", s.description)]
    ensures s.imageFile.Some? ==> parts == parts[..2] + [FilePart("image", s.imageFile.value)]
    ensures s.imageFile.None? ==> |parts| == 2
  {
    [TextPart("title", s.title), TextPart("description", s.description)]
      + (if s.imageFile.Some? then [FilePart("image", s.imageFile.value)] else [])
  }

  /** Editing only the text of a loaded category sends no image. */
  lemma TextOnlyEditSendsNoImage(s: State, apiBase: string, title: string, description: string, image: string)
    requires s.imageFile.None?
    ensures |FormParts(Load(s, apiBase, title, description, image))| == 2
  {
  }
}

=== FILE: category_model.dfy ===
/** The two post hooks of the Category schema. After a save, the category's
    image is moved from `uploads/categories` into a folder named after the
    category. After a `findOneAndDelete`, the image and its folder are
    removed. Both hooks log and swallow their errors. */
module CategoryModel {
  import opened Wrappers
  import opened Paths
  import opened Documents
  import Posix

  /** `path.join(__dirname, "..", "uploads", "categories")` for `src/models`. */
  const CategoriesDir: Path := ["src", "uploads", "categories"]

  function CategoryFolder(title: Segment): Path {
    Join(CategoriesDir, [title])
  }

  /** `post("save")`: the tree after the hook. A failed step ends the hook,
      and whatever the earlier steps did stays done. */
  function AfterSave(fs: Posix.Fs, doc: CategoryDoc): (r: Posix.Fs)
    ensures doc.title == "others" ==> r == fs
    ensures doc.title != "others" && Posix.HasFilePrefix(fs, CategoryFolder(doc.title)) ==> r == fs
    ensures forall q :: q in fs && q != CategoriesDir + [doc.image] && q != CategoryFolder(doc.title) + [doc.image] ==>
      q in r && r[q] == fs[q]
    ensures forall q :: q in r && q !in fs ==> q <= CategoryFolder(doc.title) || q == CategoryFolder(doc.title) + [doc.image]
  {
    if doc.title == "others" then fs
    else
      match Posix.MkdirP(fs, CategoryFolder(doc.title))
      case Err(_) => fs
      case Ok(fs1) =>
        match Posix.Rename(fs1, CategoriesDir + [doc.image], CategoryFolder(doc.title) + [doc.image])
        case Err(_) => fs1
        case Ok(fs2) => fs2
  }

  /** When the uploaded image is where multer left it, saving any category
      other than "others" moves it into the category's own folder. */
  lemma AfterSaveMovesImage(fs: Posix.Fs, doc: CategoryDoc)
    requires doc.title != "others"
    requires Posix.IsFileAt(fs, CategoriesDir + [doc.image])
    requires !Posix.HasFilePrefix(fs, CategoryFolder(doc.title))
    requires !Posix.IsDirAt(fs, CategoryFolder(doc.title) + [doc.image])
    ensures var r := AfterSave(fs, doc);
      CategoryFolder(doc.title) + [doc.image] in r
      && r[CategoryFolder(doc.title) + [doc.image]] == fs[CategoriesDir + [doc.image]]
      && CategoriesDir + [doc.image] !in r
  {
    var folder := CategoryFolder(doc.title);
    var src := CategoriesDir + [doc.image];
    var dst := folder + [doc.image];
    var fs1 := Posix.MkdirP(fs, folder).value;
    assert src != dst by { assert |src| != |dst|; }
    assert Posix.Parent(dst) == folder;
    assert src != folder by {
      assert !Posix.IsFileAt(fs, folder[..|folder|]);
      assert folder[..|folder|] == folder;
    }
    assert Posix.IsFileAt(fs1, src);
    assert !Posix.IsDirAt(fs1, dst) by {
      if dst !in fs {
        assert !(dst <= folder) by { assert |dst| > |folder|; }
      }
    }
    assert Posix.RenameAllowed(fs1, src, dst);
  }

  /** The save hook only creates directories and moves the image: it never
      removes anything other than the image's upload location. */
  lemma AfterSaveKeepsOtherPaths(fs: Posix.Fs, doc: CategoryDoc, q: Path)
    requires q in fs && q != CategoriesDir + [doc.image]
    ensures q in AfterSave(fs, doc)
  {
  }

  /** `post("findOneAndDelete")`: `doc` is the deleted document, absent when
      nothing matched. */
  function AfterDelete(fs: Posix.Fs, doc: Option<CategoryDoc>): (r: Posix.Fs)
    ensures doc.None? || doc.value.isDefault ==> r == fs
    ensures doc.Some? && !Posix.IsFileAt(fs, CategoryFolder(doc.value.title) + [doc.value.image]) ==> r == fs
    ensures (&& doc.Some? && !doc.value.isDefault && Posix.WellFormed(fs)
             && Posix.IsFileAt(fs, CategoryFolder(doc.value.title) + [doc.value.image])) ==>
      forall q :: q in r <==> q in fs && !(CategoryFolder(doc.value.title) <= q)
    ensures forall q :: q in r ==> q in fs && r[q] == fs[q]
  {
    match doc
    case None => fs
    case Some(d) =>
      if d.isDefault then fs
      else
        var folder := CategoryFolder(d.title);
        assert Posix.Parent(folder + [d.image]) == folder;
        match Posix.Unlink(fs, folder + [d.image])
        case Err(_) => fs
        case Ok(fs1) =>
          UnlinkKeepsFolderReachable(fs, folder, d.image);
          match Posix.RmRecursive(fs1, folder, false)
          case Err(_) => fs1
          case Ok(fs2) => fs2
  }

  /** Unlinking a file leaves its folder removable: no proper prefix of the
      folder is a file. */
  lemma UnlinkKeepsFolderReachable(fs: Posix.Fs, folder: Path, name: string)
    ensures Posix.WellFormed(fs) && Posix.IsFileAt(fs, folder + [name]) ==>
      !Posix.UnderFile(fs - {folder + [name]}, folder)
  {
    if Posix.WellFormed(fs) && Posix.IsFileAt(fs, folder + [name]) {
      assert Posix.Parent(folder + [name]) == folder;
      Posix.EntryNotUnderFile(fs, folder);
    }
  }

  /** Saving a category and then deleting it leaves no folder for it, as
      long as its image could be moved in. */
  lemma SaveThenDeleteRemovesFolder(fs: Posix.Fs, doc: CategoryDoc)
    requires doc.title != "others" && !doc.isDefault
    requires Posix.WellFormed(fs)
    requires Posix.IsFileAt(fs, CategoriesDir + [doc.image])
    requires !Posix.HasFilePrefix(fs, CategoryFolder(doc.title))
    requires !Posix.IsDirAt(fs, CategoryFolder(doc.title) + [doc.image])
    ensures forall q :: q in AfterDelete(AfterSave(fs, doc), Some(doc)) ==> !(CategoryFolder(doc.title) <= q)
  {
    AfterSaveMovesImage(fs, doc);
    var s := AfterSave(fs, doc);
    var folder := CategoryFolder(doc.title);
    Posix.MkdirPreservesWellFormed(fs, folder);
    Posix.RenamePreservesWellFormed(Posix.MkdirP(fs, folder).value, CategoriesDir + [doc.image], folder + [doc.image]);
    assert Posix.IsFileAt(s, CategoryFolder(doc.title) + [doc.image]) by {
      assert CategoryFolder(doc.title) + [doc.image] in s;
      assert s[CategoryFolder(doc.title) + [doc.image]] == fs[CategoriesDir + [doc.image]];
    }
  }
}

=== FILE: dashboard.dfy ===
/** The admin dashboard: the role gate, the three search filters and the
    guard that hides the delete button of the catch-all category. */
module Dashboard {
  import opened Wrappers
  import opened Seqs
  import opened Strings

  datatype View = AccessDenied | Panel

  /** `userRole !== "admin"` renders only the access-denied view. */
  function Gate(userRole: Option<string>): (v: View)
    ensures v == Panel <==> userRole == Some("admin")
  {
    if userRole != Some("admin") then AccessDenied else Panel
  }

  /** `text.toLowerCase().includes(term.toLowerCase())`. */
  predicate Matches(text: string, term: string) {
    Contains(ToLower(text), ToLower(term))
  }

  function Matcher<T>(key: T -> string, loweredTerm: string): T -> bool {
    (x: T) => Contains(ToLower(key(x)), loweredTerm)
  }

  /** `items?.filter(x => matches(key(x), term)) || []`: a list not yet in
      the store filters to nothing. */
  function Search<T(==)>(items: Option<seq<T>>, key: T -> string, term: string): (r: seq<T>)
    ensures items.None? ==> r == []
    ensures items.Some? ==> IsSubseq(r, items.value)
    ensures forall i :: 0 <= i < |r| ==> Matches(key(r[i]), term)
    ensures items.Some? ==> forall x :: x in items.value && Matches(key(x), term) ==> x in r
  {
    match items
    case None => []
    case Some(xs) => Filter(xs, Matcher(key, ToLower(term)))
  }

  /** An empty search keeps every item. */
  lemma EmptyTermKeepsAll<T>(xs: seq<T>, key: T -> string)
    ensures Search(Some(xs), key, "") == xs
  {
    forall i | 0 <= i < |xs| ensures Matches(key(xs[i]), "") {
      assert ToLower("") == "";
    }
    FilterKeepsAll(xs, Matcher(key, ToLower("")));
  }

  lemma LowerOfUpper(s: string)
    ensures ToLower(ToUpper(s)) == ToLower(s)
  {
  }

  /** The filters ignore the case of the search term. */
  lemma SearchIgnoresCase<T>(items: Option<seq<T>>, key: T -> string, term: string)
    ensures Search(items, key, ToUpper(term)) == Search(items, key, term)
  {
    LowerOfUpper(term);
  }

  /** The rows of the three tables, as far as the filters look at them. */
  datatype ProductRow = ProductRow(id: string, title: string)
  datatype CategoryRow = CategoryRow(id: string, title: string)
  datatype UserRow = UserRow(id: string, email: string)

  function FilteredProducts(products: Option<seq<ProductRow>>, term: string): seq<ProductRow> {
    Search(products, (p: ProductRow) => p.title, term)
  }

  function FilteredCategories(categories: Option<seq<CategoryRow>>, term: string): seq<CategoryRow> {
    Search(categories, (c: CategoryRow) => c.title, term)
  }

  function FilteredUsers(users: Option<seq<UserRow>>, term: string): seq<UserRow> {
    Search(users, (u: UserRow) => u.email, term)
  }

  /** Users are found by e-mail address and products and categories by
      title. */
  lemma FiltersUseTheirKeys(p: ProductRow, c: CategoryRow, u: UserRow, term: string)
    ensures p in FilteredProducts(Some([p]), term) <==> Matches(p.title, term)
    ensures c in FilteredCategories(Some([c]), term) <==> Matches(c.title, term)
    ensures u in FilteredUsers(Some([u]), term) <==> Matches(u.email, term)
  {
    FilterMembership([p], Matcher((x: ProductRow) => x.title, ToLower(term)), p);
    FilterMembership([c], Matcher((x: CategoryRow) => x.title, ToLower(term)), c);
    FilterMembership([u], Matcher((x: UserRow) => x.email, ToLower(term)), u);
  }

  /** `c.title.toLowerCase() !== "others"`. */
  function ShowsDelete(title: string): (b: bool)
    ensures !b <==> ToLower(title) == "others"
  {
    ToLower(title) != "others"
  }

  /** The seeded "others" category has no delete button, whatever the case
      of its title. */
  lemma OthersHasNoDelete()
    ensures !ShowsDelete("others") && !ShowsDelete("Others") && !ShowsDelete("OTHERS")
    ensures ShowsDelete("other")
  {
    assert ToLower("Others") == "others";
    assert ToLower("OTHERS") == "others";
    assert |ToLower("other")| != |"others"|;
  }
}

=== FILE: documents.dfy ===
/** The MongoDB collections the server touches, as ordered sequences of
    documents, and the two Mongoose schemas with their required fields and
    defaults. */
module Documents {
  import opened Wrappers
  import opened Seqs
  import opened Strings

  /** An ObjectId, compared as its hex string. */
  type Id = string

  predicate IsHexDigit(c: char) {
    '0' <= c <= '9' || 'a' <= c <= 'f' || 'A' <= c <= 'F'
  }

  /** The strings Mongoose casts to an ObjectId: 24 hex digits. Any other
      string in a query on `_id` raises a `CastError`. */
  predicate IsObjectId(id: Id) {
    |id| == 24 && forall i :: 0 <= i < |id| ==> IsHexDigit(id[i])
  }

  /** Two id strings name the same ObjectId: the cast reads hex digits
      without regard to case. */
  predicate SameId(a: Id, b: Id) {
    ToLower(a) == ToLower(b)
  }

  /** Spellings of one id are ObjectIds together or not at all. */
  lemma SameIdKeepsObjectId(a: Id, b: Id)
    requires SameId(a, b)
    ensures IsObjectId(a) <==> IsObjectId(b)
  {
    assert |a| == |ToLower(a)| == |b|;
    forall i | 0 <= i < |a|
      ensures IsHexDigit(a[i]) <==> IsHexDigit(b[i])
    {
      assert LowerChar(a[i]) == ToLower(a)[i] == ToLower(b)[i] == LowerChar(b[i]);
    }
  }

  /** A document of the `categories` collection; `createdAt`/`updatedAt`
      timestamps are not modelled. */
  datatype CategoryDoc = CategoryDoc(id: Id, title: string, image: string, description: string, isDefault: bool)

  /** A document of the `products` collection. The schema declares no `stock`
      path, so a `stock` sent by a client is never stored. */
  datatype ProductDoc = ProductDoc(
    id: Id, title: string, image: string, description: string,
    gallery: seq<string>, price: string, categoryId: Option<Id>)

  /** `new Category({ title, image, description })`: `isDefault` defaults to
      false. */
  function NewCategory(id: Id, title: string, image: string, description: string): (c: CategoryDoc)
    ensures !c.isDefault
    ensures c.id == id && c.title == title && c.image == image && c.description == description
  {
    CategoryDoc(id, title, image, description, false)
  }

  /** Mongoose's `required` on a String path refuses a missing or empty value. */
  predicate CategoryValid(c: CategoryDoc) {
    c.title != "" && c.image != "" && c.description != ""
  }

  /** The required String paths, and `categoryId`, an ObjectId path that
      refuses any value it cannot cast. */
  predicate ProductValid(p: ProductDoc) {
    && p.title != "" && p.image != "" && p.description != "" && p.price != ""
    && (p.categoryId.Some? ==> IsObjectId(p.categoryId.value))
  }

  /** What an ObjectId path stores for a string: its lower-case hex
      spelling. */
  function CastId(id: Id): (r: Id)
    ensures SameId(r, id)
    ensures IsObjectId(r) <==> IsObjectId(id)
  {
    ToLowerIdempotent(id);
    SameIdKeepsObjectId(ToLower(id), id);
    ToLower(id)
  }

  /** `Category.findOne({ title })`: the first document with that title. */
  function FindCategoryByTitle(cs: seq<CategoryDoc>, title: string): (r: Option<CategoryDoc>)
    ensures r.None? <==> forall i :: 0 <= i < |cs| ==> cs[i].title != title
    ensures r.Some? ==> r.value in cs && r.value.title == title
    ensures r.Some? ==> exists k :: 0 <= k < |cs| && cs[k] == r.value && forall j :: 0 <= j < k ==> cs[j].title != title
  {
    if |cs| == 0 then None
    else if cs[0].title == title then Some(cs[0])
    else
      var r := FindCategoryByTitle(cs[1..], title);
      assert forall i :: 1 <= i < |cs| ==> cs[i] == cs[1..][i - 1];
      if r.Some? then
        ghost var k :| 0 <= k < |cs[1..]| && cs[1..][k] == r.value && forall j :: 0 <= j < k ==> cs[1..][j].title != title;
        assert cs[k + 1] == r.value;
        r
      else r
  }

  /** `Product.findById(id)`. */
  function FindProduct(ps: seq<ProductDoc>, id: Id): (r: Option<ProductDoc>)
    ensures r.None? <==> forall i :: 0 <= i < |ps| ==> !SameId(ps[i].id, id)
    ensures r.Some? ==> r.value in ps && SameId(r.value.id, id)
  {
    if |ps| == 0 then None
    else if SameId(ps[0].id, id) then Some(ps[0])
    else
      var r := FindProduct(ps[1..], id);
      assert forall i :: 1 <= i < |ps| ==> ps[i] == ps[1..][i - 1];
      r
  }

  /** `findById` does not care how the id's hex digits are cased. */
  lemma {:induction false} FindProductSameId(ps: seq<ProductDoc>, a: Id, b: Id)
    requires SameId(a, b)
    ensures FindProduct(ps, a) == FindProduct(ps, b)
  {
    if |ps| > 0 {
      FindProductSameId(ps[1..], a, b);
    }
  }

  function HasOtherId(id: Id): ProductDoc -> bool {
    (p: ProductDoc) => !SameId(p.id, id)
  }

  /** `Product.findByIdAndDelete(id)`: `_id` is the primary key, so removing
      every document carrying `id` removes the one `findById` finds. */
  function DeleteProduct(ps: seq<ProductDoc>, id: Id): (r: seq<ProductDoc>)
    ensures forall i :: 0 <= i < |r| ==> !SameId(r[i].id, id)
    ensures forall p :: p in ps && !SameId(p.id, id) ==> p in r
    ensures IsSubseq(r, ps)
  {
    Filter(ps, HasOtherId(id))
  }
}

=== FILE: file_system.dfy ===
/** The server's `FileSystem` helper class: thin wrappers over `fs` that
    rethrow failures with the operation's name, plus three predicates that
    never fail. */
module FileSystem {
  import opened Wrappers
  import opened Paths
  import Posix

  /** The error each method rethrows, naming the operation and its arguments. */
  datatype Failure =
    | MakeDirectoryFailed(dir: Path, cause: Posix.FsError)
    | RemoveDirectoryFailed(dir: Path, cause: Posix.FsError)
    | MoveFailed(source: Path, destination: Path, cause: Posix.FsError)
    | ReadFailed(file: Path, cause: Posix.FsError)
    | WriteFailed(file: Path, cause: Posix.FsError)
    | ListFailed(dir: Path, cause: Posix.FsError)
    | CopyFailed(source: Path, destination: Path, cause: Posix.FsError)
    | StatFailed(item: Path, cause: Posix.FsError)

  /** Where `moveFile` and `copyFile` put the file: a destination with an
      extension names the file itself, any other destination is a directory
      that receives the source's base name. */
  function ResolveDestination(source: Path, destination: Path): Path {
    if Extname(destination) != "" then destination else Join(destination, [Basename(source)])
  }

  function MakeDirectory(fs: Posix.Fs, dir: Path): (r: Result<Posix.Fs, Failure>)
    ensures r.Ok? <==> !Posix.HasFilePrefix(fs, dir)
    ensures r.Ok? ==> Posix.IsDirAt(r.value, dir)
    ensures r.Ok? ==> forall q :: q in fs ==> q in r.value && r.value[q] == fs[q]
    ensures r.Ok? ==> forall q :: q in r.value && q !in fs ==> q <= dir && r.value[q] == Posix.Dir
    ensures r.Err? ==> r.error == MakeDirectoryFailed(dir, r.error.cause)
  {
    match Posix.MkdirP(fs, dir)
    case Ok(fs') => Ok(fs')
    case Err(e) => Err(MakeDirectoryFailed(dir, e))
  }

  /** `rm -rf`: a missing `dir` is no error, but a `dir` that runs through a
      file is; otherwise nothing at or below `dir` is left. */
  function RemoveDirectory(fs: Posix.Fs, dir: Path): (r: Result<Posix.Fs, Failure>)
    ensures r.Err? <==> Posix.UnderFile(fs, dir)
    ensures r.Err? ==> r.error == RemoveDirectoryFailed(dir, Posix.ENOTDIR)
    ensures r.Ok? ==> forall q :: q in r.value <==> q in fs && !(dir <= q)
    ensures r.Ok? ==> forall q :: q in r.value ==> r.value[q] == fs[q]
  {
    match Posix.RmRecursive(fs, dir, true)
    case Ok(fs') => Ok(fs')
    case Err(e) => Err(RemoveDirectoryFailed(dir, e))
  }

  function MoveFile(fs: Posix.Fs, source: Path, destination: Path): (r: Result<Posix.Fs, Failure>)
    ensures r.Ok? <==> Posix.RenameAllowed(fs, source, ResolveDestination(source, destination))
    ensures r.Ok? && Extname(destination) != "" ==> Posix.MovedFile(fs, r.value, source, destination)
    ensures r.Ok? && Extname(destination) == "" ==>
      Posix.MovedFile(fs, r.value, source, destination + [Basename(source)])
    ensures r.Err? ==> r.error == MoveFailed(source, destination, r.error.cause)
  {
    match Posix.Rename(fs, source, ResolveDestination(source, destination))
    case Ok(fs') => Ok(fs')
    case Err(e) => Err(MoveFailed(source, destination, e))
  }

  function CopyFile(fs: Posix.Fs, source: Path, destination: Path): (r: Result<Posix.Fs, Failure>)
    ensures r.Ok? <==> Posix.CopyAllowed(fs, source, ResolveDestination(source, destination))
    ensures r.Ok? && Extname(destination) != "" ==>
      destination in r.value && r.value[destination] == fs[source] && source in r.value
    ensures r.Ok? && Extname(destination) == "" ==>
      destination + [Basename(source)] in r.value && r.value[destination + [Basename(source)]] == fs[source]
    ensures r.Ok? ==> r.value.Keys == fs.Keys + {ResolveDestination(source, destination)}
    ensures r.Ok? ==> forall q :: q in fs && q != ResolveDestination(source, destination) ==> r.value[q] == fs[q]
    ensures r.Err? ==> r.error == CopyFailed(source, destination, r.error.cause)
  {
    match Posix.CopyFile(fs, source, ResolveDestination(source, destination))
    case Ok(fs') => Ok(fs')
    case Err(e) => Err(CopyFailed(source, destination, e))
  }

  /** When both succeed, moving and copying the same source to the same
      destination leave the same content at the same place. */
  lemma MoveAndCopyAgree(fs: Posix.Fs, source: Path, destination: Path)
    requires MoveFile(fs, source, destination).Ok? && CopyFile(fs, source, destination).Ok?
    ensures var d := ResolveDestination(source, destination);
      d in MoveFile(fs, source, destination).value && d in CopyFile(fs, source, destination).value
      && MoveFile(fs, source, destination).value[d] == CopyFile(fs, source, destination).value[d]
  {
  }

  function ReadFile(fs: Posix.Fs, file: Path): (r: Result<string, Failure>)
    ensures r.Ok? <==> Posix.IsFileAt(fs, file)
    ensures r.Ok? ==> fs[file] == Posix.File(r.value)
  {
    match Posix.Stat(fs, file)
    case Ok(n) => if n.File? then Ok(n.data) else Err(ReadFailed(file, Posix.EISDIR))
    case Err(e) => Err(ReadFailed(file, e))
  }

  function WriteFile(fs: Posix.Fs, file: Path, data: string): (r: Result<Posix.Fs, Failure>)
    ensures r.Ok? <==> !Posix.IsDirAt(fs, file) && Posix.ParentError(fs, file).None?
    ensures r.Ok? ==> ReadFile(r.value, file) == Ok(data)
    ensures r.Ok? ==> forall q :: q in fs && q != file ==> q in r.value && r.value[q] == fs[q]
  {
    if file in fs && fs[file].Dir? then Err(WriteFailed(file, Posix.EISDIR))
    else match Posix.ParentError(fs, file)
      case Some(e) => Err(WriteFailed(file, e))
      case None => Ok(fs[file := Posix.File(data)])
  }

  /** `listDirectory(dir, fullPath)`: `order` is the order in which the
      operating system reports the entries of `dir`. Without `fullPath` the
      entry names are returned as they are (each a one-segment relative path),
      with it each is joined onto `dir`; either way one result per entry, in
      the same order. */
  function ListDirectory(fs: Posix.Fs, dir: Path, order: seq<Segment>, fullPath: bool): (r: Result<seq<Path>, Failure>)
    requires Posix.IsDirAt(fs, dir) ==> forall e :: e in order <==> dir + [e] in fs
    ensures r.Ok? <==> Posix.IsDirAt(fs, dir)
    ensures r.Ok? ==> |r.value| == |order|
    ensures r.Ok? && !fullPath ==> forall i :: 0 <= i < |order| ==> r.value[i] == [order[i]]
    ensures r.Ok? && fullPath ==> forall i :: 0 <= i < |order| ==>
      r.value[i] == Join(dir, [order[i]]) && r.value[i] in fs
  {
    if dir !in fs then Err(ListFailed(dir, Posix.ENOENT))
    else if fs[dir].File? then Err(ListFailed(dir, Posix.ENOTDIR))
    else
      var items := seq(|order|, i requires 0 <= i < |order| => [order[i]]);
      if fullPath then Ok(seq(|items|, i requires 0 <= i < |items| => Join(dir, items[i])))
      else Ok(items)
  }

  /** `exists`: any failure of `fs.access` reads as false. */
  function Exists(fs: Posix.Fs, item: Path): (b: bool)
    ensures b <==> item in fs
  {
    Posix.Stat(fs, item).Ok?
  }

  /** `isDirectory`: any failure of `fs.stat` reads as false. */
  function IsDirectory(fs: Posix.Fs, item: Path): (b: bool)
    ensures b <==> item in fs && fs[item] == Posix.Dir
  {
    match Posix.Stat(fs, item)
    case Ok(n) => n.Dir?
    case Err(_) => false
  }

  /** `isFile`: any failure of `fs.stat` reads as false. */
  function IsFile(fs: Posix.Fs, item: Path): (b: bool)
    ensures b <==> item in fs && fs[item].File?
  {
    match Posix.Stat(fs, item)
    case Ok(n) => n.File?
    case Err(_) => false
  }

  /** The predicates agree with each other: an item is a directory or a file
      exactly when it exists, and never both. */
  lemma PredicatesAgree(fs: Posix.Fs, item: Path)
    ensures Exists(fs, item) <==> IsDirectory(fs, item) || IsFile(fs, item)
    ensures !(IsDirectory(fs, item) && IsFile(fs, item))
  {
  }

  function GetStats(fs: Posix.Fs, item: Path): (r: Result<Posix.Node, Failure>)
    ensures r.Ok? <==> Exists(fs, item)
    ensures r.Ok? ==> r.value == fs[item]
  {
    match Posix.Stat(fs, item)
    case Ok(n) => Ok(n)
    case Err(e) => Err(StatFailed(item, e))
  }
}

=== FILE: forms.dfy ===
/** What the admin forms of the client share: the files a file input hands
    over, the `errors` object keyed by field name, the "is it an image" test
    on a file's MIME type, and the single-image picker. */
module Forms {
  import opened Wrappers
  import opened Strings

  /** A browser `File`, reduced to what the forms look at. */
  datatype Picked = Picked(name: string, mimeType: string)

  /** `file.type.startsWith("image/")`. */
  predicate IsImage(f: Picked) {
    StartsWith(f.mimeType, "image/")
  }

  /** The form fields an error can be recorded for. */
  datatype Key = Title | Description | Price | Stock | CategoryId | Image | Gallery

  /** The property name the forms use for each key. */
  function KeyName(k: Key): string {
    match k
    case Title => "title"
    case Description => "description"
    case Price => "price"
    case Stock => "stock"
    case CategoryId => "categoryId"
    case Image => "image"
    case Gallery => "gallery"
  }

  /** The `errors` state object. A cleared entry holds the empty string, which
      stands for both `""` and `null`: the forms only ever test an entry for
      truthiness. */
  type Errors = map<Key, string>

  /** `errors[key]` is truthy. */
  predicate HasError(errors: Errors, key: Key) {
    key in errors && errors[key] != ""
  }

  /** A validator's fresh `newErrors` object: for each field it checks, the
      message of the failed check, and nothing for a passed one. */
  function Failures<S>(keys: set<Key>, s: S, check: (S, Key) -> Option<string>): (r: Errors)
    ensures forall k :: k in r <==> k in keys && check(s, k).Some?
    ensures forall k :: k in r ==> r[k] == check(s, k).value
    ensures |r| == 0 <==> forall k :: k in keys ==> check(s, k).None?
  {
    var r := map k | k in keys && check(s, k).Some? :: check(s, k).value;
    assert forall k :: k in keys && check(s, k).Some? ==> k in r.Keys;
    r
  }

  /** Index `k` holds the first file of `files` that is not an image. */
  predicate FirstNonImageAt(files: seq<Picked>, k: int) {
    0 <= k < |files| && !IsImage(files[k]) && forall j :: 0 <= j < k ==> IsImage(files[j])
  }

  /** `files.find((f) => !f.type.startsWith("image/"))`: the first file that is
      not an image. */
  function FirstNonImage(files: seq<Picked>): (r: Option<Picked>)
    ensures r.None? <==> forall i :: 0 <= i < |files| ==> IsImage(files[i])
    ensures r.Some? ==> exists k :: FirstNonImageAt(files, k) && files[k] == r.value
  {
    if |files| == 0 then None
    else if !IsImage(files[0]) then (assert FirstNonImageAt(files, 0); Some(files[0]))
    else
      var r := FirstNonImage(files[1..]);
      assert forall i :: 1 <= i < |files| ==> files[i] == files[1..][i - 1];
      if r.Some? then FirstNonImageShift(files, r.value); r else r
  }

  /** A first non-image of the tail, behind an image, is the first of the whole. */
  lemma FirstNonImageShift(files: seq<Picked>, f: Picked)
    requires |files| > 0 && IsImage(files[0])
    requires exists k :: FirstNonImageAt(files[1..], k) && files[1..][k] == f
    ensures exists k :: FirstNonImageAt(files, k) && files[k] == f
  {
    var k :| FirstNonImageAt(files[1..], k) && files[1..][k] == f;
    assert files[k + 1] == f;
    forall j | 0 <= j < k + 1 ensures IsImage(files[j]) {
      if j > 0 {
        assert files[j] == files[1..][j - 1];
      }
    }
    assert FirstNonImageAt(files, k + 1);
  }

  /** `e.target.files[0]`, absent when nothing was chosen. */
  function FirstFile(files: seq<Picked>): (r: Option<Picked>)
    ensures r.Some? <==> |files| > 0
    ensures r.Some? ==> r.value == files[0]
  {
    if |files| == 0 then None else Some(files[0])
  }

  const NotAnImage: string := "Please upload an image file"

  datatype ImagePick = ImagePick(image: Option<Picked>, errors: Errors)

  /** The `handleImageChange` every form shares: no file changes nothing, a
      non-image keeps the current image and records an error, an image
      replaces the current one and clears the error. */
  function PickImage(current: Option<Picked>, errors: Errors, files: seq<Picked>): (r: ImagePick)
    ensures |files| == 0 ==> r == ImagePick(current, errors)
    ensures |files| > 0 && !IsImage(files[0]) ==>
      r.image == current && HasError(r.errors, Image) && r.errors[Image] == NotAnImage
    ensures |files| > 0 && IsImage(files[0]) ==> r.image == Some(files[0]) && !HasError(r.errors, Image)
    ensures forall k :: k != Image ==> (k in r.errors <==> k in errors)
    ensures forall k :: k in errors && k != Image ==> r.errors[k] == errors[k]
  {
    match FirstFile(files)
    case None => ImagePick(current, errors)
    case Some(file) =>
      if !IsImage(file) then ImagePick(current, errors[Image := NotAnImage])
      else ImagePick(Some(file), errors[Image := ""])
  }

  /** Picking the same file twice is picking it once. */
  lemma PickImageIdempotent(current: Option<Picked>, errors: Errors, files: seq<Picked>)
    ensures var once := PickImage(current, errors, files);
      PickImage(once.image, once.errors, files) == once
  {
  }

  const GalleryNotImages: string := "All gallery files must be images"

  /** The gallery check both product forms share: a batch with any non-image
      records an error; an accepted batch clears it. */
  function GalleryErrors(errors: Errors, files: seq<Picked>): (r: Errors)
    ensures FirstNonImage(files).Some? ==> r == errors[Gallery := GalleryNotImages]
    ensures FirstNonImage(files).None? ==> r == errors[Gallery := ""]
  {
    errors[Gallery := if FirstNonImage(files).Some? then GalleryNotImages else ""]
  }

  /** `Number(stock) < 0` on a number input: an empty input reads as 0. */
  predicate NegativeStock(stock: Option<real>) {
    stock.Some? && stock.value < 0.0
  }

  /** One `formData.append(name, value)`. */
  datatype Part =
    | TextPart(name: string, text: string)
    | NumberPart(name: string, amount: Option<real>)
    | FilePart(name: string, file: Picked)

  /** One `formData.append("gallery", file)` per file, in order. */
  function GalleryParts(files: seq<Picked>): (parts: seq<Part>)
    ensures |parts| == |files|
    ensures forall j :: 0 <= j < |files| ==> parts[j] == FilePart("gallery", files[j])
  {
    if |files| == 0 then [] else [FilePart("gallery", files[0])] + GalleryParts(files[1..])
  }

  /** `formData.has(name)`. */
  predicate HasPart(parts: seq<Part>, name: string) {
    exists i :: 0 <= i < |parts| && parts[i].name == name
  }

  lemma HasPartAppend(a: seq<Part>, b: seq<Part>, name: string)
    ensures HasPart(a + b, name) <==> HasPart(a, name) || HasPart(b, name)
  {
    if HasPart(a + b, name) {
      var i :| 0 <= i < |a + b| && (a + b)[i].name == name;
      if i >= |a| {
        assert b[i - |a|] == (a + b)[i];
      }
    }
    if HasPart(b, name) {
      var i :| 0 <= i < |b| && b[i].name == name;
      assert (a + b)[|a| + i] == b[i];
    }
    if HasPart(a, name) {
      var i :| 0 <= i < |a| && a[i].name == name;
      assert (a + b)[i] == a[i];
    }
  }
}

=== FILE: home.dfy ===
/** The home page's "Latest Arrivals" slider. */
module Home {
  import opened Wrappers
  import opened Seqs

  /** `(products || []).slice(-6).reverse()`: the last six in the list, last
      first. That is the six newest, newest first, provided the list holds
      products in creation order, which the product slice is not part of
      this model to confirm. */
  function LatestProducts<T>(products: Option<seq<T>>): (r: seq<T>)
    ensures var xs := products.GetOr([]);
      |r| == Min(6, |xs|) && forall i :: 0 <= i < |r| ==> r[i] == xs[|xs| - 1 - i]
  {
    var xs := products.GetOr([]);
    ReversedLast(xs, 6);
    Reverse(TakeLast(xs, 6))
  }

  lemma ReversedLast<T>(xs: seq<T>, n: nat)
    requires n > 0
    ensures var r := Reverse(TakeLast(xs, n));
      |r| == Min(n, |xs|) && forall i :: 0 <= i < |r| ==> r[i] == xs[|xs| - 1 - i]
  {
    var last := TakeLast(xs, n);
    var r := Reverse(last);
    forall i | 0 <= i < |r|
      ensures r[i] == xs[|xs| - 1 - i]
    {
      assert r[i] == last[|last| - 1 - i];
    }
  }

  /** `latestProducts.length > 0`. */
  predicate ShowsSlider<T>(products: Option<seq<T>>) {
    |LatestProducts(products)| > 0
  }

  /** With six products or fewer the slider shows them all, in reverse; the
      slider is hidden exactly when there are no products. */
  lemma LatestOfFew<T>(products: seq<T>)
    requires |products| <= 6
    ensures LatestProducts(Some(products)) == Reverse(products)
    ensures ShowsSlider(Some(products)) <==> |products| > 0
    ensures !ShowsSlider<T>(None)
  {
  }
}

=== FILE: list_slices.dfy ===
/** The three list slices of the Redux store (categories, blogs, users)
    share one shape: a list of records keyed by `_id`, replaced wholesale,
    filtered by id, and "added to" by assigning the result of `push`. */
module ListSlice {
  import opened Wrappers
  import opened Seqs

  /** A record as the API returns it; only `_id` matters to the slices. */
  datatype Record = Record(id: string, fields: map<string, string>)

  /** What the slice field holds. `push` returns the new length, and the
      add reducers store that number in place of the list. */
  datatype Field = List(items: seq<Record>) | Length(n: nat)

  /** The set reducers: the payload becomes the list. */
  function SetItems(payload: seq<Record>): (f: Field)
    ensures f.List? && f.items == payload
  {
    List(payload)
  }

  function HasOtherId(id: string): Record -> bool {
    (r: Record) => r.id != id
  }

  /** The remove reducers: `items.filter(x => x._id !== id)`; on a field
      already replaced by a number, `filter` is not a function and the
      reducer throws. */
  function RemoveById(f: Field, id: string): (r: Result<Field, string>)
    ensures f.Length? <==> r.Err?
    ensures r.Ok? ==> r.value.List?
    ensures r.Ok? ==> forall i :: 0 <= i < |r.value.items| ==> r.value.items[i].id != id
    ensures r.Ok? ==> forall x :: x in f.items && x.id != id ==> x in r.value.items
    ensures r.Ok? ==> IsSubseq(r.value.items, f.items)
  {
    match f
    case Length(_) => Err("filter is not a function")
    case List(xs) => Ok(List(Filter(xs, HasOtherId(id))))
  }

  /** An element survives removal exactly when it was there and carries
      another id. */
  lemma RemoveKeepsExactlyOthers(xs: seq<Record>, id: string, x: Record)
    ensures x in RemoveById(List(xs), id).value.items <==> x in xs && x.id != id
  {
    FilterMembership(xs, HasOtherId(id), x);
  }

  /** Removing an id no element carries changes nothing, and removing the
      same id twice is removing it once. */
  lemma RemoveAbsentAndIdempotent(xs: seq<Record>, id: string)
    ensures (forall i :: 0 <= i < |xs| ==> xs[i].id != id) ==> RemoveById(List(xs), id) == Ok(List(xs))
    ensures RemoveById(RemoveById(List(xs), id).value, id) == RemoveById(List(xs), id)
  {
    if forall i :: 0 <= i < |xs| ==> xs[i].id != id {
      FilterKeepsAll(xs, HasOtherId(id));
    }
    FilterIdempotent(xs, HasOtherId(id));
  }

  /** The add reducers as written: `state.items = state.items.push(x)`. */
  function AddAsWritten(f: Field, x: Record): (r: Result<Field, string>)
    ensures f.List? ==> r == Ok(Length(|f.items| + 1))
    ensures f.Length? ==> r.Err?
  {
    match f
    case Length(_) => Err("push is not a function")
    case List(xs) => Ok(Length(|xs| + 1))
  }

  /** After an add, the list is gone: the next removal throws. */
  lemma AddThenRemoveThrows(xs: seq<Record>, x: Record, id: string)
    ensures RemoveById(AddAsWritten(List(xs), x).value, id).Err?
  {
  }
}

/** `categorySlice`: the categories shown on the dashboard and the shop. */
module CategorySlice {
  import opened Wrappers
  import Seqs
  import ListSlice

  datatype State = State(categories: ListSlice.Field)

  const Initial: State := State(ListSlice.List([]))

  function SetCategories(s: State, payload: seq<ListSlice.Record>): (r: State)
    ensures r.categories == ListSlice.List(payload)
  {
    s.(categories := ListSlice.SetItems(payload))
  }

  function AddCategory(s: State, x: ListSlice.Record): (r: Result<State, string>)
    ensures s.categories.List? ==> r == Ok(State(ListSlice.Length(|s.categories.items| + 1)))
    ensures s.categories.Length? ==> r.Err?
  {
    var f :- ListSlice.AddAsWritten(s.categories, x);
    Ok(s.(categories := f))
  }

  function RemoveCategory(s: State, id: string): (r: Result<State, string>)
    ensures r.Ok? <==> s.categories.List?
    ensures r.Ok? ==> r.value.categories.List?
    ensures r.Ok? ==> forall i :: 0 <= i < |r.value.categories.items| ==> r.value.categories.items[i].id != id
    ensures r.Ok? ==> forall x :: x in s.categories.items && x.id != id ==> x in r.value.categories.items
    ensures r.Ok? ==> Seqs.IsSubseq(r.value.categories.items, s.categories.items)
  {
    var f :- ListSlice.RemoveById(s.categories, id);
    Ok(s.(categories := f))
  }
}

/** `blogSlice`. */
module BlogSlice {
  import opened Wrappers
  import Seqs
  import ListSlice

  datatype State = State(blogs: ListSlice.Field)

  const Initial: State := State(ListSlice.List([]))

  function SetBlogs(s: State, payload: seq<ListSlice.Record>): (r: State)
    ensures r.blogs == ListSlice.List(payload)
  {
    s.(blogs := ListSlice.SetItems(payload))
  }

  function AddBlog(s: State, x: ListSlice.Record): (r: Result<State, string>)
    ensures s.blogs.List? ==> r == Ok(State(ListSlice.Length(|s.blogs.items| + 1)))
    ensures s.blogs.Length? ==> r.Err?
  {
    var f :- ListSlice.AddAsWritten(s.blogs, x);
    Ok(s.(blogs := f))
  }

  function RemoveBlog(s: State, id: string): (r: Result<State, string>)
    ensures r.Ok? <==> s.blogs.List?
    ensures r.Ok? ==> r.value.blogs.List?
    ensures r.Ok? ==> forall i :: 0 <= i < |r.value.blogs.items| ==> r.value.blogs.items[i].id != id
    ensures r.Ok? ==> forall x :: x in s.blogs.items && x.id != id ==> x in r.value.blogs.items
    ensures r.Ok? ==> Seqs.IsSubseq(r.value.blogs.items, s.blogs.items)
  {
    var f :- ListSlice.RemoveById(s.blogs, id);
    Ok(s.(blogs := f))
  }
}

/** `userSlice`. */
module UserSlice {
  import opened Wrappers
  import Seqs
  import ListSlice

  datatype State = State(users: ListSlice.Field)

  const Initial: State := State(ListSlice.List([]))

  function SetUsers(s: State, payload: seq<ListSlice.Record>): (r: State)
    ensures r.users == ListSlice.List(payload)
  {
    s.(users := ListSlice.SetItems(payload))
  }

  function AddUser(s: State, x: ListSlice.Record): (r: Result<State, string>)
    ensures s.users.List? ==> r == Ok(State(ListSlice.Length(|s.users.items| + 1)))
    ensures s.users.Length? ==> r.Err?
  {
    var f :- ListSlice.AddAsWritten(s.users, x);
    Ok(s.(users := f))
  }

  function RemoveUser(s: State, id: string): (r: Result<State, string>)
    ensures r.Ok? <==> s.users.List?
    ensures r.Ok? ==> r.value.users.List?
    ensures r.Ok? ==> forall i :: 0 <= i < |r.value.users.items| ==> r.value.users.items[i].id != id
    ensures r.Ok? ==> forall x :: x in s.users.items && x.id != id ==> x in r.value.users.items
    ensures r.Ok? ==> Seqs.IsSubseq(r.value.users.items, s.users.items)
  {
    var f :- ListSlice.RemoveById(s.users, id);
    Ok(s.(users := f))
  }
}

=== FILE: middleware.dfy ===
/** The two Express middlewares guarding routes: `authenticateToken` lets any
    valid token through, `authorizeRole(...roles)` also checks its role. Both
    read the token from the `token` cookie, or failing that from an
    `Authorization: Bearer <token>` header. Token verification is a
    parameter: `verify(token)` is the decoded payload, or `None` when
    `jwt.verify` rejects the token. */
module Middleware {
  import opened Wrappers
  import opened Strings

  /** The payload the server signs. */
  datatype Claims = Claims(userId: string, userRole: string)

  /** What the middleware does with the request: answer it, or attach the
      claims as `req.user` and call `next()`. */
  datatype Decision = Reject(status: nat, message: string) | Next(user: Claims)

  const BearerPrefix: string := "Bearer "

  /** `cookie` is `req.cookies?.token`, the empty string when absent; the
      result is the empty string when there is no token. */
  function ExtractToken(cookie: string, header: Option<string>): (token: string)
    ensures cookie != "" ==> token == cookie
    ensures cookie == "" && (header.None? || !StartsWith(header.value, BearerPrefix)) ==> token == ""
    ensures cookie == "" && header.Some? && StartsWith(header.value, BearerPrefix) ==>
      token == Split(header.value[|BearerPrefix|..], ' ')[0] && ' ' !in token
  {
    if cookie != "" then cookie
    else match header
      case None => ""
      case Some(h) =>
        if StartsWith(h, BearerPrefix) then
          var rest := h[|BearerPrefix|..];
          assert h == "Bearer" + [' '] + rest;
          SplitAfterFirstSeparator(rest, ' ', "Bearer");
          SplitFieldsFree(h, ' ');
          Split(h, ' ')[1]
        else ""
  }

  /** The header `Bearer <t>` yields `t` when `t` has no space, and
      `Bearer ` alone yields no token. */
  lemma BearerHeaderToken(t: string)
    requires ' ' !in t
    ensures ExtractToken("", Some(BearerPrefix + t)) == t
    ensures ExtractToken("", Some(BearerPrefix)) == ""
  {
    assert (BearerPrefix + t)[|BearerPrefix|..] == t;
    SplitNoSeparator(t, ' ');
    assert BearerPrefix[|BearerPrefix|..] == "";
  }

  lemma {:induction false} SplitNoSeparator(s: string, sep: char)
    requires sep !in s
    ensures Split(s, sep) == [s]
    decreases |s|
  {
    if |s| > 0 {
      SplitNoSeparator(s[1..], sep);
      assert s == [s[0]] + s[1..];
    }
  }

  /** `authorizeRole(...allowedRoles)`. */
  function AuthorizeRole(allowedRoles: seq<string>, cookie: string, header: Option<string>,
                         verify: string -> Option<Claims>): (d: Decision)
    ensures ExtractToken(cookie, header) == "" <==> d == Reject(401, "Unauthorized! No token provided.")
    ensures d == Reject(403, "Invalid or expired token.") <==>
      ExtractToken(cookie, header) != "" && verify(ExtractToken(cookie, header)).None?
    ensures d == Reject(403, "Forbidden! Insufficient role.") <==>
      ExtractToken(cookie, header) != "" && verify(ExtractToken(cookie, header)).Some?
      && verify(ExtractToken(cookie, header)).value.userRole !in allowedRoles
    ensures d.Next? <==>
      ExtractToken(cookie, header) != "" && verify(ExtractToken(cookie, header)).Some?
      && verify(ExtractToken(cookie, header)).value.userRole in allowedRoles
    ensures d.Next? ==> Some(d.user) == verify(ExtractToken(cookie, header)) && d.user.userRole in allowedRoles
  {
    var token := ExtractToken(cookie, header);
    if token == "" then Reject(401, "Unauthorized! No token provided.")
    else match verify(token)
      case None => Reject(403, "Invalid or expired token.")
      case Some(decoded) =>
        if decoded.userRole !in allowedRoles then Reject(403, "Forbidden! Insufficient role.")
        else Next(decoded)
  }

  /** `authenticateToken`. */
  function AuthenticateToken(cookie: string, header: Option<string>, verify: string -> Option<Claims>): (d: Decision)
    ensures ExtractToken(cookie, header) == "" <==> d == Reject(401, "Access denied. No token provided.")
    ensures d == Reject(403, "Invalid or expired token.") <==>
      ExtractToken(cookie, header) != "" && verify(ExtractToken(cookie, header)).None?
    ensures d.Next? <==> ExtractToken(cookie, header) != "" && verify(ExtractToken(cookie, header)).Some?
    ensures d.Next? ==> Some(d.user) == verify(ExtractToken(cookie, header))
  {
    var token := ExtractToken(cookie, header);
    if token == "" then Reject(401, "Access denied. No token provided.")
    else match verify(token)
      case None => Reject(403, "Invalid or expired token.")
      case Some(decoded) => Next(decoded)
  }

  /** A request `authorizeRole` lets through is let through by
      `authenticateToken` with the same `req.user`, and with no allowed roles
      nothing gets through. */
  lemma AuthorizeImpliesAuthenticate(allowedRoles: seq<string>, cookie: string, header: Option<string>,
                                     verify: string -> Option<Claims>)
    ensures AuthorizeRole(allowedRoles, cookie, header, verify).Next? ==>
      AuthenticateToken(cookie, header, verify) == AuthorizeRole(allowedRoles, cookie, header, verify)
    ensures allowedRoles == [] ==> AuthorizeRole(allowedRoles, cookie, header, verify).Reject?
  {
  }

  /** A cookie token wins over any header. */
  lemma CookieWins(cookie: string, h1: Option<string>, h2: Option<string>, verify: string -> Option<Claims>)
    requires cookie != ""
    ensures AuthenticateToken(cookie, h1, verify) == AuthenticateToken(cookie, h2, verify)
  {
  }
}

=== FILE: modal_slice.dfy ===
/** The `modal` slice: a single global dialog with a title, a message and
    its buttons. */
module ModalSlice {
  import opened Wrappers

  /** A button as the dialog component receives it. */
  datatype Button = Button(text: string)

  datatype State = State(isOpen: bool, title: string, message: string, buttons: seq<Button>)

  const Initial: State := State(false, "", "", [])

  /** `openModal`; `buttons` is absent (or null) when the payload has none. */
  function OpenModal(s: State, title: string, message: string, buttons: Option<seq<Button>>): (r: State)
    ensures r.isOpen && r.title == title && r.message == message
    ensures buttons.None? ==> r.buttons == []
    ensures buttons.Some? ==> r.buttons == buttons.value
  {
    s.(isOpen := true, title := title, message := message, buttons := buttons.GetOr([]))
  }

  function CloseModal(s: State): (r: State)
    ensures !r.isOpen && r.title == "" && r.message == "" && r.buttons == []
  {
    s.(isOpen := false, title := "", message := "", buttons := [])
  }

  /** Opening forgets the previous dialog, closing always returns to the
      initial state, and closing twice is closing once. */
  lemma ModalLaws(s: State, t: State, title: string, message: string, buttons: Option<seq<Button>>)
    ensures OpenModal(s, title, message, buttons) == OpenModal(t, title, message, buttons)
    ensures CloseModal(s) == Initial
    ensures CloseModal(CloseModal(s)) == CloseModal(s)
    ensures CloseModal(OpenModal(s, title, message, buttons)) == Initial
  {
  }
}

=== FILE: nav_links.dfy ===
/** The link lists of the navigation bar and the footer. Both are written as
    `[..., cond && link, ...].filter(Boolean)`, modelled as optional entries
    with the absent ones dropped. */
module NavLinks {
  import opened Wrappers
  import opened Seqs

  datatype Link = Link(text: string, path: string)

  function When(cond: bool, l: Link): Option<Link> {
    if cond then Some(l) else None
  }

  /** `[...fixed, a, b, c].filter(Boolean)`. */
  function Entries(fixed: seq<Link>, a: Option<Link>, b: Option<Link>, c: Option<Link>): (links: seq<Link>)
    ensures links == fixed + AsSeq(a) + AsSeq(b) + AsSeq(c)
  {
    SomesOfEntries(fixed, a, b, c);
    Somes(Lift(fixed) + [a, b, c])
  }

  lemma SomesOfEntries<T>(fixed: seq<T>, a: Option<T>, b: Option<T>, c: Option<T>)
    ensures Somes(Lift(fixed) + [a, b, c]) == fixed + AsSeq(a) + AsSeq(b) + AsSeq(c)
  {
    SomesAppend(Lift(fixed), [a, b, c]);
    SomesOfPresent(fixed);
    SomesOfThree(a, b, c);
  }

  lemma SomesOfThree<T>(a: Option<T>, b: Option<T>, c: Option<T>)
    ensures Somes([a, b, c]) == AsSeq(a) + AsSeq(b) + AsSeq(c)
  {
    SomesOfTwo(b, c);
    SomesCons(a, [b, c]);
    assert [a] + [b, c] == [a, b, c];
  }

  lemma SomesOfTwo<T>(b: Option<T>, c: Option<T>)
    ensures Somes([b, c]) == AsSeq(b) + AsSeq(c)
  {
    SomesCons(c, []);
    assert [c] + [] == [c];
    SomesCons(b, [c]);
    assert [b] + [c] == [b, c];
  }

  /** What the filtered list holds: the fixed links and the present entries. */
  lemma EntriesHave<T>(fixed: seq<T>, a: Option<T>, b: Option<T>, c: Option<T>, x: T)
    ensures x in fixed + AsSeq(a) + AsSeq(b) + AsSeq(c) <==> x in fixed || a == Some(x) || b == Some(x) || c == Some(x)
  {
  }

  const Home: Link := Link("Home", "/")
  const Profile: Link := Link("Profile", "/profile")
  const Dashboard: Link := Link("Dashboard", "/dashboard")

  /** `navLinks` of the navigation bar. */
  function NavbarLinks(isAuthenticated: bool, userRole: Option<string>): (links: seq<Link>)
    ensures |links| >= 4 && links[..4] == [Home, Link("Shop", "/product"), Link("Blog", "/blog"), Link("About", "/about")]
    ensures Link("Auth", "/auth") in links <==> !isAuthenticated
    ensures Profile in links <==> isAuthenticated
    ensures Dashboard in links <==> isAuthenticated && userRole == Some("admin")
    ensures |links| == if !isAuthenticated then 5 else if userRole == Some("admin") then 6 else 5
  {
    var fixed := [Home, Link("Shop", "/product"), Link("Blog", "/blog"), Link("About", "/about")];
    var a, b, c := When(!isAuthenticated, Link("Auth", "/auth")), When(isAuthenticated, Profile), When(isAuthenticated && userRole == Some("admin"), Dashboard);
    EntriesHave(fixed, a, b, c, Link("Auth", "/auth"));
    EntriesHave(fixed, a, b, c, Profile);
    EntriesHave(fixed, a, b, c, Dashboard);
    Entries(fixed, a, b, c)
  }

  /** `navLinks` of the footer. */
  function FooterLinks(isAuthenticated: bool, userRole: Option<string>): (links: seq<Link>)
    ensures |links| >= 3 && links[..3] == [Home, Link("Shop", "/shop"), Link("About Us", "/about")]
    ensures Link("Login / Register", "/auth") in links <==> !isAuthenticated
    ensures Profile in links <==> isAuthenticated
    ensures Dashboard in links <==> isAuthenticated && userRole == Some("admin")
    ensures |links| == if isAuthenticated && userRole == Some("admin") then 5 else 4
  {
    var fixed := [Home, Link("Shop", "/shop"), Link("About Us", "/about")];
    var a, b, c := When(!isAuthenticated, Link("Login / Register", "/auth")), When(isAuthenticated, Profile), When(isAuthenticated && userRole == Some("admin"), Dashboard);
    EntriesHave(fixed, a, b, c, Link("Login / Register", "/auth"));
    EntriesHave(fixed, a, b, c, Profile);
    EntriesHave(fixed, a, b, c, Dashboard);
    Entries(fixed, a, b, c)
  }

  /** The sign-in link and the profile link never appear together, and
      exactly one of them is always there. */
  lemma AuthXorProfile(isAuthenticated: bool, userRole: Option<string>)
    ensures (Link("Auth", "/auth") in NavbarLinks(isAuthenticated, userRole)) != (Profile in NavbarLinks(isAuthenticated, userRole))
    ensures (Link("Login / Register", "/auth") in FooterLinks(isAuthenticated, userRole)) != (Profile in FooterLinks(isAuthenticated, userRole))
  {
  }

  /** The navigation bar's own state. */
  datatype NavbarState = NavbarState(isMenuOpen: bool, activeLink: string)

  /** `handleLinkClick(path)`: marks the link active and closes the mobile
      menu. */
  function HandleLinkClick(s: NavbarState, path: string): (r: NavbarState)
    ensures r.activeLink == path && !r.isMenuOpen
  {
    s.(activeLink := path, isMenuOpen := false)
  }

  /** Clicking a link twice is clicking it once. */
  lemma HandleLinkClickIdempotent(s: NavbarState, path: string)
    ensures HandleLinkClick(HandleLinkClick(s, path), path) == HandleLinkClick(s, path)
  {
  }
}

=== FILE: otp.dfy ===
/** `generateOTP(length)`: a string of `length` decimal digits, one
    `Math.floor(Math.random() * 10)` per position. */
module Otp {
  import opened Strings

  /** A value `Math.random()` can return. */
  type Unit = r: real | 0.0 <= r < 1.0

  /** `Math.floor(r * 10)` for one random draw: a digit 0..9. */
  function DrawDigit(r: Unit): (d: int)
    ensures 0 <= d <= 9
    ensures d as real <= 10.0 * r < d as real + 1.0
  {
    (10.0 * r).Floor
  }

  /** The reference definition: position `i` holds the digit of the `i`-th
      draw, and a non-positive length gives the empty string. */
  function OtpOf(length: int, draw: nat -> Unit): (s: string)
    ensures length <= 0 ==> s == ""
    ensures length > 0 ==> |s| == length
    ensures forall i :: 0 <= i < |s| ==> IsDigit(s[i]) && s[i] == DigitChar(DrawDigit(draw(i)))
  {
    if length <= 0 then ""
    else
      var s := seq(length, (i: nat) requires i < length => DigitChar(DrawDigit(draw(i))));
      assert forall i: nat :: i < |s| ==> s[i] == DigitChar(DrawDigit(draw(i)));
      s
  }

  /** The loop of `generateOTP`, appending one digit per iteration; `draw(i)`
      is what the `i`-th call of `Math.random()` returns. */
  method GenerateOtp(length: int, draw: nat -> Unit) returns (result: string)
    ensures result == OtpOf(length, draw)
  {
    if length <= 0 {
      return "";
    }
    result := "";
    var i := 0;
    while i < length
      invariant 0 <= i <= length
      invariant |result| == i
      invariant forall j :: 0 <= j < i ==> result[j] == DigitChar(DrawDigit(draw(j)))
    {
      result := result + [DigitChar(DrawDigit(draw(i)))];
      i := i + 1;
    }
  }

  /** The code the server mails is always six digits long. */
  lemma SixDigitCode(draw: nat -> Unit)
    ensures |OtpOf(6, draw)| == 6
    ensures forall i :: 0 <= i < 6 ==> IsDigit(OtpOf(6, draw)[i])
  {
  }
}

=== FILE: paths.dfy ===
/** POSIX paths as Node's `path` module sees them, simplified to a sequence of
    segments: `path.join` is concatenation, `path.basename` the last segment
    and `path.extname` the extension of the last segment. */
module Paths {

  type Segment = string
  type Path = seq<Segment>

  /** `path.join(dir, ...rest)`. */
  function Join(dir: Path, rest: Path): Path {
    dir + rest
  }

  /** `path.basename(p)`. */
  function Basename(p: Path): Segment {
    if |p| == 0 then "" else p[|p| - 1]
  }

  /** Index of the last `c` in `s`, or -1. */
  function LastIndexOf(s: string, c: char): (i: int)
    ensures -1 <= i < |s|
    ensures i >= 0 ==> s[i] == c
    ensures forall j :: i < j < |s| ==> s[j] != c
  {
    if |s| == 0 then -1
    else if s[|s| - 1] == c then |s| - 1
    else LastIndexOf(s[..|s| - 1], c)
  }

  /** `path.extname` of a single file name: from the last '.' to the end,
      except that a name with no dot, a name whose only leading part is the
      dot itself (".bashrc") and ".." have no extension. */
  function ExtOf(name: Segment): (e: string)
    ensures e != "" ==> |e| < |name| && e == name[|name| - |e|..] && e[0] == '.'
    ensures forall j :: 1 <= j < |e| ==> e[j] != '.'
    ensures e != "" <==> LastIndexOf(name, '.') > 0 && name != ".."
    ensures e != "" ==> e == name[LastIndexOf(name, '.')..]
  {
    var d := LastIndexOf(name, '.');
    if d <= 0 || name == ".." then "" else name[d..]
  }

  /** `path.extname(p)`. */
  function Extname(p: Path): string {
    ExtOf(Basename(p))
  }

  lemma LastIndexOfAppend(a: string, b: string, c: char)
    requires c !in b
    ensures LastIndexOf(a + b, c) == LastIndexOf(a, c)
    decreases |b|
  {
    if |b| > 0 {
      assert (a + b)[..|a + b| - 1] == a + b[..|b| - 1];
      LastIndexOfAppend(a, b[..|b| - 1], c);
    } else {
      assert a + b == a;
    }
  }

  /** A name made of a dot-free non-empty stem followed by another name's
      extension has exactly that extension. */
  lemma ExtOfStemAndExt(stem: string, name: Segment)
    requires stem != "" && '.' !in stem
    ensures ExtOf(stem + ExtOf(name)) == ExtOf(name)
  {
    var e := ExtOf(name);
    if e == "" {
      assert stem + e == stem;
      assert LastIndexOf(stem, '.') == -1;
    } else {
      ExtOfStemAndDotted(stem, e);
    }
  }

  lemma ExtOfStemAndDotted(stem: string, e: string)
    requires stem != "" && '.' !in stem
    requires |e| > 0 && e[0] == '.' && forall j :: 1 <= j < |e| ==> e[j] != '.'
    ensures ExtOf(stem + e) == e
  {
    var w := stem + e;
    assert '.' !in e[1..] by {
      forall j | 0 <= j < |e[1..]| ensures e[1..][j] != '.' {
        assert e[1..][j] == e[j + 1];
      }
    }
    LastIndexOfAppend(stem + [e[0]], e[1..], '.');
    assert w == stem + [e[0]] + e[1..];
    assert LastIndexOf(stem + [e[0]], '.') == |stem|;
    assert w[|stem|..] == e;
    assert w != ".." by {
      assert w[0] == stem[0] && stem[0] != '.';
    }
  }
}

=== FILE: posix.dfy ===
/** The part of Node's `fs` module the server uses, over an abstract file tree:
    a map from path to node in which every non-root entry sits in a directory.
    Each call either returns the new tree or fails with an errno-like code and
    changes nothing. */
module Posix {
  import opened Wrappers
  import opened Paths

  /** A file carries an opaque content token. */
  datatype Node = File(data: string) | Dir

  type Fs = map<Path, Node>

  datatype FsError = ENOENT | ENOTDIR | EISDIR | EEXIST

  function Parent(p: Path): Path
    requires |p| > 0
  {
    p[..|p| - 1]
  }

  predicate IsDirAt(fs: Fs, p: Path) {
    p in fs && fs[p].Dir?
  }

  predicate IsFileAt(fs: Fs, p: Path) {
    p in fs && fs[p].File?
  }

  /** Every entry other than the root lives in a directory. */
  predicate WellFormed(fs: Fs) {
    forall p :: p in fs && |p| > 0 ==> IsDirAt(fs, Parent(p))
  }

  /** The error creating an entry at `p` meets because of its parent, if any. */
  function ParentError(fs: Fs, p: Path): (e: Option<FsError>)
    ensures e.None? <==> |p| > 0 && IsDirAt(fs, Parent(p))
  {
    if |p| == 0 || Parent(p) !in fs then Some(ENOENT)
    else if fs[Parent(p)].File? then Some(ENOTDIR)
    else None
  }

  /** `fs.access` / `fs.stat`. */
  function Stat(fs: Fs, p: Path): (r: Result<Node, FsError>)
    ensures r.Ok? <==> p in fs
    ensures r.Ok? ==> r.value == fs[p]
  {
    if p in fs then Ok(fs[p]) else Err(ENOENT)
  }

  // ------------------------------------------------------------ mkdir -p

  function Prefixes(p: Path): set<Path> {
    set k | 0 <= k <= |p| :: p[..k]
  }

  predicate HasFilePrefix(fs: Fs, p: Path) {
    exists k :: 0 <= k <= |p| && IsFileAt(fs, p[..k])
  }

  /** `fs.mkdir(p, { recursive: true })`: creates every missing ancestor and
      `p` itself; fails when some prefix of `p` is a file. */
  function MkdirP(fs: Fs, p: Path): (r: Result<Fs, FsError>)
    ensures r.Err? <==> HasFilePrefix(fs, p)
    ensures r.Ok? ==> forall k :: 0 <= k <= |p| ==> IsDirAt(r.value, p[..k])
    ensures r.Ok? ==> IsDirAt(r.value, p)
    ensures r.Ok? ==> forall q :: q in fs ==> q in r.value && r.value[q] == fs[q]
    ensures r.Ok? ==> forall q :: q in r.value && q !in fs ==> q <= p && r.value[q] == Dir
  {
    if HasFilePrefix(fs, p) then Err(if IsFileAt(fs, p) then EEXIST else ENOTDIR)
    else
      var r := map q | q in fs.Keys + Prefixes(p) :: if q in fs then fs[q] else Dir;
      assert forall k :: 0 <= k <= |p| ==> p[..k] in Prefixes(p);
      assert forall q :: q in Prefixes(p) ==> q <= p;
      assert p[..|p|] == p;
      Ok(r)
  }

  lemma MkdirPreservesWellFormed(fs: Fs, p: Path)
    requires WellFormed(fs)
    requires MkdirP(fs, p).Ok?
    ensures WellFormed(MkdirP(fs, p).value)
  {
    var r := MkdirP(fs, p).value;
    forall q | q in r && |q| > 0
      ensures IsDirAt(r, Parent(q))
    {
      if q !in fs {
        assert q <= p;
        assert q == p[..|q|];
        assert Parent(q) == p[..|q| - 1];
      }
    }
  }

  // ------------------------------------------------------------ rename

  /** `dst` now holds what `src` held, `src` is gone and nothing else moved. */
  ghost predicate MovedFile(before: Fs, after: Fs, src: Path, dst: Path)
    requires src in before
  {
    && dst in after && after[dst] == before[src]
    && (src != dst ==> src !in after)
    && forall q :: q != src && q != dst ==>
         (q in after <==> q in before) && (q in before ==> after[q] == before[q])
  }

  predicate RenameAllowed(fs: Fs, src: Path, dst: Path) {
    IsFileAt(fs, src) && (src == dst || (!IsDirAt(fs, dst) && ParentError(fs, dst).None?))
  }

  /** `fs.rename(src, dst)` of a file: replaces a file at `dst`, refuses a
      directory at `dst` and a missing or non-directory parent. */
  function Rename(fs: Fs, src: Path, dst: Path): (r: Result<Fs, FsError>)
    ensures r.Ok? <==> RenameAllowed(fs, src, dst)
    ensures r.Ok? ==> MovedFile(fs, r.value, src, dst)
  {
    if src !in fs then Err(ENOENT)
    else if fs[src].Dir? then Err(EISDIR)
    else if src == dst then Ok(fs)
    else if dst in fs && fs[dst].Dir? then Err(EISDIR)
    else match ParentError(fs, dst)
      case Some(e) => Err(e)
      case None => Ok((fs - {src})[dst := fs[src]])
  }

  lemma RenamePreservesWellFormed(fs: Fs, src: Path, dst: Path)
    requires WellFormed(fs)
    requires Rename(fs, src, dst).Ok?
    ensures WellFormed(Rename(fs, src, dst).value)
  {
    var r := Rename(fs, src, dst).value;
    forall q | q in r && |q| > 0
      ensures IsDirAt(r, Parent(q))
    {
      if q != dst {
        assert Parent(q) != src;
      }
    }
  }

  // ------------------------------------------------------------ unlink / rm

  /** `fs.unlink(p)`: removes a file. */
  function Unlink(fs: Fs, p: Path): (r: Result<Fs, FsError>)
    ensures r.Ok? <==> IsFileAt(fs, p)
    ensures r.Ok? ==> r.value.Keys == fs.Keys - {p}
    ensures r.Ok? ==> forall q :: q in r.value ==> r.value[q] == fs[q]
  {
    if p !in fs then Err(ENOENT)
    else if fs[p].Dir? then Err(EISDIR)
    else Ok(fs - {p})
  }

  lemma UnlinkPreservesWellFormed(fs: Fs, p: Path)
    requires WellFormed(fs)
    requires Unlink(fs, p).Ok?
    ensures WellFormed(Unlink(fs, p).value)
  {
  }

  /** Some proper prefix of `p` is a file, so looking `p` up fails with
      `ENOTDIR` rather than `ENOENT`. */
  predicate UnderFile(fs: Fs, p: Path) {
    exists k :: 0 <= k < |p| && IsFileAt(fs, p[..k])
  }

  /** In a well-formed tree every proper prefix of an entry is a directory. */
  lemma {:induction false} EntryNotUnderFile(fs: Fs, p: Path)
    requires WellFormed(fs)
    requires p in fs
    ensures !UnderFile(fs, p)
    decreases |p|
  {
    if |p| > 0 {
      var q := Parent(p);
      EntryNotUnderFile(fs, q);
      forall k | 0 <= k < |p|
        ensures !IsFileAt(fs, p[..k])
      {
        if k < |q| {
          assert p[..k] == q[..k];
        } else {
          assert p[..k] == q;
        }
      }
    }
  }

  /** `fs.rm(p, { recursive: true, force })`: removes `p` and everything below
      it. A missing `p` is an error unless `force` is set; a path that runs
      through a file fails with `ENOTDIR` even with `force`, which only
      silences `ENOENT`. */
  function RmRecursive(fs: Fs, p: Path, force: bool): (r: Result<Fs, FsError>)
    ensures r.Err? <==> UnderFile(fs, p) || (p !in fs && !force)
    ensures UnderFile(fs, p) ==> r == Err(ENOTDIR)
    ensures !UnderFile(fs, p) && p !in fs && !force ==> r == Err(ENOENT)
    ensures r.Ok? ==> forall q :: q in r.value <==> q in fs && !(p <= q)
    ensures r.Ok? ==> forall q :: q in r.value ==> r.value[q] == fs[q]
  {
    if UnderFile(fs, p) then Err(ENOTDIR)
    else if p !in fs && !force then Err(ENOENT)
    else Ok(map q | q in fs && !(p <= q) :: fs[q])
  }

  lemma RmPreservesWellFormed(fs: Fs, p: Path, force: bool)
    requires WellFormed(fs)
    requires RmRecursive(fs, p, force).Ok?
    ensures WellFormed(RmRecursive(fs, p, force).value)
  {
  }

  // ------------------------------------------------------------ copyFile

  predicate CopyAllowed(fs: Fs, src: Path, dst: Path) {
    IsFileAt(fs, src) && !IsDirAt(fs, dst) && ParentError(fs, dst).None?
  }

  /** `fs.copyFile(src, dst)`: `dst` gets the content of `src`, replacing a
      file already there. */
  function CopyFile(fs: Fs, src: Path, dst: Path): (r: Result<Fs, FsError>)
    ensures r.Ok? <==> CopyAllowed(fs, src, dst)
    ensures r.Ok? ==> r.value.Keys == fs.Keys + {dst} && r.value[dst] == fs[src]
    ensures r.Ok? ==> forall q :: q in fs && q != dst ==> r.value[q] == fs[q]
  {
    if src !in fs then Err(ENOENT)
    else if fs[src].Dir? then Err(EISDIR)
    else if dst in fs && fs[dst].Dir? then Err(EISDIR)
    else match ParentError(fs, dst)
      case Some(e) => Err(e)
      case None => Ok(fs[dst := fs[src]])
  }

  lemma CopyPreservesWellFormed(fs: Fs, src: Path, dst: Path)
    requires WellFormed(fs)
    requires CopyFile(fs, src, dst).Ok?
    ensures WellFormed(CopyFile(fs, src, dst).value)
  {
  }
}

=== FILE: product_controller.dfy ===
/** The `create`, `read` and `delete` handlers of the product controller.
    `create` validates the request, creates `uploads/products/<title>`, moves
    each uploaded file into it one after another and saves a record of bare
    file names; any exception becomes a 500 reply. */
module ProductController {
  import opened Wrappers
  import opened Seqs
  import opened Paths
  import opened Documents
  import Posix
  import ProductModel

  /** `path.join(__dirname, "..", "uploads", "products")` for
      `src/controllers`. */
  const ProductsDir: Path := ["src", "uploads", "products"]

  function ProductFolder(title: Segment): Path {
    Join(ProductsDir, [title])
  }

  const RequiredMessage: string := "Title, Image and Price are required"
  const CreateErrorMessage: string := "internal server error."
  const ServerErrorMessage: string := "Internal server error."
  const NotFoundMessage: string := "Product not found."

  /** The collections and the upload tree together. */
  datatype Db = Db(fs: Posix.Fs, categories: seq<CategoryDoc>, products: seq<ProductDoc>)

  // ------------------------------------------------------------ moving uploads

  /** Where one sequential rename loop got to: the tree after the last
      successful rename, and whether every rename succeeded. */
  datatype Moved = Moved(fs: Posix.Fs, ok: bool)

  /** `await fs.rename(from/<n>, from/<title>/<n>)` for each name in turn; the
      first failure stops the loop, leaving the earlier moves done. */
  function MoveAll(fs: Posix.Fs, from: Path, title: Segment, names: seq<Segment>): (r: Moved)
    decreases |names|
  {
    if |names| == 0 then Moved(fs, true)
    else match Posix.Rename(fs, from + [names[0]], from + [title, names[0]])
      case Err(_) => Moved(fs, false)
      case Ok(fs') => MoveAll(fs', from, title, names[1..])
  }

  /** What every rename of the loop needs: distinct names, each a file in
      `from`, none blocked by a directory of the same name in the target. */
  predicate MovePlanOk(fs: Posix.Fs, from: Path, title: Segment, names: seq<Segment>) {
    && Distinct(names)
    && forall i :: 0 <= i < |names| ==>
         Posix.IsFileAt(fs, from + [names[i]]) && !Posix.IsDirAt(fs, from + [title, names[i]])
  }

  /** With the target folder in place, the loop completes exactly when the
      plan is sound. */
  lemma {:induction false} MoveAllOkIff(fs: Posix.Fs, from: Path, title: Segment, names: seq<Segment>)
    requires Posix.IsDirAt(fs, from + [title])
    ensures MoveAll(fs, from, title, names).ok <==> MovePlanOk(fs, from, title, names)
    decreases |names|
  {
    if |names| > 0 {
      var n0 := names[0];
      var src := from + [n0];
      var dst := from + [title, n0];
      var rest := names[1..];
      assert Posix.Parent(dst) == from + [title];
      assert src != dst by { assert |src| != |dst|; }
      match Posix.Rename(fs, src, dst)
      case Err(_) =>
      case Ok(fs1) => {
        assert Posix.MovedFile(fs, fs1, src, dst);
        assert Posix.IsDirAt(fs1, from + [title]) by {
          assert from + [title] != src;
          assert from + [title] != dst by { assert |from + [title]| != |dst|; }
        }
        MoveAllOkIff(fs1, from, title, rest);
        forall n: Segment
          ensures Posix.IsFileAt(fs1, from + [n]) <==> n != n0 && Posix.IsFileAt(fs, from + [n])
          ensures Posix.IsDirAt(fs1, from + [title, n]) <==> n != n0 && Posix.IsDirAt(fs, from + [title, n])
        {
          assert from + [n] != dst by { assert |from + [n]| != |dst|; }
          assert from + [title, n] != src by { assert |from + [title, n]| != |src|; }
          if n != n0 {
            assert from + [n] != src by { assert (from + [n])[|from|] != src[|from|]; }
            assert from + [title, n] != dst by { assert (from + [title, n])[|from| + 1] != dst[|from| + 1]; }
          }
        }
        assert forall i :: 0 <= i < |rest| ==> rest[i] == names[i + 1];
        if MovePlanOk(fs, from, title, names) {
          assert forall i :: 0 <= i < |rest| ==> rest[i] != n0;
          assert MovePlanOk(fs1, from, title, rest);
        }
        if MovePlanOk(fs1, from, title, rest) {
          assert forall i :: 0 <= i < |rest| ==> rest[i] != n0 by {
            forall i | 0 <= i < |rest| ensures rest[i] != n0 {
              assert Posix.IsFileAt(fs1, from + [rest[i]]);
            }
          }
          assert Distinct(names) by {
            forall i, j | 0 <= i < j < |names| ensures names[i] != names[j] {
              if i > 0 {
                assert names[i] == rest[i - 1] && names[j] == rest[j - 1];
              } else {
                assert names[j] == rest[j - 1];
              }
            }
          }
          forall i | 0 <= i < |names|
            ensures Posix.IsFileAt(fs, from + [names[i]]) && !Posix.IsDirAt(fs, from + [title, names[i]])
          {
            if i > 0 {
              assert names[i] == rest[i - 1];
            }
          }
        }
      }
    }
  }

  /** Paths the loop never names are left exactly as they were, whether or
      not it completes. */
  lemma {:induction false} MoveAllFrame(fs: Posix.Fs, from: Path, title: Segment, names: seq<Segment>, q: Path)
    requires forall i :: 0 <= i < |names| ==> q != from + [names[i]] && q != from + [title, names[i]]
    ensures var r := MoveAll(fs, from, title, names);
      (q in r.fs <==> q in fs) && (q in fs ==> r.fs[q] == fs[q])
    decreases |names|
  {
    if |names| > 0 {
      match Posix.Rename(fs, from + [names[0]], from + [title, names[0]])
      case Err(_) =>
      case Ok(fs1) =>
        assert Posix.MovedFile(fs, fs1, from + [names[0]], from + [title, names[0]]);
        MoveAllFrame(fs1, from, title, names[1..], q);
    }
  }

  /** After a completed loop every file sits in the target folder with its
      content and is gone from where it was uploaded. */
  lemma {:induction false} MoveAllPlacesEveryFile(fs: Posix.Fs, from: Path, title: Segment, names: seq<Segment>)
    requires Posix.IsDirAt(fs, from + [title])
    requires MoveAll(fs, from, title, names).ok
    ensures var r := MoveAll(fs, from, title, names);
      forall i :: 0 <= i < |names| ==>
        && from + [names[i]] in fs
        && from + [title, names[i]] in r.fs
        && r.fs[from + [title, names[i]]] == fs[from + [names[i]]]
        && from + [names[i]] !in r.fs
    decreases |names|
  {
    var r := MoveAll(fs, from, title, names);
    if |names| > 0 {
      MoveAllOkIff(fs, from, title, names);
      var n0 := names[0];
      var src := from + [n0];
      var dst := from + [title, n0];
      var rest := names[1..];
      assert Posix.Parent(dst) == from + [title];
      assert src != dst by { assert |src| != |dst|; }
      var fs1 := Posix.Rename(fs, src, dst).value;
      assert Posix.MovedFile(fs, fs1, src, dst);
      assert Posix.IsDirAt(fs1, from + [title]) by {
        assert from + [title] != src;
        assert from + [title] != dst by { assert |from + [title]| != |dst|; }
      }
      assert r == MoveAll(fs1, from, title, rest);
      MoveAllPlacesEveryFile(fs1, from, title, rest);
      assert forall i :: 0 <= i < |rest| ==> rest[i] == names[i + 1] && rest[i] != n0;
      forall i | 0 <= i < |rest| ensures dst != from + [rest[i]] && dst != from + [title, rest[i]] {
        assert |dst| != |from + [rest[i]]|;
        assert dst[|from| + 1] != (from + [title, rest[i]])[|from| + 1];
      }
      MoveAllFrame(fs1, from, title, rest, dst);
      forall i | 0 <= i < |rest| ensures src != from + [rest[i]] && src != from + [title, rest[i]] {
        assert src[|from|] != (from + [rest[i]])[|from|];
        assert |src| != |from + [title, rest[i]]|;
      }
      MoveAllFrame(fs1, from, title, rest, src);
      forall i | 1 <= i < |names|
        ensures from + [names[i]] in fs && fs1[from + [names[i]]] == fs[from + [names[i]]]
      {
        assert names[i] == rest[i - 1];
        assert from + [names[i]] != src by { assert (from + [names[i]])[|from|] != src[|from|]; }
        assert from + [names[i]] != dst by { assert |from + [names[i]]| != |dst|; }
      }
    }
  }

  // ------------------------------------------------------------ create

  /** `fs.mkdir(productFolder, { recursive: true })` followed by the rename
      loop: `Ok` with the final tree, or `Err` with the tree as far as the
      handler got before the exception. */
  function MoveUploads(fs: Posix.Fs, title: Segment, names: seq<Segment>): (r: Result<Posix.Fs, Posix.Fs>)
    ensures r.Ok? ==> forall n :: n in names ==>
      ProductFolder(title) + [n] in r.value && ProductsDir + [n] !in r.value
    ensures !Distinct(names) ==> r.Err?
  {
    match Posix.MkdirP(fs, ProductFolder(title))
    case Err(_) => Err(fs)
    case Ok(fs1) =>
      var m := MoveAll(fs1, ProductsDir, title, names);
      MoveAllInFolder(fs1, title, names);
      if m.ok then Ok(m.fs) else Err(m.fs)
  }

  lemma MoveAllInFolder(fs: Posix.Fs, title: Segment, names: seq<Segment>)
    requires Posix.IsDirAt(fs, ProductFolder(title))
    ensures var m := MoveAll(fs, ProductsDir, title, names);
      (m.ok ==> forall n :: n in names ==> ProductFolder(title) + [n] in m.fs && ProductsDir + [n] !in m.fs)
      && (!Distinct(names) ==> !m.ok)
  {
    var m := MoveAll(fs, ProductsDir, title, names);
    assert ProductFolder(title) == ProductsDir + [title];
    MoveAllOkIff(fs, ProductsDir, title, names);
    if m.ok {
      MoveAllPlacesEveryFile(fs, ProductsDir, title, names);
      forall n | n in names
        ensures ProductFolder(title) + [n] in m.fs && ProductsDir + [n] !in m.fs
      {
        var i :| 0 <= i < |names| && names[i] == n;
        assert ProductFolder(title) + [n] == ProductsDir + [title, n];
      }
    }
  }

  /** The multipart fields and the multer file lists of a create request;
      `image` and `gallery` are absent when no such file part was sent. */
  datatype CreateRequest = CreateRequest(
    title: string, description: string, price: string, stock: Option<string>,
    categoryId: Option<Id>, image: Option<seq<Segment>>, gallery: Option<seq<Segment>>)

  datatype CreateOutcome = CreateOutcome(db: Db, status: nat, message: string, product: Option<ProductDoc>)

  /** `req.files.gallery?.map(f => f.filename) || []`. */
  function GalleryNames(gallery: Option<seq<Segment>>): (names: seq<Segment>)
    ensures gallery.None? ==> names == []
    ensures gallery.Some? ==> names == gallery.value
  {
    gallery.GetOr([])
  }

  predicate MissingRequired(req: CreateRequest) {
    req.title == "" || req.image.None? || req.price == ""
  }

  /** `productId` is the ObjectId the new record receives and `otherId` the
      one a "سایر" category created by the save hook would receive. */
  /** The `categoryId` the new document carries before the pre-save hook:
      the cast of the one sent, or none. */
  function SentCategory(req: CreateRequest): (c: Option<Id>)
    ensures c.Some? <==> req.categoryId.Some?
    ensures c.Some? ==> SameId(c.value, req.categoryId.value)
  {
    if req.categoryId.Some? then Some(CastId(req.categoryId.value)) else None
  }

  function Create(db: Db, req: CreateRequest, productId: Id, otherId: Id): (r: CreateOutcome)
    ensures MissingRequired(req) <==> r.status == 400
    ensures r.status == 400 ==> r == CreateOutcome(db, 400, RequiredMessage, None)
    ensures r.status == 200 || r.status == 400 || r.status == 500
    ensures r.status == 500 ==> r.message == CreateErrorMessage
    ensures !MissingRequired(req) && req.categoryId.Some? && !IsObjectId(req.categoryId.value) ==> r.status == 500
    ensures r.status != 200 ==> r.product.None? && r.db.categories == db.categories && r.db.products == db.products
    ensures r.status == 200 ==> r.product.Some? && r.message == "Product created successfully"
    ensures r.status == 200 ==> var p := r.product.value;
      && p.id == productId && p.title == req.title && p.description == req.description
      && p.price == req.price && |req.image.value| > 0 && p.image == req.image.value[0]
      && p.gallery == GalleryNames(req.gallery)
      && (req.categoryId.Some? ==> p.categoryId == Some(CastId(req.categoryId.value)))
      && (req.categoryId.Some? ==> IsObjectId(req.categoryId.value))
      && p.categoryId.Some?
      && (req.categoryId.Some? ==> r.db.categories == db.categories)
      && (req.categoryId.None? ==>
            exists c :: c in r.db.categories && ProductModel.IsOther(c) && p.categoryId == Some(c.id))
      && ProductModel.PreSave(db.categories, p.(categoryId := SentCategory(req)), otherId)
           == ProductModel.Saved(r.db.categories, p)
      && r.db.products == db.products + [p]
      && MoveUploads(db.fs, req.title, [p.image] + p.gallery) == Ok(r.db.fs)
  {
    if MissingRequired(req) then CreateOutcome(db, 400, RequiredMessage, None)
    else if |req.image.value| == 0 then CreateOutcome(db, 500, CreateErrorMessage, None)
    else
      var image := req.image.value[0];
      var gallery := GalleryNames(req.gallery);
      match MoveUploads(db.fs, req.title, [image] + gallery)
      case Err(partial) => CreateOutcome(db.(fs := partial), 500, CreateErrorMessage, None)
      case Ok(fs') =>
        var doc := ProductDoc(productId, req.title, image, req.description, gallery, req.price, SentCategory(req));
        if !ProductValid(doc) then CreateOutcome(db.(fs := fs'), 500, CreateErrorMessage, None)
        else
          var saved := ProductModel.PreSave(db.categories, doc, otherId);
          CreateOutcome(Db(fs', saved.categories, db.products + [saved.product]),
                        200, "Product created successfully", Some(saved.product))
  }

  /** A created product's image and gallery files all sit in
      `uploads/products/<title>` under their uploaded names, and none is left
      in `uploads/products`. */
  lemma CreateMovesEveryUpload(db: Db, req: CreateRequest, productId: Id, otherId: Id)
    requires Create(db, req, productId, otherId).status == 200
    ensures var r := Create(db, req, productId, otherId);
      var p := r.product.value;
      forall n :: n in [p.image] + p.gallery ==>
        ProductFolder(req.title) + [n] in r.db.fs && ProductsDir + [n] !in r.db.fs
  {
  }

  /** Uploading the same file name twice (as image and gallery item, or twice
      in the gallery) never yields a saved product: the second rename finds
      its source gone. */
  lemma CreateRejectsRepeatedNames(db: Db, req: CreateRequest, productId: Id, otherId: Id)
    requires !MissingRequired(req) && |req.image.value| > 0
    requires !Distinct([req.image.value[0]] + GalleryNames(req.gallery))
    ensures Create(db, req, productId, otherId).status == 500
    ensures Create(db, req, productId, otherId).product.None?
  {
  }

  // ------------------------------------------------------------ read

  datatype ReadOutcome = ReadOutcome(status: nat, message: string, product: Option<ProductDoc>, related: seq<ProductDoc>)

  function SameCategory(p: ProductDoc): ProductDoc -> bool {
    (q: ProductDoc) => q.categoryId == p.categoryId
  }

  /** `read` as written: an id that is no ObjectId makes `findById` throw,
      and `product.categoryId` is read before the null check, so a missing
      product throws too; both replies are 500. */
  function ReadAsWritten(ps: seq<ProductDoc>, id: Id): (r: ReadOutcome)
    ensures !IsObjectId(id) || FindProduct(ps, id).None? ==> r == ReadOutcome(500, ServerErrorMessage, None, [])
    ensures IsObjectId(id) && FindProduct(ps, id).Some? ==> r.status == 200 && r.product == FindProduct(ps, id)
    ensures r.status == 200 ==> r.product.value in r.related
    ensures forall q :: q in r.related <==> r.product.Some? && q in ps && q.categoryId == r.product.value.categoryId
  {
    if !IsObjectId(id) then ReadOutcome(500, ServerErrorMessage, None, [])
    else match FindProduct(ps, id)
    case None => ReadOutcome(500, ServerErrorMessage, None, [])
    case Some(p) =>
      var related := Filter(ps, SameCategory(p));
      FilterMembership(ps, SameCategory(p), p);
      assert forall q :: q in related <==> q in ps && q.categoryId == p.categoryId by {
        forall q ensures q in related <==> q in ps && q.categoryId == p.categoryId {
          FilterMembership(ps, SameCategory(p), q);
        }
      }
      ReadOutcome(200, "", Some(p), related)
  }

  /** The "Product not found." reply of `read` is unreachable. */
  lemma ReadNotFoundUnreachable(ps: seq<ProductDoc>, id: Id)
    ensures ReadAsWritten(ps, id).status != 400
    ensures ReadAsWritten([], id).status == 500
  {
  }

  /** `read` with the null check moved before the related-products query. */
  function Read(ps: seq<ProductDoc>, id: Id): (r: ReadOutcome)
    ensures r.status == 500 <==> !IsObjectId(id)
    ensures r.status == 500 ==> r == ReadOutcome(500, ServerErrorMessage, None, [])
    ensures r.status == 400 <==> IsObjectId(id) && forall i :: 0 <= i < |ps| ==> !SameId(ps[i].id, id)
    ensures r.status == 400 ==> r.message == NotFoundMessage && r.product.None?
    ensures r.status == 200 ==> r.product.Some? && r.product.value in ps && SameId(r.product.value.id, id)
    ensures r.status == 400 || r.status == 200 || r.status == 500
  {
    if !IsObjectId(id) then ReadOutcome(500, ServerErrorMessage, None, [])
    else if FindProduct(ps, id).None? then ReadOutcome(400, NotFoundMessage, None, [])
    else ReadAsWritten(ps, id)
  }

  /** Any spelling of an id, upper-case hex digits included, reads the same
      product. */
  lemma ReadIgnoresIdCase(ps: seq<ProductDoc>, a: Id, b: Id)
    requires SameId(a, b)
    ensures Read(ps, a) == Read(ps, b)
  {
    FindProductSameId(ps, a, b);
    SameIdKeepsObjectId(a, b);
  }

  /** The corrected handler differs from the one as written only on a
      missing product. */
  lemma ReadAgreesWhenFound(ps: seq<ProductDoc>, id: Id)
    requires FindProduct(ps, id).Some?
    ensures Read(ps, id) == ReadAsWritten(ps, id)
  {
  }

  // ------------------------------------------------------------ delete

  datatype DeleteOutcome = DeleteOutcome(products: seq<ProductDoc>, status: nat, message: string, id: Option<Id>)

  /** `delete`: an id that is no ObjectId makes `findById` throw, and the
      reply is 500 with nothing removed. */
  function Delete(ps: seq<ProductDoc>, id: Id): (r: DeleteOutcome)
    ensures !IsObjectId(id) ==> r == DeleteOutcome(ps, 500, ServerErrorMessage, None)
    ensures IsObjectId(id) && FindProduct(ps, id).None? ==> r == DeleteOutcome(ps, 404, NotFoundMessage, None)
    ensures IsObjectId(id) && FindProduct(ps, id).Some? ==>
      r.status == 200 && r.message == "Product deleted successfully." && r.id == Some(id)
    ensures IsObjectId(id) ==> forall i :: 0 <= i < |r.products| ==> !SameId(r.products[i].id, id)
    ensures forall p :: p in ps && !SameId(p.id, id) ==> p in r.products
    ensures IsSubseq(r.products, ps)
  {
    if !IsObjectId(id) then
      FilterKeepsAll(ps, (p: ProductDoc) => true);
      DeleteOutcome(ps, 500, ServerErrorMessage, None)
    else if FindProduct(ps, id).None? then
      FilterKeepsAll(ps, HasOtherId(id));
      DeleteOutcome(ps, 404, NotFoundMessage, None)
    else DeleteOutcome(DeleteProduct(ps, id), 200, "Product deleted successfully.", Some(id))
  }

  /** In a collection whose ids are all ObjectIds, as MongoDB assigns them,
      no record with the id is left after a delete, whatever the id. */
  lemma DeleteLeavesNoMatch(ps: seq<ProductDoc>, id: Id)
    requires forall i :: 0 <= i < |ps| ==> IsObjectId(ps[i].id)
    ensures forall i :: 0 <= i < |Delete(ps, id).products| ==> !SameId(Delete(ps, id).products[i].id, id)
  {
  }

  /** A deleted product can no longer be read: a valid id is then not
      found, and any other id is refused before the lookup. */
  lemma ReadAfterDelete(ps: seq<ProductDoc>, id: Id)
    ensures Read(Delete(ps, id).products, id).status == (if IsObjectId(id) then 400 else 500)
    ensures Read(Delete(ps, id).products, id).product.None?
  {
  }

  /** A created product can be read back under its new id. */
  lemma ReadAfterCreate(db: Db, req: CreateRequest, productId: Id, otherId: Id)
    requires IsObjectId(productId)
    requires forall i :: 0 <= i < |db.products| ==> !SameId(db.products[i].id, productId)
    requires Create(db, req, productId, otherId).status == 200
    ensures var r := Create(db, req, productId, otherId);
      Read(r.db.products, productId).product == r.product
  {
    var r := Create(db, req, productId, otherId);
    var ps := r.db.products;
    assert ps == db.products + [r.product.value];
    var f := FindProduct(ps, productId);
    assert ps[|ps| - 1].id == productId;
    assert f.Some?;
    assert f.value == r.product.value;
  }
}

=== FILE: product_creator.dfy ===
/** The admin page that creates a product: a form of text and number fields,
    one main image, a gallery of images and an `errors` object. The number
    inputs (price, stock) hold an optional number: absent when the input is
    empty. */
module ProductCreator {
  import opened Wrappers
  import opened Strings
  import opened Seqs
  import opened Forms

  datatype Fields = Fields(title: string, description: string, price: Option<real>, stock: Option<real>, categoryId: string)

  const EmptyFields: Fields := Fields("", "", None, None, "")

  datatype State = State(fields: Fields, image: Option<Picked>, gallery: seq<Picked>, errors: Errors)

  const Initial: State := State(EmptyFields, None, [], map[])

  // ------------------------------------------------------------ inputs

  /** A change event from one of the inputs wired to `handleInputChange`; the
      description comes from the rich-text editor and is set directly. */
  datatype Input =
    | TitleInput(text: string)
    | PriceInput(amount: Option<real>)
    | StockInput(amount: Option<real>)
    | CategoryInput(text: string)

  /** The field named by the input's `name` attribute. */
  function InputKey(e: Input): Key {
    match e
    case TitleInput(_) => Title
    case PriceInput(_) => Price
    case StockInput(_) => Stock
    case CategoryInput(_) => CategoryId
  }

  /** `handleInputChange`: stores the value under the input's name and, if
      that field had an error, clears it. */
  function HandleInputChange(s: State, e: Input): (r: State)
    ensures r.image == s.image && r.gallery == s.gallery
    ensures r.fields.title == (if e.TitleInput? then e.text else s.fields.title)
    ensures r.fields.description == s.fields.description
    ensures r.fields.price == (if e.PriceInput? then e.amount else s.fields.price)
    ensures r.fields.stock == (if e.StockInput? then e.amount else s.fields.stock)
    ensures r.fields.categoryId == (if e.CategoryInput? then e.text else s.fields.categoryId)
    ensures HasError(s.errors, InputKey(e)) ==> r.errors == s.errors[InputKey(e) := ""]
    ensures !HasError(s.errors, InputKey(e)) ==> r.errors == s.errors
  {
    var f := s.fields;
    var fields := match e
      case TitleInput(t) => f.(title := t)
      case PriceInput(a) => f.(price := a)
      case StockInput(a) => f.(stock := a)
      case CategoryInput(t) => f.(categoryId := t);
    var errors := if HasError(s.errors, InputKey(e)) then s.errors[InputKey(e) := ""] else s.errors;
    s.(fields := fields, errors := errors)
  }

  /** After an input changes, its own field shows no error and every other
      field's error is exactly as it was. */
  lemma InputChangeClearsOnlyItsError(s: State, e: Input)
    ensures !HasError(HandleInputChange(s, e).errors, InputKey(e))
    ensures forall k :: k != InputKey(e) ==>
      (k in HandleInputChange(s, e).errors <==> k in s.errors)
    ensures forall k :: k != InputKey(e) && k in s.errors ==>
      HandleInputChange(s, e).errors[k] == s.errors[k]
  {
  }

  // ------------------------------------------------------------ validation

  datatype Validation = Validation(state: State, valid: bool)

  /** The message `validateForm` records for field `k` when its check
      fails. */
  function Problem(s: State, k: Key): Option<string> {
    match k
    case Title => if IsBlank(s.fields.title) then Some("Title is required") else None
    case Image => if s.image.None? then Some("Image is required") else None
    case Price => if s.fields.price.None? then Some("Price is required") else None
    case Stock => if NegativeStock(s.fields.stock) then Some("Stock can not be less than 0") else None
    case Description => if IsBlank(s.fields.description) then Some("Description is required") else None
    case _ => None
  }

  /** The `newErrors` object of `validateForm`: one message per failing
      check. */
  function NewErrors(s: State): (errors: Errors)
    ensures Title in errors <==> IsBlank(s.fields.title)
    ensures Image in errors <==> s.image.None?
    ensures Price in errors <==> s.fields.price.None?
    ensures Stock in errors <==> NegativeStock(s.fields.stock)
    ensures Description in errors <==> IsBlank(s.fields.description)
    ensures errors.Keys <= {Title, Image, Price, Stock, Description}
    ensures forall k :: k in errors ==> Some(errors[k]) == Problem(s, k)
  {
    Failures({Title, Image, Price, Stock, Description}, s, Problem)
  }

  /** `validateForm`: the errors shown are replaced by the fresh ones, and the
      form is valid exactly when there is none. */
  function ValidateForm(s: State): (r: Validation)
    ensures r.state == s.(errors := NewErrors(s))
    ensures r.valid <==> |r.state.errors| == 0
    ensures r.valid <==> (!IsBlank(s.fields.title) && s.image.Some? && s.fields.price.Some?
      && !NegativeStock(s.fields.stock) && !IsBlank(s.fields.description))
  {
    var errors := NewErrors(s);
    assert |errors| == 0 <==> errors.Keys == {};
    Validation(s.(errors := errors), |errors| == 0)
  }

  /** The price is checked for presence only: a zero or negative price passes. */
  lemma NonPositivePriceAccepted(s: State, p: real)
    requires p <= 0.0
    requires !IsBlank(s.fields.title) && s.image.Some? && !IsBlank(s.fields.description)
    requires !NegativeStock(s.fields.stock)
    ensures ValidateForm(s.(fields := s.fields.(price := Some(p)))).valid
  {
  }

  // ------------------------------------------------------------ files

  /** `handleImageChange`. */
  function HandleImageChange(s: State, files: seq<Picked>): (r: State)
    ensures r.fields == s.fields && r.gallery == s.gallery
    ensures |files| > 0 && IsImage(files[0]) ==> r.image == Some(files[0])
    ensures !(|files| > 0 && IsImage(files[0])) ==> r.image == s.image
    ensures |files| > 0 && !IsImage(files[0]) ==> HasError(r.errors, Image)
    ensures r.errors == PickImage(s.image, s.errors, files).errors
  {
    var pick := PickImage(s.image, s.errors, files);
    s.(image := pick.image, errors := pick.errors)
  }

  /** `handleGalleryChange`: a batch with any non-image is refused whole and
      the gallery is untouched; an accepted batch replaces the gallery. */
  function HandleGalleryChange(s: State, files: seq<Picked>): (r: State)
    ensures r.fields == s.fields && r.image == s.image
    ensures (exists i :: 0 <= i < |files| && !IsImage(files[i])) ==>
      r.gallery == s.gallery && HasError(r.errors, Gallery)
    ensures (forall i :: 0 <= i < |files| ==> IsImage(files[i])) ==>
      r.gallery == files && !HasError(r.errors, Gallery)
    ensures r.errors == GalleryErrors(s.errors, files)
  {
    var errors := GalleryErrors(s.errors, files);
    if FirstNonImage(files).Some? then s.(errors := errors)
    else s.(gallery := files, errors := errors)
  }

  /** An accepted batch replaces, it does not extend: what was in the gallery
      before plays no part in the result. */
  lemma GalleryBatchReplaces(s: State, t: State, files: seq<Picked>)
    requires forall i :: 0 <= i < |files| ==> IsImage(files[i])
    ensures HandleGalleryChange(s, files).gallery == HandleGalleryChange(t, files).gallery
  {
  }

  /** `removeGalleryImage(index)`: `gallery.filter((_, i) => i !== index)`. */
  function RemoveGalleryImage(s: State, index: int): (r: State)
    ensures r.fields == s.fields && r.image == s.image && r.errors == s.errors
    ensures 0 <= index < |s.gallery| ==> r.gallery == s.gallery[..index] + s.gallery[index + 1..]
    ensures !(0 <= index < |s.gallery|) ==> r.gallery == s.gallery
  {
    FilterOutIndexIsSplice(s.gallery, index, 0);
    s.(gallery := FilterOutIndex(s.gallery, index, 0))
  }

  /** Removing an in-range index takes away exactly that one image: one
      fewer, and every other image keeps its relative place. */
  lemma RemoveTakesExactlyOne(s: State, index: int)
    requires 0 <= index < |s.gallery|
    ensures |RemoveGalleryImage(s, index).gallery| == |s.gallery| - 1
    ensures forall j :: 0 <= j < index ==> RemoveGalleryImage(s, index).gallery[j] == s.gallery[j]
    ensures forall j :: index < j < |s.gallery| ==> RemoveGalleryImage(s, index).gallery[j - 1] == s.gallery[j]
  {
  }
}

=== FILE: product_editor.dfy ===
/** The admin page that edits a product. Besides the form fields it keeps two
    parallel-looking lists: `gallery`, the newly chosen files, and
    `galleryPreviews`, which starts with the names of the images the product
    already has and then holds one object URL per new file. */
module ProductEditor {
  import opened Wrappers
  import opened Strings
  import opened Seqs
  import opened Forms

  datatype State = State(
    title: string, description: string, price: Option<real>, stock: Option<real>, categoryId: string,
    image: Option<Picked>, imagePreview: string,
    gallery: seq<Picked>, galleryPreviews: seq<string>,
    errors: Errors)

  const Initial: State := State("", "", None, None, "", None, "", [], [], map[])

  /** The product as the server returns it; optional fields may be missing. */
  datatype Loaded = Loaded(
    title: string, description: string, price: Option<real>, stock: Option<real>,
    categoryId: Option<string>, image: Option<string>, gallery: Option<seq<string>>)

  /** `fetchProduct` on a 200 answer: copies the product into the form, with
      `""` for a missing category or image and `[]` for a missing gallery. */
  function Load(s: State, p: Loaded): (r: State)
    ensures r.title == p.title && r.description == p.description
    ensures r.price == p.price && r.stock == p.stock
    ensures r.categoryId == p.categoryId.GetOr("")
    ensures r.imagePreview == p.image.GetOr("")
    ensures r.galleryPreviews == p.gallery.GetOr([])
    ensures r.image == s.image && r.gallery == s.gallery && r.errors == s.errors
  {
    s.(title := p.title, description := p.description, price := p.price, stock := p.stock,
       categoryId := p.categoryId.GetOr(""), imagePreview := p.image.GetOr(""),
       galleryPreviews := p.gallery.GetOr([]))
  }

  // ------------------------------------------------------------ object URLs

  /** `URL.createObjectURL(file)`: a `blob:` URL; `token` stands for the part
      the browser chooses. */
  function ObjectUrl(token: Picked -> string, f: Picked): (u: string)
    ensures StartsWith(u, "blob:")
  {
    "blob:" + token(f)
  }

  /** `files.map((file) => URL.createObjectURL(file))`. */
  function ObjectUrls(token: Picked -> string, files: seq<Picked>): (r: seq<string>)
    ensures |r| == |files|
    ensures forall i :: 0 <= i < |files| ==> r[i] == ObjectUrl(token, files[i])
  {
    seq(|files|, i requires 0 <= i < |files| => ObjectUrl(token, files[i]))
  }

  /** The number of previews that show stored images rather than new files. */
  function StoredCount(s: State): int {
    |s.galleryPreviews| - |s.gallery|
  }

  /** The previews line up with the files: first the stored images (none of
      them an object URL), then one object URL per new file, in order. */
  ghost predicate Aligned(s: State, token: Picked -> string) {
    ListsAligned(s.gallery, s.galleryPreviews, token)
  }

  ghost predicate ListsAligned(gallery: seq<Picked>, previews: seq<string>, token: Picked -> string) {
    var k := |previews| - |gallery|;
    && |gallery| <= |previews|
    && (forall j :: 0 <= j < k ==> !StartsWith(previews[j], "blob:"))
    && (forall j :: 0 <= j < |gallery| ==> previews[k + j] == ObjectUrl(token, gallery[j]))
  }

  /** A freshly loaded product is aligned as long as no stored image name
      starts with `blob:` (the server's stored names start with the upload
      field's name). */
  lemma LoadAligned(p: Loaded, token: Picked -> string)
    requires forall j :: 0 <= j < |p.gallery.GetOr([])| ==> !StartsWith(p.gallery.GetOr([])[j], "blob:")
    ensures Aligned(Load(Initial, p), token)
  {
  }

  // ------------------------------------------------------------ validation

  datatype Validation = Validation(state: State, valid: bool)

  /** The message `validateForm` records for field `k` when its check
      fails. */
  function Problem(s: State, k: Key): Option<string> {
    match k
    case Title => if IsBlank(s.title) then Some("Title is required") else None
    case Price => if s.price.None? || s.price.value <= 0.0 then Some("Valid price is required") else None
    case Stock => if NegativeStock(s.stock) then Some("Stock can not be less than 0") else None
    case Description => if IsBlank(s.description) then Some("Description is required") else None
    case Image => if s.image.None? && s.imagePreview == "" then Some("Image is required") else None
    case _ => None
  }

  /** The `newErrors` object of `validateForm`: as on the creation page,
      except that the price must be positive and an already stored image
      satisfies the image requirement. */
  function NewErrors(s: State): (errors: Errors)
    ensures Title in errors <==> IsBlank(s.title)
    ensures Price in errors <==> s.price.None? || s.price.value <= 0.0
    ensures Stock in errors <==> NegativeStock(s.stock)
    ensures Description in errors <==> IsBlank(s.description)
    ensures Image in errors <==> s.image.None? && s.imagePreview == ""
    ensures errors.Keys <= {Title, Price, Stock, Description, Image}
    ensures forall k :: k in errors ==> Some(errors[k]) == Problem(s, k)
  {
    Failures({Title, Price, Stock, Description, Image}, s, Problem)
  }

  /** `validateForm`: the errors shown are replaced by the fresh ones, and the
      form is valid exactly when there is none. */
  function ValidateForm(s: State): (r: Validation)
    ensures r.state == s.(errors := NewErrors(s))
    ensures r.valid <==> |r.state.errors| == 0
    ensures r.valid <==> (!IsBlank(s.title) && s.price.Some? && s.price.value > 0.0 && !NegativeStock(s.stock)
      && !IsBlank(s.description) && (s.image.Some? || s.imagePreview != ""))
  {
    var errors := NewErrors(s);
    assert |errors| == 0 <==> errors.Keys == {};
    Validation(s.(errors := errors), |errors| == 0)
  }

  /** A stored image counts: a loaded product with an image needs no new file. */
  lemma StoredImageSatisfiesImageCheck(p: Loaded)
    requires p.image.Some? && p.image.value != ""
    ensures Image !in ValidateForm(Load(Initial, p)).state.errors
  {
  }

  // ------------------------------------------------------------ files

  /** `handleImageChange`: an accepted image also becomes the preview. */
  function HandleImageChange(s: State, files: seq<Picked>, token: Picked -> string): (r: State)
    ensures r.gallery == s.gallery && r.galleryPreviews == s.galleryPreviews
    ensures |files| > 0 && IsImage(files[0]) ==>
      r.image == Some(files[0]) && r.imagePreview == ObjectUrl(token, files[0])
    ensures !(|files| > 0 && IsImage(files[0])) ==> r.image == s.image && r.imagePreview == s.imagePreview
    ensures |files| > 0 && !IsImage(files[0]) ==> HasError(r.errors, Image)
    ensures |files| > 0 && IsImage(files[0]) ==> !HasError(r.errors, Image)
    ensures r.errors == PickImage(s.image, s.errors, files).errors
  {
    var pick := PickImage(s.image, s.errors, files);
    if |files| > 0 && IsImage(files[0]) then
      s.(image := pick.image, imagePreview := ObjectUrl(token, files[0]), errors := pick.errors)
    else s.(errors := pick.errors)
  }

  /** `handleGalleryChange`: a batch with any non-image is refused whole; an
      accepted batch is appended to the files and, one object URL per file,
      to the previews. */
  function HandleGalleryChange(s: State, files: seq<Picked>, token: Picked -> string): (r: State)
    ensures (exists i :: 0 <= i < |files| && !IsImage(files[i])) ==>
      r.gallery == s.gallery && r.galleryPreviews == s.galleryPreviews && HasError(r.errors, Gallery)
    ensures (forall i :: 0 <= i < |files| ==> IsImage(files[i])) ==>
      r.gallery == s.gallery + files && r.galleryPreviews == s.galleryPreviews + ObjectUrls(token, files)
    ensures (forall i :: 0 <= i < |files| ==> IsImage(files[i])) ==> !HasError(r.errors, Gallery)
    ensures r.image == s.image && r.imagePreview == s.imagePreview
    ensures r.errors == GalleryErrors(s.errors, files)
  {
    var errors := GalleryErrors(s.errors, files);
    if FirstNonImage(files).Some? then s.(errors := errors)
    else s.(gallery := s.gallery + files, galleryPreviews := s.galleryPreviews + ObjectUrls(token, files), errors := errors)
  }

  lemma GalleryChangePreservesAligned(s: State, files: seq<Picked>, token: Picked -> string)
    requires Aligned(s, token)
    ensures Aligned(HandleGalleryChange(s, files, token), token)
  {
    if FirstNonImage(files).None? {
      AcceptedGalleryAligned(s, files, token);
    } else {
      RefusedGalleryAligned(s, files, token);
    }
  }

  lemma AcceptedGalleryAligned(s: State, files: seq<Picked>, token: Picked -> string)
    requires Aligned(s, token) && FirstNonImage(files).None?
    ensures Aligned(HandleGalleryChange(s, files, token), token)
  {
    var r := HandleGalleryChange(s, files, token);
    assert r.gallery == s.gallery + files;
    assert r.galleryPreviews == s.galleryPreviews + ObjectUrls(token, files);
    AppendKeepsAligned(s, r, files, token);
  }

  lemma RefusedGalleryAligned(s: State, files: seq<Picked>, token: Picked -> string)
    requires Aligned(s, token) && FirstNonImage(files).Some?
    ensures Aligned(HandleGalleryChange(s, files, token), token)
  {
    var r := HandleGalleryChange(s, files, token);
    assert r.gallery == s.gallery && r.galleryPreviews == s.galleryPreviews;
  }

  /** Appending files together with their object URLs keeps the lists lined up. */
  lemma AppendKeepsAligned(s: State, r: State, files: seq<Picked>, token: Picked -> string)
    requires Aligned(s, token)
    requires r.gallery == s.gallery + files
    requires r.galleryPreviews == s.galleryPreviews + ObjectUrls(token, files)
    ensures Aligned(r, token)
  {
    var k := StoredCount(s);
    assert StoredCount(r) == k;
    forall j | 0 <= j < k
      ensures !StartsWith(r.galleryPreviews[j], "blob:")
    {
      assert r.galleryPreviews[j] == s.galleryPreviews[j];
    }
    forall j | 0 <= j < |r.gallery|
      ensures r.galleryPreviews[k + j] == ObjectUrl(token, r.gallery[j])
    {
      if j < |s.gallery| {
        assert r.galleryPreviews[k + j] == s.galleryPreviews[k + j];
        assert r.gallery[j] == s.gallery[j];
      } else {
        assert r.galleryPreviews[k + j] == ObjectUrls(token, files)[j - |s.gallery|];
        assert r.gallery[j] == files[j - |s.gallery|];
      }
    }
  }

  /** `removeGalleryImage(index)` as written: reading `previews[index]`
      throws past the end; otherwise the same index is spliced out of both
      lists, although the two lists are offset by the stored images. */
  function RemoveAsWritten(s: State, index: nat): (r: Option<State>)
    ensures r.None? <==> index >= |s.galleryPreviews|
    ensures r.Some? ==> r.value == s.(gallery := SpliceOne(s.gallery, index), galleryPreviews := SpliceOne(s.galleryPreviews, index))
  {
    if index >= |s.galleryPreviews| then None
    else Some(s.(gallery := SpliceOne(s.gallery, index), galleryPreviews := SpliceOne(s.galleryPreviews, index)))
  }

  /** With a stored image in front of a new file, removing the first preview
      drops the first new file while its object URL stays on screen: the
      lists no longer line up. */
  lemma RemoveAsWrittenMisaligns(s: State, token: Picked -> string)
    requires Aligned(s, token)
    requires StoredCount(s) >= 1 && |s.gallery| >= 1
    ensures RemoveAsWritten(s, 0).Some?
    ensures !Aligned(RemoveAsWritten(s, 0).value, token)
  {
    var t := RemoveAsWritten(s, 0).value;
    var k := StoredCount(s);
    assert StoredCount(t) == k;
    assert t.galleryPreviews[k - 1] == s.galleryPreviews[k];
    assert s.galleryPreviews[k] == ObjectUrl(token, s.gallery[0]);
  }

  /** A browser that names every object URL `blob:1`. */
  function TokenOne(x: Picked): string {
    "1"
  }

  /** The concrete case: one stored image "a.jpg", one new file "b.png";
      removing the preview of "a.jpg" removes "b.png" from the upload. */
  lemma RemoveAsWrittenExample()
    ensures var s := Initial.(gallery := [Picked("b.png", "image/png")], galleryPreviews := ["a.jpg", "blob:1"]);
      Aligned(s, TokenOne) && RemoveAsWritten(s, 0) == Some(s.(gallery := [], galleryPreviews := ["blob:1"]))
  {
    var f := Picked("b.png", "image/png");
    var s := Initial.(gallery := [f], galleryPreviews := ["a.jpg", "blob:1"]);
    assert ObjectUrl(TokenOne, f) == "blob:1";
    assert !StartsWith("a.jpg", "blob:") by {
      assert "a.jpg"[0] != "blob:"[0];
    }
    assert SpliceOne(s.galleryPreviews, 0) == ["blob:1"];
  }

  /** `removeGalleryImage(index)` with the offset taken into account: the
      preview at `index` goes, and so does the file it shows, if it shows a
      new file. */
  function RemoveGalleryImage(s: State, index: nat): (r: Option<State>)
    ensures r.None? <==> index >= |s.galleryPreviews|
    ensures r.Some? ==> r.value.galleryPreviews == SpliceOne(s.galleryPreviews, index)
    ensures r.Some? && index >= StoredCount(s) ==> r.value.gallery == SpliceOne(s.gallery, index - StoredCount(s))
    ensures r.Some? && index < StoredCount(s) ==> r.value.gallery == s.gallery
    ensures r.Some? ==> r.value == s.(gallery := r.value.gallery, galleryPreviews := r.value.galleryPreviews)
  {
    if index >= |s.galleryPreviews| then None
    else
      var gallery := if index >= StoredCount(s) then SpliceOne(s.gallery, index - StoredCount(s)) else s.gallery;
      Some(s.(gallery := gallery, galleryPreviews := SpliceOne(s.galleryPreviews, index)))
  }

  lemma RemovePreservesAligned(s: State, index: nat, token: Picked -> string)
    requires Aligned(s, token)
    requires index < |s.galleryPreviews|
    ensures Aligned(RemoveGalleryImage(s, index).value, token)
  {
    if index < StoredCount(s) {
      RemoveStoredKeepsAligned(s, index, token);
    } else {
      RemoveNewKeepsAligned(s, index, token);
    }
  }

  /** Removing a stored preview shortens the stored part by one and leaves the
      new files and their object URLs where they line up. */
  lemma RemoveStoredKeepsAligned(s: State, index: nat, token: Picked -> string)
    requires Aligned(s, token)
    requires index < StoredCount(s)
    ensures Aligned(RemoveGalleryImage(s, index).value, token)
  {
    SpliceStoredAligned(s.gallery, s.galleryPreviews, index, token);
  }

  lemma SpliceStoredAligned(gallery: seq<Picked>, previews: seq<string>, index: nat, token: Picked -> string)
    requires ListsAligned(gallery, previews, token)
    requires index < |previews| - |gallery|
    ensures ListsAligned(gallery, SpliceOne(previews, index), token)
  {
    var k := |previews| - |gallery|;
    var p := SpliceOne(previews, index);
    assert |p| - |gallery| == k - 1;
    forall j | 0 <= j < k - 1
      ensures !StartsWith(p[j], "blob:")
    {
      SpliceOneAt(previews, index, j);
    }
    forall j | 0 <= j < |gallery|
      ensures p[k - 1 + j] == ObjectUrl(token, gallery[j])
    {
      SpliceOneAt(previews, index, k - 1 + j);
    }
  }

  /** Removing the preview of a new file removes that file too, so what
      follows moves down by one in both lists. */
  lemma RemoveNewKeepsAligned(s: State, index: nat, token: Picked -> string)
    requires Aligned(s, token)
    requires StoredCount(s) <= index < |s.galleryPreviews|
    ensures Aligned(RemoveGalleryImage(s, index).value, token)
  {
    SpliceNewAligned(s.gallery, s.galleryPreviews, index, token);
  }

  lemma SpliceNewAligned(gallery: seq<Picked>, previews: seq<string>, index: nat, token: Picked -> string)
    requires ListsAligned(gallery, previews, token)
    requires |previews| - |gallery| <= index < |previews|
    ensures ListsAligned(SpliceOne(gallery, index - (|previews| - |gallery|)), SpliceOne(previews, index), token)
  {
    var k := |previews| - |gallery|;
    var g := SpliceOne(gallery, index - k);
    var p := SpliceOne(previews, index);
    assert |p| - |g| == k;
    forall j | 0 <= j < k
      ensures !StartsWith(p[j], "blob:")
    {
      SpliceOneAt(previews, index, j);
    }
    forall j | 0 <= j < |g|
      ensures p[k + j] == ObjectUrl(token, g[j])
    {
      SpliceNewAt(gallery, previews, index, token, j);
    }
  }

  /** After the splice, the file at `j` and the preview at the stored count
      plus `j` still belong together. */
  lemma SpliceNewAt(gallery: seq<Picked>, previews: seq<string>, index: nat, token: Picked -> string, j: nat)
    requires ListsAligned(gallery, previews, token)
    requires |previews| - |gallery| <= index < |previews|
    requires j < |gallery| - 1
    ensures var k := |previews| - |gallery|;
      SpliceOne(previews, index)[k + j] == ObjectUrl(token, SpliceOne(gallery, index - k)[j])
  {
    var k := |previews| - |gallery|;
    SpliceOneAt(previews, index, k + j);
    SpliceOneAt(gallery, index - k, j);
    if j < index - k {
      assert previews[k + j] == ObjectUrl(token, gallery[j]);
    } else {
      assert previews[k + j + 1] == ObjectUrl(token, gallery[j + 1]);
    }
  }

  /** With no stored images in the list the two versions agree. */
  lemma RemoveAgreesWithoutStoredImages(s: State, index: nat)
    requires StoredCount(s) == 0
    ensures RemoveGalleryImage(s, index) == RemoveAsWritten(s, index)
  {
  }

  // ------------------------------------------------------------ preview source

  /** The `src` of a preview: an object URL as it is, a stored name under the
      product's upload folder. */
  function PreviewSrc(apiBase: string, productTitle: string, preview: string): (src: string)
    ensures StartsWith(preview, "blob:") ==> src == preview
    ensures !StartsWith(preview, "blob:") ==> StartsWith(src, apiBase + "/uploads/products/")
  {
    if StartsWith(preview, "blob:") then preview
    else apiBase + "/uploads/products/" + productTitle + "/" + preview
  }

  /** A new file's preview shows the object URL created for it, and a stored
      image's preview ends with the image's own name. */
  lemma PreviewSrcShowsItsImage(apiBase: string, productTitle: string, token: Picked -> string, f: Picked, stored: string)
    requires !StartsWith(stored, "blob:")
    ensures PreviewSrc(apiBase, productTitle, ObjectUrl(token, f)) == ObjectUrl(token, f)
    ensures var src := PreviewSrc(apiBase, productTitle, stored);
      |src| > |stored| && src[|src| - |stored|..] == stored && src[|src| - |stored| - 1] == '/'
  {
    var src := PreviewSrc(apiBase, productTitle, stored);
    var pre := apiBase + "/uploads/products/" + productTitle + "/";
    assert src == pre + stored;
    assert src[|pre|..] == stored;
  }

  // ------------------------------------------------------------ submit

  /** The multipart body of `handleSubmit`, in append order. */
  function FormParts(s: State): (parts: seq<Part>)
    ensures HasPart(parts, "categoryId") <==> s.categoryId != ""
    ensures HasPart(parts, "image") <==> s.image.Some?
    ensures s.image.Some? ==> FilePart("image", s.image.value) in parts
    ensures |parts| >= |s.gallery|
    ensures forall j :: 0 <= j < |s.gallery| ==> parts[|parts| - |s.gallery| + j] == FilePart("gallery", s.gallery[j])
    ensures |parts| == 4 + (if s.categoryId != "" then 1 else 0) + (if s.image.Some? then 1 else 0) + |s.gallery|
  {
    var fixed := [TextPart("title", s.title), TextPart("description", s.description),
                  NumberPart("price", s.price), NumberPart("stock", s.stock)];
    var category := if s.categoryId != "" then [TextPart("categoryId", s.categoryId)] else [];
    var image := if s.image.Some? then [FilePart("image", s.image.value)] else [];
    var gallery := GalleryParts(s.gallery);
    var parts := fixed + category + image + gallery;
    PartsNamed(s, fixed, category, image, gallery, parts);
    PartsPlaced(s, fixed, category, image, gallery, parts);
    parts
  }

  /** Which names the body carries. */
  lemma PartsNamed(s: State, fixed: seq<Part>, category: seq<Part>, image: seq<Part>, gallery: seq<Part>, parts: seq<Part>)
    requires fixed == [TextPart("title", s.title), TextPart("description", s.description),
                       NumberPart("price", s.price), NumberPart("stock", s.stock)]
    requires category == if s.categoryId != "" then [TextPart("categoryId", s.categoryId)] else []
    requires image == if s.image.Some? then [FilePart("image", s.image.GetOr(Picked("", "")))] else []
    requires gallery == GalleryParts(s.gallery)
    requires parts == fixed + category + image + gallery
    ensures HasPart(parts, "categoryId") <==> s.categoryId != ""
    ensures HasPart(parts, "image") <==> s.image.Some?
  {
    FixedPartsNamed(fixed, s);
    GalleryPartsNamed(gallery);
    if s.categoryId != "" {
      assert category[0].name == "categoryId";
    }
    if s.image.Some? {
      assert image[0].name == "image";
    }
    HasPartAppend(fixed, category, "categoryId");
    HasPartAppend(fixed + category, image, "categoryId");
    HasPartAppend(fixed + category + image, gallery, "categoryId");
    HasPartAppend(fixed, category, "image");
    HasPartAppend(fixed + category, image, "image");
    HasPartAppend(fixed + category + image, gallery, "image");
  }

  /** Where the image and the gallery files sit in the body. */
  lemma PartsPlaced(s: State, fixed: seq<Part>, category: seq<Part>, image: seq<Part>, gallery: seq<Part>, parts: seq<Part>)
    requires fixed == [TextPart("title", s.title), TextPart("description", s.description),
                       NumberPart("price", s.price), NumberPart("stock", s.stock)]
    requires category == if s.categoryId != "" then [TextPart("categoryId", s.categoryId)] else []
    requires image == if s.image.Some? then [FilePart("image", s.image.GetOr(Picked("", "")))] else []
    requires gallery == GalleryParts(s.gallery)
    requires parts == fixed + category + image + gallery
    ensures s.image.Some? ==> FilePart("image", s.image.value) in parts
    ensures |parts| == 4 + (if s.categoryId != "" then 1 else 0) + (if s.image.Some? then 1 else 0) + |s.gallery|
    ensures forall j :: 0 <= j < |s.gallery| ==> parts[|parts| - |s.gallery| + j] == FilePart("gallery", s.gallery[j])
  {
    if s.image.Some? {
      assert parts[|fixed| + |category|] == FilePart("image", s.image.value);
    }
    forall j | 0 <= j < |s.gallery|
      ensures parts[|parts| - |s.gallery| + j] == FilePart("gallery", s.gallery[j])
    {
      assert parts[|fixed + category + image| + j] == gallery[j];
    }
  }

  lemma FixedPartsNamed(fixed: seq<Part>, s: State)
    requires fixed == [TextPart("title", s.title), TextPart("description", s.description),
                       NumberPart("price", s.price), NumberPart("stock", s.stock)]
    ensures !HasPart(fixed, "categoryId") && !HasPart(fixed, "image")
  {
    assert forall i :: 0 <= i < |fixed| ==> fixed[i].name in ["title", "description", "price", "stock"];
  }

  lemma GalleryPartsNamed(gallery: seq<Part>)
    requires forall j :: 0 <= j < |gallery| ==> gallery[j].name == "gallery"
    ensures !HasPart(gallery, "categoryId") && !HasPart(gallery, "image")
  {
  }

  datatype Submission = Submission(state: State, body: Option<seq<Part>>)

  /** `handleSubmit`: a request body exists exactly when the form is valid. */
  function HandleSubmit(s: State): (r: Submission)
    ensures r.body.Some? <==> ValidateForm(s).valid
    ensures r.body.Some? ==> r.body.value == FormParts(s)
    ensures r.state == ValidateForm(s).state
  {
    var v := ValidateForm(s);
    Submission(v.state, if v.valid then Some(FormParts(s)) else None)
  }
}

=== FILE: product_model.dfy ===
/** The `pre("save")` hook of the Product schema: a product saved without a
    category is filed under the Persian catch-all category "سایر" ("other"),
    which is created on first use. */
module ProductModel {
  import opened Wrappers
  import opened Seqs
  import opened Documents

  /** "سایر", distinct from the seeder's English "others". */
  const OtherTitle: string := "\U{0633}\U{0627}\U{06CC}\U{0631}"
  /** "سایر محصولات", "other products". */
  const OtherDescription: string := "\U{0633}\U{0627}\U{06CC}\U{0631} \U{0645}\U{062D}\U{0635}\U{0648}\U{0644}\U{0627}\U{062A}"
  const OtherImage: string := "../../../client/public/images/others.jpeg"

  /** The categories and the product as the hook leaves them. */
  datatype Saved = Saved(categories: seq<CategoryDoc>, product: ProductDoc)

  function IsOther(c: CategoryDoc): bool {
    c.title == OtherTitle
  }

  /** `newId` is the ObjectId `Category.create` would assign. */
  function PreSave(cs: seq<CategoryDoc>, p: ProductDoc, newId: Id): (r: Saved)
    ensures p.categoryId.Some? ==> r == Saved(cs, p)
    ensures r.product.categoryId.Some?
    ensures r.product == p.(categoryId := r.product.categoryId)
    ensures p.categoryId.None? ==> exists c :: c in r.categories && IsOther(c) && r.product.categoryId == Some(c.id)
    ensures p.categoryId.None? && FindCategoryByTitle(cs, OtherTitle).Some? ==>
      r.categories == cs && r.product.categoryId == Some(FindCategoryByTitle(cs, OtherTitle).value.id)
    ensures p.categoryId.None? && FindCategoryByTitle(cs, OtherTitle).None? ==>
      r.categories == cs + [NewCategory(newId, OtherTitle, OtherImage, OtherDescription)]
      && r.product.categoryId == Some(newId)
  {
    if p.categoryId.Some? then Saved(cs, p)
    else
      match FindCategoryByTitle(cs, OtherTitle)
      case Some(other) => Saved(cs, p.(categoryId := Some(other.id)))
      case None =>
        var other := NewCategory(newId, OtherTitle, OtherImage, OtherDescription);
        Saved(cs + [other], p.(categoryId := Some(other.id)))
  }

  /** The catch-all category the hook creates passes the Category schema's
      validation and is not marked as a default category. */
  lemma CreatedOtherIsValid(newId: Id)
    ensures CategoryValid(NewCategory(newId, OtherTitle, OtherImage, OtherDescription))
    ensures !NewCategory(newId, OtherTitle, OtherImage, OtherDescription).isDefault
  {
  }

  /** One save never adds a second "سایر". */
  lemma PreSaveKeepsOneOther(cs: seq<CategoryDoc>, p: ProductDoc, newId: Id)
    requires Count(cs, IsOther) <= 1
    ensures Count(PreSave(cs, p, newId).categories, IsOther) <= 1
  {
    var r := PreSave(cs, p, newId);
    if r.categories != cs {
      assert FindCategoryByTitle(cs, OtherTitle).None?;
      CountNone(cs, IsOther);
      CountAppend(cs, NewCategory(newId, OtherTitle, OtherImage, OtherDescription), IsOther);
    }
  }

  lemma {:induction false} CountNone<T>(xs: seq<T>, p: T -> bool)
    requires forall i :: 0 <= i < |xs| ==> !p(xs[i])
    ensures Count(xs, p) == 0
  {
    if |xs| > 0 {
      CountNone(xs[1..], p);
    }
  }

  /** Saving products one after another, each with the next fresh id. */
  function SaveAll(cs: seq<CategoryDoc>, ps: seq<ProductDoc>, ids: seq<Id>): (r: seq<CategoryDoc>)
    requires |ids| == |ps|
    ensures |cs| <= |r| <= |cs| + |ps|
    decreases |ps|
  {
    if |ps| == 0 then cs
    else SaveAll(PreSave(cs, ps[0], ids[0]).categories, ps[1..], ids[1..])
  }

  /** Across any number of saves starting with no "سایر" category (or one),
      there is never more than one. */
  lemma {:induction false} SaveAllKeepsOneOther(cs: seq<CategoryDoc>, ps: seq<ProductDoc>, ids: seq<Id>)
    requires |ids| == |ps|
    requires Count(cs, IsOther) <= 1
    ensures Count(SaveAll(cs, ps, ids), IsOther) <= 1
    decreases |ps|
  {
    if |ps| > 0 {
      PreSaveKeepsOneOther(cs, ps[0], ids[0]);
      SaveAllKeepsOneOther(PreSave(cs, ps[0], ids[0]).categories, ps[1..], ids[1..]);
    }
  }
}

=== FILE: product_page.dfy ===
/** The product detail page: the image carousel, the related products and
    the SKU shown under the title. */
module ProductPage {
  import opened Wrappers
  import opened Seqs
  import opened Strings

  /** The product as `GET /api/product/:id` returns it. */
  datatype Product = Product(id: string, title: string, image: string, gallery: Option<seq<string>>)

  /** `[product.image, ...(product.gallery || [])]`. */
  function Images(p: Product): (imgs: seq<string>)
    ensures |imgs| == 1 + |p.gallery.GetOr([])|
    ensures imgs[0] == p.image && imgs[1..] == p.gallery.GetOr([])
  {
    [p.image] + p.gallery.GetOr([])
  }

  /** `nextImage`: `product` is absent while the page is loading. */
  function NextImage(product: Option<Product>, prev: int): (i: int)
    ensures product.None? ==> i == prev
    ensures product.Some? && prev == |Images(product.value)| - 1 ==> i == 0
    ensures product.Some? && prev != |Images(product.value)| - 1 ==> i == prev + 1
  {
    match product
    case None => prev
    case Some(p) => if prev == |Images(p)| - 1 then 0 else prev + 1
  }

  /** `prevImage`. */
  function PrevImage(product: Option<Product>, prev: int): (i: int)
    ensures product.None? ==> i == prev
    ensures product.Some? && prev == 0 ==> i == |Images(product.value)| - 1
    ensures product.Some? && prev != 0 ==> i == prev - 1
  {
    match product
    case None => prev
    case Some(p) => if prev == 0 then |Images(p)| - 1 else prev - 1
  }

  /** On an index of the carousel the two buttons stay on the carousel, undo
      each other, and with a single image do nothing. */
  lemma CarouselLaws(p: Product, i: int)
    requires 0 <= i < |Images(p)|
    ensures 0 <= NextImage(Some(p), i) < |Images(p)|
    ensures 0 <= PrevImage(Some(p), i) < |Images(p)|
    ensures PrevImage(Some(p), NextImage(Some(p), i)) == i
    ensures NextImage(Some(p), PrevImage(Some(p), i)) == i
    ensures |Images(p)| == 1 ==> NextImage(Some(p), i) == i && PrevImage(Some(p), i) == i
  {
  }

  /** Going forward `k` times, as the autoplay timer does. */
  function Forward(p: Product, i: int, k: nat): int
    decreases k
  {
    if k == 0 then i else Forward(p, NextImage(Some(p), i), k - 1)
  }

  /** Stepping forward through every image comes back to the start. */
  lemma ForwardFullCircle(p: Product, i: int)
    requires 0 <= i < |Images(p)|
    ensures Forward(p, i, |Images(p)|) == i
  {
    var n := |Images(p)|;
    ForwardCompose(p, i, n - i - 1, 1);
    ForwardLinear(p, i, n - i - 1);
    assert Forward(p, i, n - i) == 0;
    ForwardCompose(p, i, n - i, i);
    ForwardLinear(p, 0, i);
  }

  lemma {:induction false} ForwardLinear(p: Product, i: int, k: nat)
    requires 0 <= i && i + k < |Images(p)|
    ensures Forward(p, i, k) == i + k
    decreases k
  {
    if k > 0 {
      ForwardLinear(p, i + 1, k - 1);
    }
  }

  lemma {:induction false} ForwardCompose(p: Product, i: int, a: nat, b: nat)
    ensures Forward(p, i, a + b) == Forward(p, Forward(p, i, a), b)
    decreases a
  {
    if a > 0 {
      ForwardCompose(p, NextImage(Some(p), i), a - 1, b);
    }
  }

  /** The index is not reset when the page switches product, and `nextImage`
      only wraps at exactly the last index: an index left over from a
      product with more images runs on past the end. */
  lemma StaleIndexRunsPastEnd()
    ensures var p := Product("p2", "t", "a.jpg", None);
      NextImage(Some(p), 2) == 3 && 3 >= |Images(p)|
  {
  }

  /** `relatedProducts.filter(item => item._id !== id)`. */
  function Related(items: seq<Product>, id: string): (r: seq<Product>)
    ensures forall i :: 0 <= i < |r| ==> r[i].id != id
    ensures forall x :: x in items && x.id != id ==> x in r
    ensures IsSubseq(r, items)
  {
    Filter(items, (x: Product) => x.id != id)
  }

  /** `id.slice(-6).toUpperCase()`. */
  function Sku(id: string): (sku: string)
    ensures |sku| == Min(6, |id|)
    ensures forall i :: 0 <= i < |sku| ==> sku[i] == UpperChar(id[|id| - |sku| + i])
  {
    ToUpper(TakeLast(id, 6))
  }

  /** A 24-character ObjectId gives a six-character SKU, and two ids with
      the same last six characters share a SKU whatever precedes them. */
  lemma SkuOfObjectId(a: string, b: string)
    requires |a| == 24 && |b| == 24 && a[18..] == b[18..]
    ensures |Sku(a)| == 6
    ensures Sku(a) == Sku(b)
  {
    assert forall i :: 0 <= i < 6 ==> a[18 + i] == a[18..][i] && b[18 + i] == b[18..][i];
  }
}

=== FILE: seeder.dfy ===
/** `createDefaultCategory`: run at start-up, it makes sure an "others"
    category exists, together with its folder and image, without touching
    anything that is already there. */
module Seeder {
  import opened Wrappers
  import opened Seqs
  import opened Paths
  import opened Documents
  import Posix
  import CategoryModel

  const OthersTitle: string := "others"
  const OthersImage: Segment := "others.jpeg"
  const OthersFolder: Path := CategoryModel.CategoriesDir + [OthersTitle]
  const OthersImagePath: Path := OthersFolder + [OthersImage]
  /** `path.join(__dirname, "..", "public", "images", "others.jpeg")` for
      `src/seeders`. */
  const DefaultImagePath: Path := ["src", "public", "images", OthersImage]

  datatype State = State(fs: Posix.Fs, categories: seq<CategoryDoc>)

  function OthersCategory(id: Id): CategoryDoc {
    CategoryDoc(id, OthersTitle, OthersImage, "Other Products", true)
  }

  function IsOthers(c: CategoryDoc): bool {
    c.title == OthersTitle
  }

  /** `fs.mkdirSync(categoryFolder, { recursive: true })` unless the folder
      already exists: nothing that was there changes, and what is new lies
      on the way to the folder. */
  function MakeFolder(fs: Posix.Fs): (r: Result<Posix.Fs, Posix.FsError>)
    ensures OthersFolder in fs ==> r == Ok(fs)
    ensures r.Ok? ==> forall q :: q in fs ==> q in r.value && r.value[q] == fs[q]
    ensures r.Ok? ==> forall q :: q in r.value && q !in fs ==> q <= OthersFolder
  {
    if OthersFolder in fs then Ok(fs) else Posix.MkdirP(fs, OthersFolder)
  }

  /** `fs.copyFileSync(srcImagePath, destImagePath)` unless the image is
      already there: afterwards the image is there, a fresh copy sits in a
      directory, and nothing else changes. */
  function CopyImage(fs: Posix.Fs): (r: Result<Posix.Fs, Posix.FsError>)
    ensures OthersImagePath in fs ==> r == Ok(fs)
    ensures r.Ok? ==> OthersImagePath in r.value
    ensures r.Ok? && OthersImagePath !in fs ==> Posix.IsDirAt(r.value, OthersFolder)
    ensures r.Ok? ==> forall q :: q in fs ==> q in r.value && r.value[q] == fs[q]
    ensures r.Ok? ==> forall q :: q in r.value && q !in fs ==> q == OthersImagePath
  {
    assert Posix.Parent(OthersImagePath) == OthersFolder;
    if OthersImagePath in fs then Ok(fs) else Posix.CopyFile(fs, DefaultImagePath, OthersImagePath)
  }

  /** `newId` is the ObjectId the created category would receive. A thrown
      error ends the run; the synchronous steps before it stay done. */
  function Seed(s: State, newId: Id): (r: State)
    ensures FindCategoryByTitle(s.categories, OthersTitle).Some? ==> r == s
    ensures r.categories == s.categories || r.categories == s.categories + [OthersCategory(newId)]
    ensures r.categories != s.categories ==> OthersImagePath in r.fs
    ensures r.categories != s.categories && Posix.WellFormed(s.fs) ==> Posix.IsDirAt(r.fs, OthersFolder)
    ensures forall q :: q in s.fs ==> q in r.fs && r.fs[q] == s.fs[q]
    ensures forall q :: q in r.fs && q !in s.fs ==> q <= OthersFolder || q == OthersImagePath
  {
    if FindCategoryByTitle(s.categories, OthersTitle).Some? then s
    else
      match MakeFolder(s.fs)
      case Err(_) => s
      case Ok(fs1) =>
        match CopyImage(fs1)
        case Err(_) => State(fs1, s.categories)
        case Ok(fs2) =>
          assert OthersImagePath in s.fs ==> OthersImagePath in fs1;
          assert OthersImagePath !in fs1 ==> OthersImagePath !in s.fs;
          var doc := OthersCategory(newId);
          State(CategoryModel.AfterSave(fs2, doc), s.categories + [doc])
  }

  /** A fresh run on a tree without the folder or image and with the default
      image in place creates the category with both. */
  lemma SeedCreatesOthers(s: State, newId: Id)
    requires FindCategoryByTitle(s.categories, OthersTitle).None?
    requires !Posix.HasFilePrefix(s.fs, OthersFolder)
    requires Posix.IsFileAt(s.fs, DefaultImagePath)
    requires OthersImagePath !in s.fs
    ensures var r := Seed(s, newId);
      r.categories == s.categories + [OthersCategory(newId)]
      && r.fs[OthersImagePath] == s.fs[DefaultImagePath]
  {
    FolderMade(s.fs);
    var fs1 := MakeFolder(s.fs).value;
    assert Posix.Parent(OthersImagePath) == OthersFolder;
    assert Posix.CopyAllowed(fs1, DefaultImagePath, OthersImagePath);
    var fs2 := CopyImage(fs1).value;
    assert fs2[OthersImagePath] == s.fs[DefaultImagePath];
    assert Seed(s, newId) == State(fs2, s.categories + [OthersCategory(newId)]);
  }

  /** The folder step of a fresh run succeeds and keeps the default image. */
  lemma FolderMade(fs: Posix.Fs)
    requires !Posix.HasFilePrefix(fs, OthersFolder)
    requires Posix.IsFileAt(fs, DefaultImagePath)
    requires OthersImagePath !in fs
    ensures MakeFolder(fs).Ok?
    ensures var fs1 := MakeFolder(fs).value;
      && Posix.IsDirAt(fs1, OthersFolder) && OthersImagePath !in fs1
      && Posix.IsFileAt(fs1, DefaultImagePath) && fs1[DefaultImagePath] == fs[DefaultImagePath]
  {
    if OthersFolder in fs {
      assert OthersFolder[..|OthersFolder|] == OthersFolder;
    } else {
      assert !(OthersImagePath <= OthersFolder) by { assert |OthersImagePath| > |OthersFolder|; }
    }
  }

  lemma SeedPreservesWellFormed(s: State, newId: Id)
    requires Posix.WellFormed(s.fs)
    ensures Posix.WellFormed(Seed(s, newId).fs)
  {
    if FindCategoryByTitle(s.categories, OthersTitle).None? && MakeFolder(s.fs).Ok? {
      var fs1 := MakeFolder(s.fs).value;
      if OthersFolder !in s.fs {
        Posix.MkdirPreservesWellFormed(s.fs, OthersFolder);
      }
      assert Posix.WellFormed(fs1);
      if CopyImage(fs1).Ok? {
        var fs2 := CopyImage(fs1).value;
        if OthersImagePath !in fs1 {
          Posix.CopyPreservesWellFormed(fs1, DefaultImagePath, OthersImagePath);
        }
        assert Posix.WellFormed(fs2);
        assert Seed(s, newId).fs == fs2;
      }
    }
  }

  /** Running the seeder again changes nothing, whether the first run
      succeeded or stopped on an error. */
  lemma SeedIdempotent(s: State, id1: Id, id2: Id)
    ensures Seed(Seed(s, id1), id2) == Seed(s, id1)
  {
    var r := Seed(s, id1);
    if r.categories != s.categories {
      assert r.categories[|s.categories|] == OthersCategory(id1);
      assert FindCategoryByTitle(r.categories, OthersTitle).Some?;
    } else if FindCategoryByTitle(s.categories, OthersTitle).None? {
      if OthersFolder !in s.fs && Posix.MkdirP(s.fs, OthersFolder).Ok? {
        var fs1 := Posix.MkdirP(s.fs, OthersFolder).value;
        assert OthersFolder[..|OthersFolder|] == OthersFolder;
        assert r.fs == fs1;
      }
    }
  }

  /** The seeder leaves at most one "others" category if there was at most
      one before. */
  lemma SeedKeepsOneOthers(s: State, newId: Id)
    requires Count(s.categories, IsOthers) <= 1
    ensures Count(Seed(s, newId).categories, IsOthers) <= 1
  {
    var r := Seed(s, newId);
    if r.categories != s.categories {
      NoneCounted(s.categories);
      CountAppend(s.categories, OthersCategory(newId), IsOthers);
    }
  }

  lemma {:induction false} NoneCounted(cs: seq<CategoryDoc>)
    requires forall i :: 0 <= i < |cs| ==> cs[i].title != OthersTitle
    ensures Count(cs, IsOthers) == 0
  {
    if |cs| > 0 {
      NoneCounted(cs[1..]);
    }
  }
}

=== FILE: seqs.dfy ===
/** Array operations of the client code, stated once: `filter`, `filter(Boolean)`,
    `slice(-n)`, `reverse` and removal by index. */
module Seqs {
  import opened Wrappers

  /** `a` is obtained from `b` by deleting elements (order kept). */
  predicate IsSubseq<T(==)>(a: seq<T>, b: seq<T>)
    decreases |b|
  {
    if |a| == 0 then true
    else if |b| == 0 then false
    else (a[0] == b[0] && IsSubseq(a[1..], b[1..])) || IsSubseq(a, b[1..])
  }

  /** No element occurs twice. */
  predicate Distinct<T(==)>(xs: seq<T>) {
    forall i, j :: 0 <= i < j < |xs| ==> xs[i] != xs[j]
  }

  function Count<T>(xs: seq<T>, p: T -> bool): (n: nat)
    ensures n <= |xs|
  {
    if |xs| == 0 then 0 else (if p(xs[0]) then 1 else 0) + Count(xs[1..], p)
  }

  lemma {:induction false} CountAppend<T>(xs: seq<T>, x: T, p: T -> bool)
    ensures Count(xs + [x], p) == Count(xs, p) + (if p(x) then 1 else 0)
  {
    if |xs| > 0 {
      assert (xs + [x])[1..] == xs[1..] + [x];
      CountAppend(xs[1..], x, p);
    } else {
      assert xs + [x] == [x];
    }
  }

  /** `xs.filter(p)`: exactly the elements satisfying `p`, in their order. */
  function Filter<T(==)>(xs: seq<T>, p: T -> bool): (r: seq<T>)
    ensures forall i :: 0 <= i < |r| ==> p(r[i])
    ensures forall i :: 0 <= i < |xs| && p(xs[i]) ==> xs[i] in r
    ensures IsSubseq(r, xs)
    ensures |r| == Count(xs, p)
  {
    if |xs| == 0 then []
    else
      var rest := Filter(xs[1..], p);
      assert forall i :: 1 <= i < |xs| ==> xs[i] == xs[1..][i - 1];
      if p(xs[0]) then [xs[0]] + rest else rest
  }

  /** A predicate every element satisfies filters nothing out. */
  lemma {:induction false} FilterKeepsAll<T>(xs: seq<T>, p: T -> bool)
    requires forall i :: 0 <= i < |xs| ==> p(xs[i])
    ensures Filter(xs, p) == xs
  {
    if |xs| > 0 {
      FilterKeepsAll(xs[1..], p);
    }
  }

  /** Filtering a second time by the same predicate changes nothing. */
  lemma FilterIdempotent<T>(xs: seq<T>, p: T -> bool)
    ensures Filter(Filter(xs, p), p) == Filter(xs, p)
  {
    FilterKeepsAll(Filter(xs, p), p);
  }

  /** An element survives the filter exactly when it is in the source and
      satisfies the predicate. */
  lemma FilterMembership<T>(xs: seq<T>, p: T -> bool, x: T)
    ensures x in Filter(xs, p) <==> x in xs && p(x)
  {
    if x in Filter(xs, p) {
      SubseqMembers(Filter(xs, p), xs);
    }
  }

  lemma {:induction false} SubseqMembers<T>(a: seq<T>, b: seq<T>)
    requires IsSubseq(a, b)
    ensures forall x :: x in a ==> x in b
    decreases |b|
  {
    if |a| > 0 && |b| > 0 {
      if a[0] == b[0] && IsSubseq(a[1..], b[1..]) {
        SubseqMembers(a[1..], b[1..]);
        assert forall x :: x in a ==> x == a[0] || x in a[1..];
      } else {
        SubseqMembers(a, b[1..]);
      }
    }
  }

  // ------------------------------------------------------------ filter(Boolean)

  /** `[...].filter(Boolean)` over entries written `cond && value`:
      the present values, in order. */
  function Somes<T(==)>(xs: seq<Option<T>>): (r: seq<T>)
    ensures |r| <= |xs|
    ensures forall i :: 0 <= i < |r| ==> Some(r[i]) in xs
    ensures forall i :: 0 <= i < |xs| && xs[i].Some? ==> xs[i].value in r
  {
    if |xs| == 0 then []
    else
      var rest := Somes(xs[1..]);
      assert forall i :: 1 <= i < |xs| ==> xs[i] == xs[1..][i - 1];
      match xs[0]
      case Some(v) => [v] + rest
      case None => rest
  }

  lemma {:induction false} SomesAppend<T>(a: seq<Option<T>>, b: seq<Option<T>>)
    ensures Somes(a + b) == Somes(a) + Somes(b)
  {
    if |a| > 0 {
      assert (a + b)[1..] == a[1..] + b;
      SomesAppend(a[1..], b);
    } else {
      assert a + b == b;
    }
  }

  /** Every element, as a present entry. */
  function Lift<T>(xs: seq<T>): (r: seq<Option<T>>)
    ensures |r| == |xs| && forall i :: 0 <= i < |xs| ==> r[i] == Some(xs[i])
  {
    seq(|xs|, i requires 0 <= i < |xs| => Some(xs[i]))
  }

  /** Entries that are all present survive unchanged. */
  lemma {:induction false} SomesOfPresent<T>(xs: seq<T>)
    ensures Somes(Lift(xs)) == xs
  {
    if |xs| > 0 {
      assert Lift(xs)[1..] == Lift(xs[1..]);
      SomesOfPresent(xs[1..]);
    }
  }

  /** A present value as a one-element list, an absent one as the empty list. */
  function AsSeq<T>(o: Option<T>): seq<T> {
    if o.Some? then [o.value] else []
  }

  lemma {:induction false} SomesCons<T>(o: Option<T>, xs: seq<Option<T>>)
    ensures Somes([o] + xs) == AsSeq(o) + Somes(xs)
  {
    assert ([o] + xs)[1..] == xs;
  }

  // ------------------------------------------------------------ slice / reverse

  function Min(a: int, b: int): int {
    if a <= b then a else b
  }

  /** `xs.slice(-n)` for `n > 0`: the last `min(n, |xs|)` elements. */
  function TakeLast<T>(xs: seq<T>, n: nat): (r: seq<T>)
    requires n > 0
    ensures |r| == Min(n, |xs|)
    ensures forall i :: 0 <= i < |r| ==> r[i] == xs[|xs| - |r| + i]
  {
    if |xs| <= n then xs else xs[|xs| - n..]
  }

  /** `xs.reverse()`. */
  function Reverse<T>(xs: seq<T>): (r: seq<T>)
    ensures |r| == |xs|
    ensures forall i :: 0 <= i < |xs| ==> r[i] == xs[|xs| - 1 - i]
  {
    if |xs| == 0 then [] else Reverse(xs[1..]) + [xs[0]]
  }

  // ------------------------------------------------------------ removal by index

  /** `xs.splice(i, 1)` for `i >= 0`: removes index `i` when there is one. */
  function SpliceOne<T>(xs: seq<T>, i: nat): (r: seq<T>)
    ensures i < |xs| ==> |r| == |xs| - 1
    ensures i < |xs| ==> forall j :: 0 <= j < i ==> r[j] == xs[j]
    ensures i < |xs| ==> forall j :: i < j < |xs| ==> r[j - 1] == xs[j]
    ensures i >= |xs| ==> r == xs
  {
    if i < |xs| then xs[..i] + xs[i + 1..] else xs
  }

  /** The element at `j` after removing the one at `i`. */
  lemma SpliceOneAt<T>(xs: seq<T>, i: nat, j: nat)
    requires i < |xs| && j < |xs| - 1
    ensures SpliceOne(xs, i)[j] == if j < i then xs[j] else xs[j + 1]
  {
    if j >= i {
      assert SpliceOne(xs, i)[(j + 1) - 1] == xs[j + 1];
    }
  }

  /** `xs.filter((_, j) => j !== i)`, walking the array with the running index
      `from` of its first element. */
  function FilterOutIndex<T>(xs: seq<T>, i: int, from: int): (r: seq<T>)
    decreases |xs|
  {
    if |xs| == 0 then []
    else (if from == i then [] else [xs[0]]) + FilterOutIndex(xs[1..], i, from + 1)
  }

  /** Removing index `i` by filtering keeps every other element in order:
      the prefix before `i` and the suffix after it; an index outside the
      array removes nothing. */
  lemma {:induction false} FilterOutIndexIsSplice<T>(xs: seq<T>, i: int, from: int)
    ensures from <= i < from + |xs| ==>
      FilterOutIndex(xs, i, from) == xs[..i - from] + xs[i - from + 1..]
    ensures !(from <= i < from + |xs|) ==> FilterOutIndex(xs, i, from) == xs
    decreases |xs|
  {
    if |xs| > 0 {
      FilterOutIndexIsSplice(xs[1..], i, from + 1);
      if from == i {
        assert xs[..0] + xs[1..] == xs[1..];
      } else if from < i < from + |xs| {
        assert xs[1..][..i - from - 1] == xs[1..i - from];
        assert xs[1..][i - from..] == xs[i - from + 1..];
        assert [xs[0]] + xs[1..i - from] == xs[..i - from];
      } else {
        assert [xs[0]] + xs[1..] == xs;
      }
    }
  }

  /** Splicing one index out and filtering that index out are the same. */
  lemma SpliceIsFilterOutIndex<T>(xs: seq<T>, i: nat)
    ensures SpliceOne(xs, i) == FilterOutIndex(xs, i, 0)
  {
    FilterOutIndexIsSplice(xs, i, 0);
  }
}

=== FILE: strings.dfy ===
/** The handful of JavaScript string operations the storefront relies on:
    `startsWith`, `includes`, ASCII `toLowerCase`/`toUpperCase`, `trim` and
    `split` on a one-character separator. */
module Strings {

  predicate StartsWith(s: string, prefix: string) {
    prefix <= s
  }

  /** `s.includes(t)`: `t` starts at some position of `s`. */
  predicate Contains(s: string, t: string)
    decreases |s|
  {
    t <= s || (|s| > 0 && Contains(s[1..], t))
  }

  // ---------------------------------------------------------------- case

  function LowerChar(c: char): char {
    if 'A' <= c <= 'Z' then (c as int + 32) as char else c
  }

  function UpperChar(c: char): char {
    if 'a' <= c <= 'z' then (c as int - 32) as char else c
  }

  /** ASCII-only `toLowerCase`. */
  function ToLower(s: string): (r: string)
    ensures |r| == |s|
    ensures forall i :: 0 <= i < |s| ==> r[i] == LowerChar(s[i])
  {
    seq(|s|, i requires 0 <= i < |s| => LowerChar(s[i]))
  }

  /** ASCII-only `toUpperCase`. */
  function ToUpper(s: string): (r: string)
    ensures |r| == |s|
    ensures forall i :: 0 <= i < |s| ==> r[i] == UpperChar(s[i])
  {
    seq(|s|, i requires 0 <= i < |s| => UpperChar(s[i]))
  }

  /** Lower-casing twice is lower-casing once. */
  lemma ToLowerIdempotent(s: string)
    ensures ToLower(ToLower(s)) == ToLower(s)
  {
  }

  // ---------------------------------------------------------------- trim

  /** ASCII whitespace; the Unicode space separators JavaScript also trims are
      not modelled. */
  predicate IsSpace(c: char) {
    c == ' ' || c == '\t' || c == '\n' || c == '\r' || c == '\U{000B}' || c == '\U{000C}'
  }

  function TrimStart(s: string): (r: string)
    ensures |r| <= |s|
    ensures r == s[|s| - |r|..]
    ensures r != [] ==> !IsSpace(r[0])
    ensures forall i :: 0 <= i < |s| - |r| ==> IsSpace(s[i])
  {
    if |s| > 0 && IsSpace(s[0]) then TrimStart(s[1..]) else s
  }

  function TrimEnd(s: string): (r: string)
    ensures |r| <= |s|
    ensures r == s[..|r|]
    ensures r != [] ==> !IsSpace(r[|r| - 1])
    ensures forall i :: |r| <= i < |s| ==> IsSpace(s[i])
  {
    if |s| > 0 && IsSpace(s[|s| - 1]) then TrimEnd(s[..|s| - 1]) else s
  }

  function Trim(s: string): string {
    TrimEnd(TrimStart(s))
  }

  /** The string is empty or whitespace only. */
  predicate IsBlank(s: string) {
    forall i :: 0 <= i < |s| ==> IsSpace(s[i])
  }

  /** `!s.trim()` is exactly blankness: trimming leaves nothing exactly when
      every character is whitespace. */
  lemma BlankIffTrimsAway(s: string)
    ensures IsBlank(s) <==> Trim(s) == ""
  {
    if IsBlank(s) {
      AllSpaceTrimsAway(s);
    }
    if Trim(s) == "" {
      assert TrimStart(s) == "";
    }
  }

  lemma {:induction false} AllSpaceTrimsAway(s: string)
    requires forall i :: 0 <= i < |s| ==> IsSpace(s[i])
    ensures TrimStart(s) == ""
    decreases |s|
  {
    if |s| > 0 {
      AllSpaceTrimsAway(s[1..]);
    }
  }

  // ---------------------------------------------------------------- split

  /** `s.split(sep)` for a one-character separator: the fields between
      separators, so there is always one more field than separators. */
  function Split(s: string, sep: char): (r: seq<string>)
    ensures |r| >= 1
    decreases |s|
  {
    if |s| == 0 then [""]
    else
      var rest := Split(s[1..], sep);
      if s[0] == sep then [""] + rest else [[s[0]] + rest[0]] + rest[1..]
  }

  /** `parts.join(sep)`. */
  function JoinWith(parts: seq<string>, sep: char): string
    requires |parts| >= 1
    decreases |parts|
  {
    if |parts| == 1 then parts[0] else parts[0] + [sep] + JoinWith(parts[1..], sep)
  }

  /** No field of a split contains the separator. */
  lemma {:induction false} SplitFieldsFree(s: string, sep: char)
    ensures forall k :: 0 <= k < |Split(s, sep)| ==> sep !in Split(s, sep)[k]
    decreases |s|
  {
    if |s| > 0 {
      SplitFieldsFree(s[1..], sep);
    }
  }

  /** Splitting and re-joining on the same separator gives back the string. */
  lemma {:induction false} SplitJoin(s: string, sep: char)
    ensures JoinWith(Split(s, sep), sep) == s
    decreases |s|
  {
    if |s| > 0 {
      var rest := Split(s[1..], sep);
      SplitJoin(s[1..], sep);
      if s[0] == sep {
        assert Split(s, sep)[1..] == rest;
      } else {
        var r := Split(s, sep);
        assert r[0] == [s[0]] + rest[0];
        assert r[1..] == rest[1..];
        if |rest| == 1 {
          assert JoinWith(r, sep) == [s[0]] + rest[0];
        } else {
          assert JoinWith(r, sep) == [s[0]] + rest[0] + [sep] + JoinWith(rest[1..], sep);
          assert JoinWith(rest, sep) == rest[0] + [sep] + JoinWith(rest[1..], sep);
        }
        assert s == [s[0]] + s[1..];
      }
    }
  }

  /** The field after the first separator is the text up to the next one. */
  lemma {:induction false} SplitAfterFirstSeparator(s: string, sep: char, pre: string)
    requires sep !in pre
    ensures |Split(pre + [sep] + s, sep)| >= 2
    ensures Split(pre + [sep] + s, sep)[0] == pre
    ensures Split(pre + [sep] + s, sep)[1] == Split(s, sep)[0]
    decreases |pre|
  {
    if |pre| == 0 {
      assert pre + [sep] + s == [sep] + s;
      assert ([sep] + s)[1..] == s;
    } else {
      var w := pre + [sep] + s;
      assert w[0] == pre[0];
      assert w[1..] == pre[1..] + [sep] + s;
      SplitAfterFirstSeparator(s, sep, pre[1..]);
      assert pre == [pre[0]] + pre[1..];
    }
  }

  // ---------------------------------------------------------------- digits

  predicate IsDigit(c: char) {
    '0' <= c <= '9'
  }

  /** The decimal digit `d` as a character: what `"" + d` gives for 0 <= d <= 9. */
  function DigitChar(d: int): (c: char)
    requires 0 <= d <= 9
    ensures IsDigit(c)
    ensures c as int - '0' as int == d
  {
    ('0' as int + d) as char
  }

  /** `String(n)` for a non-negative integer. */
  function NatToString(n: nat): (s: string)
    ensures |s| >= 1
    ensures forall i :: 0 <= i < |s| ==> IsDigit(s[i])
    decreases n
  {
    if n < 10 then [DigitChar(n)] else NatToString(n / 10) + [DigitChar(n % 10)]
  }
}

=== FILE: upload.dfy ===
/** The multer configuration of `upload.js`: which folder an upload is meant
    for, which MIME types are accepted, how the stored file is named and how
    large it may be. */
module Upload {
  import opened Wrappers
  import opened Strings
  import opened Paths

  /** `path.join(__dirname, "uploads")` for `src/utils/upload.js`. */
  const UploadsRoot: Path := ["src", "utils", "uploads"]

  /** Why no folder could be chosen. */
  datatype DestinationError = TitleRequired(message: string) | InvalidRoute

  /** The folder the destination callback computes from the request path:
      the substring tests run in the order "category", "blog", "product",
      each folder is named after the request's title, and a missing title or
      an unknown route is an error. */
  function UploadFolder(routePath: string, title: string): (r: Result<Path, DestinationError>)
    ensures Contains(routePath, "category") ==>
      r == (if title == "" then Err(TitleRequired("Category title is required"))
            else Ok(UploadsRoot + ["categories", title]))
    ensures !Contains(routePath, "category") && Contains(routePath, "blog") ==>
      r == (if title == "" then Err(TitleRequired("Blog title is required."))
            else Ok(UploadsRoot + ["blogs", title]))
    ensures !Contains(routePath, "category") && !Contains(routePath, "blog") && Contains(routePath, "product") ==>
      r == (if title == "" then Err(TitleRequired("Product title is required"))
            else Ok(UploadsRoot + ["product", title]))
    ensures r == Err(InvalidRoute) <==>
      !Contains(routePath, "category") && !Contains(routePath, "blog") && !Contains(routePath, "product")
  {
    if Contains(routePath, "category") then
      if title == "" then Err(TitleRequired("Category title is required"))
      else Ok(Join(UploadsRoot, ["categories", title]))
    else if Contains(routePath, "blog") then
      if title == "" then Err(TitleRequired("Blog title is required."))
      else Ok(Join(UploadsRoot, ["blogs", title]))
    else if Contains(routePath, "product") then
      if title == "" then Err(TitleRequired("Product title is required"))
      else Ok(Join(UploadsRoot, ["product", title]))
    else Err(InvalidRoute)
  }

  /** A route naming both a category and a product goes to the categories
      folder, because the category test runs first. */
  lemma CategoryWinsOverProduct(routePath: string, title: string)
    requires Contains(routePath, "category") && Contains(routePath, "product")
    requires title != ""
    ensures UploadFolder(routePath, title) == Ok(UploadsRoot + ["categories", title])
  {
  }

  /** One call of multer's destination callback `cb(error, path)`. */
  datatype Callback = CbError(message: string) | CbPath(path: Path)

  const JoinTypeError: string := "The \"path\" argument must be of type string. Received undefined"
  const MkdirMissing: string := "mkdir is not defined"

  /** The callback calls the destination function makes, in order. `title`
      is `req.body.title`, absent when the field was not sent. A missing title
      is reported and the function carries on; the folder is then handed to
      `mkdir`, which the module never defines, so the call throws and the
      handler reports that instead of the folder. */
  function DestinationCallbacks(routePath: string, title: Option<string>): (calls: seq<Callback>)
    ensures forall i :: 0 <= i < |calls| ==> calls[i].CbError?
    ensures 1 <= |calls| <= 2
    ensures UploadFolder(routePath, title.GetOr("")) == Err(InvalidRoute) <==> calls == [CbError("Invalid route.")]
    ensures UploadFolder(routePath, title.GetOr("")).Err? && UploadFolder(routePath, title.GetOr("")) != Err(InvalidRoute) ==>
      |calls| == 2 && calls[0] == CbError(UploadFolder(routePath, title.GetOr("")).error.message)
      && calls[1] == CbError("Failed to create directory: " + (if title.None? then JoinTypeError else MkdirMissing))
    ensures UploadFolder(routePath, title.GetOr("")).Ok? ==>
      calls == [CbError("Failed to create directory: " + MkdirMissing)]
  {
    var failure := CbError("Failed to create directory: " + (if title.None? then JoinTypeError else MkdirMissing));
    match UploadFolder(routePath, title.GetOr(""))
    case Err(InvalidRoute) => [CbError("Invalid route.")]
    case Err(TitleRequired(m)) => [CbError(m), failure]
    case Ok(_) => [failure]
  }

  const AllowedTypes: seq<string> := ["image/jpeg", "image/png", "application/pdf"]

  /** `fileFilter`: the callback's verdict, `Ok(true)` to accept. */
  function FileFilter(mimetype: string): (r: Result<bool, string>)
    ensures r.Ok? <==> mimetype == "image/jpeg" || mimetype == "image/png" || mimetype == "application/pdf"
    ensures r.Ok? ==> r.value
    ensures r.Err? ==> r.error == "Invalid file type"
  {
    if mimetype in AllowedTypes then Ok(true) else Err("Invalid file type")
  }

  /** The forms accept any `image/` type, the server only two of them: a GIF
      passes the browser check and is refused here, and a PDF, which every
      form refuses, would be accepted. */
  lemma FilterDisagreesWithFormCheck()
    ensures StartsWith("image/gif", "image/") && FileFilter("image/gif").Err?
    ensures !StartsWith("application/pdf", "image/") && FileFilter("application/pdf").Ok?
  {
    assert "image/gif"[..6] == "image/";
    assert AllowedTypes[2] == "application/pdf";
    assert "application/pdf"[0] != "image/"[0];
  }

  /** `limits.fileSize`. */
  const MaxFileSize: nat := 5 * 1024 * 1024

  predicate WithinSizeLimit(size: nat) {
    size <= MaxFileSize
  }

  /** What multer does with one file of `size` bytes: `fileFilter` decides
      first, when the part starts; a part that then streams past
      `limits.fileSize` fails with multer's `LIMIT_FILE_SIZE` error. */
  function AcceptFile(mimetype: string, size: nat): (r: Result<bool, string>)
    ensures r.Ok? <==> FileFilter(mimetype).Ok? && size <= 5242880
    ensures r.Ok? ==> r.value
    ensures FileFilter(mimetype).Err? ==> r == FileFilter(mimetype)
    ensures FileFilter(mimetype).Ok? && size > 5242880 ==> r == Err("File too large")
  {
    var accepted :- FileFilter(mimetype);
    if !WithinSizeLimit(size) then Err("File too large") else Ok(accepted)
  }

  /** `Date.now() + "-" + Math.round(Math.random() * 1e9)`, with the clock and
      the rounded random number as parameters. */
  function UniqueSuffix(now: nat, random: nat): (s: string)
    requires random <= 1000000000
    ensures '.' !in s && |s| >= 3
  {
    var a := NatToString(now);
    var b := NatToString(random);
    var s := a + "-" + b;
    assert forall i :: 0 <= i < |s| ==> s[i] == '-' || IsDigit(s[i]);
    s
  }

  /** The `filename` callback: field name, dash, suffix, original extension. */
  function StoredFilename(fieldname: string, suffix: string, originalname: Segment): (name: Segment)
    ensures StartsWith(name, fieldname + "-")
    ensures |name| >= |ExtOf(originalname)| && name[|name| - |ExtOf(originalname)|..] == ExtOf(originalname)
  {
    var stem := fieldname + "-" + suffix;
    assert (stem + ExtOf(originalname))[..|fieldname + "-"|] == fieldname + "-";
    assert (stem + ExtOf(originalname))[|stem|..] == ExtOf(originalname);
    stem + ExtOf(originalname)
  }

  /** The stored file keeps the uploaded file's extension, so `extname` of
      the stored name is the original extension whenever the field name has
      no dot. */
  lemma StoredFilenameKeepsExtension(fieldname: string, now: nat, random: nat, originalname: Segment)
    requires random <= 1000000000
    requires '.' !in fieldname
    ensures ExtOf(StoredFilename(fieldname, UniqueSuffix(now, random), originalname)) == ExtOf(originalname)
  {
    var suffix := UniqueSuffix(now, random);
    var stem := fieldname + "-" + suffix;
    assert '.' !in stem;
    ExtOfStemAndExt(stem, originalname);
  }
}

=== FILE: wrappers.dfy ===
/** Failure-compatible wrappers shared by every module of the storefront model:
    `Option` stands for JavaScript's null/undefined, `Result` for a call that
    either returns a value or throws. */
module Wrappers {

  datatype Option<+T> = None | Some(value: T) {

    predicate IsFailure() {
      None?
    }

    function PropagateFailure<U>(): Option<U>
      requires None?
    {
      None
    }

    function Extract(): T
      requires Some?
    {
      value
    }

    /** JavaScript's `x || d` for a value that is either absent or truthy. */
    function GetOr(default: T): T {
      match this
      case Some(v) => v
      case None => default
    }
  }

  datatype Result<+R, +E> = Ok(value: R) | Err(error: E) {

    predicate IsFailure() {
      Err?
    }

    function PropagateFailure<U>(): Result<U, E>
      requires Err?
    {
      Err(error)
    }

    function Extract(): R
      requires Ok?
    {
      value
    }
  }
}
